=== FILE: README.md ===
# LocoTool, modelled in Dafny

LocoTool localises game assets whose lines are '#'-separated records. The work has three steps:

1. **Extract.** A Python script (`loctool.py`) pulls every field that contains a CJK ideograph into an exchange table. Each table row holds the field's line number, field index, a record-id guess, the original text and an empty translation.
2. **Translate.** A C# console program (`Program.cs`) reads that table and selects the rows that still need a translation. It packs their source texts greedily into batches under a character budget, sends each batch to a translation service, and writes the translations back. It then writes the table again.
   - The `all` mode does the same work on the raw tab-separated text in memory (`TranslateTsvInMemory`).
3. **Apply.** The Python script applies the filled-in table to the asset. It looks up every field by (line, field, original text), falls back to (line, field), and rebuilds each line with '#'.

The model covers both core files: the pipeline in `Program.cs` and the extract/apply script in `loctool.py`. The loops that work step by step are imperative Dafny methods: batching, flushing, merging, reading and writing the table, the in-memory variant, and extract/apply. Each method is proved equal to a functional specification, and the properties the source promises are proved about that specification as lemmas.

Modules, by file:

- `outcomes.dfy`: `Option` and `Result`.
- `text.dfy`: one-character split and join, line splitting, `TrimEnd`/`rstrip`, newline flattening, the whitespace classes of .NET and Python, ASCII case-insensitive comparison, first or last index of a name, and the UTF-16 length of a text.
- `numbers.dfy`: decimal rendering, C# `int.TryParse` (with the 32-bit range) and Python `int()`.
- `exchange_table.dfy`: `Row`, `ReadRows`, `WriteRows` and their round trip.
- `batching.dfy`: the greedy packer shared by both translation loops. It covers coverage, order, the budget, and the uniqueness of the greedy split.
- `backend.dfy`: the translation service as a function parameter that may fail, plus `EnforceGlossaryLimit`.
- `table_translation.dfy`: `TranslateTableAsync`, covering selection, flush, merge and the write after the last flush.
- `in_memory.dfy`: `TranslateTsvInMemory`.
- `cli.dfy`: `IsHelp`, `GetOptionValue`, `ResolveDelimiter`, `DetectDelimiter`.
- `hash_fields.dfy`: `_split_hash_preserve_trailing` / `_join_hash_preserve_trailing`.
- `extract.dfy`: `_CJK_RE` and `extract_strings`.
- `apply.dfy`: `apply_translations`, and the extract-then-apply round trip.
- `all_mode.dfy`: the `all` command (extract, translate in memory, apply), with the table as the code builds it and as it is evidently meant to be built (see "Findings").

Where the code and its documentation differ, the model follows the code. `TranslateTsvInMemory` does not keep blank lines in place. It emits them right after the header, then all data lines (`Program.cs` lines 266 and 321), and the model does the same. Its pending index is the literal `x.idx - 1` (line 275). That is a position in `data` only when no blank line precedes a data line, so `TranslateTsv` requires exactly that, and `ShiftedSelection` exhibits the shift otherwise. Batch sizes and the one-character delimiter test count UTF-16 units, as C#'s `Length` does (`Utf16Length`).

## Model

| member | source | states |
|---|---|---|
| ExchangeTable.HeaderLayout | LocoTool/Program.cs:336-347 | the result is `None` exactly when one of the four required column names is missing, compared case-insensitively; otherwise each position is the first column holding its name, as `Array.FindIndex` returns |
| ExchangeTable.ReadRows | LocoTool/Program.cs:331-368 | the line loop yields exactly `DecodeTable`: a schema error when a column is missing, otherwise one row per line whose two integer cells parse, with missing cells read as "" |
| ExchangeTable.DecodeLine | LocoTool/Program.cs:352-366 | a line gives a row exactly when both key cells parse as 32-bit integers; the row holds those values and the `orig_text` and `translated_text` cells, "" for a missing cell |
| ExchangeTable.KeptLines | LocoTool/Program.cs:349-367 | the positions of the lines that give a row: all of them, each once, in increasing order |
| ExchangeTable.DecodeLinesKept | LocoTool/Program.cs:349-367 | the rows read are exactly the rows of the kept lines, one per kept line, in line order; a line with a non-integer key is skipped |
| ExchangeTable.EncodeLines | LocoTool/Program.cs:374-384 | one written line per row, in order |
| ExchangeTable.WriteRows | LocoTool/Program.cs:370-385 | the writer emits the fixed five-column header and then one line per row, each terminated by '\n' |
| ExchangeTable.HeaderRoundTrip | LocoTool/Program.cs:337-373 | the written header splits back into the five names, and the reader finds its columns at 0, 1, 3, 4 |
| ExchangeTable.EncodedLineCells | LocoTool/Program.cs:352-383 | a written line splits back into its five cells: the numbers, an empty `record_id_guess`, and the two flattened texts |
| ExchangeTable.DecodeEncodeLine | LocoTool/Program.cs:352-383 | reading a written line gives the row with '\n' flattened to ' ' in both texts |
| ExchangeTable.DecodeEncodeLines | LocoTool/Program.cs:349-384 | the same for every row, in order |
| ExchangeTable.WrittenLinesUnbroken | LocoTool/Program.cs:373-384 | no written line contains a line break, so the reader sees exactly the written lines |
| ExchangeTable.ReadAfterWrite | LocoTool/Program.cs:331-385 | for a delimiter that is not a line break and cannot occur in a header name or a rendered integer (`SafeDelimiter`), reading what `WriteRows` wrote gives back the rows with flattened texts, whenever no text holds '\r' and no text, once its line breaks are flattened to spaces, holds the delimiter (`TransparentRows`) |
| ExchangeTable.ReadAfterWriteExact | LocoTool/Program.cs:331-385 | for a `SafeDelimiter`, rows whose texts hold neither the delimiter, '\n' nor '\r' are read back exactly |
| ExchangeTable.FlattenedRows | LocoTool/Program.cs:381-382 | flattening maps every row and keeps the count |
| Numbers.NatToString | LocoTool/Program.cs:378-379 | the invariant-culture rendering is non-empty, all digits, denotes the number, and has no leading zero |
| Numbers.ParseSigned | LocoTool/Program.cs:358-359 | a parse succeeds exactly for an optional sign followed by at least one digit; its value is the value of the digits, negated after '-' |
| Numbers.StripSpec | LocoTool/Program.cs:358-359 | trimming removes exactly the white space around the text: the result is a slice of the input that neither starts nor ends with white space, and only white space lies outside it |
| Numbers.StripPadded | LocoTool/Program.cs:358-359 | white space around a text that neither starts nor ends with white space is removed, and nothing else |
| Numbers.TryParseInt32 | LocoTool/Program.cs:358-359 | `int.TryParse` with `NumberStyles.Integer` succeeds exactly when the text, stripped of white space, is a signed decimal in the 32-bit range, and then returns its value |
| Numbers.TryParsePadded | LocoTool/Program.cs:358-379 | every 32-bit value, rendered and surrounded by any white space, parses back to itself |
| Numbers.TryParseIntToString | LocoTool/Program.cs:358-379 | parsing a rendered `int` gives it back |
| Numbers.PyIntNatToString | LocoTool/loctool.py:68-69 | Python `int()` reads back what `str()` writes for a line number or field index |
| TableTranslation.PendingIndices | LocoTool/Program.cs:191-195 | the selected indices increase and are in range, and an index is selected if and only if its row has source text and no translation |
| TableTranslation.Plan | LocoTool/Program.cs:216-225 | the batches concatenate back to the selection in order and none is empty |
| Batching.BatchesCover | LocoTool/Program.cs:216-225 | every selected index lands in a batch, in order: the batches concatenate to the items |
| Batching.BatchWithinBudget | LocoTool/Program.cs:218-223 | every sent batch is non-empty and within the character budget, unless it is a single row longer than the budget |
| Batching.BatchesWellPacked | LocoTool/Program.cs:216-225 | consecutive batches are split only where adding the next row would pass the budget |
| Batching.BatchesUnique | LocoTool/Program.cs:216-225 | the greedy split is the only well-packed split of the items |
| Batching.GreedyInvariant | LocoTool/Program.cs:197-224 | the loop state (sent batches, open batch, running sum) keeps the packer invariant after every item |
| Batching.StepInvariant | LocoTool/Program.cs:218-223 | one loop step, with or without a flush, preserves the invariant |
| Batching.BatchesOfEmpty | LocoTool/Program.cs:202-225 | no selected row means no batch, so the service is never called |
| TableTranslation.Merge | LocoTool/Program.cs:209-210 | the merge changes only `TranslatedText`, keeps every row outside the batch, and gives each batched row its reply |
| TableTranslation.SendBatch | LocoTool/Program.cs:200-214 | an empty batch changes nothing; a success changes only translations; a failure is a transport error or a reply too short for `translated[j]` |
| TableTranslation.RunBatches | LocoTool/Program.cs:216-225 | running the batches in order changes only translations |
| TableTranslation.RunBatchesFailureSticks | LocoTool/Program.cs:220-225 | once a batch fails, later batches do not run and the failure is the result |
| TableTranslation.FlushAsync | LocoTool/Program.cs:200-214 | the flush sends the open batch and leaves an empty batch with a zero sum |
| TableTranslation.TranslatePositions | LocoTool/Program.cs:197-225 | the loop with its flushes computes the greedy plan sent batch by batch |
| TableTranslation.TranslateTable | LocoTool/Program.cs:187-227 | the whole operation is its specification: read, select, batch by source length in UTF-16 units, and write only when every batch succeeded |
| TableTranslation.AstralRowsSplit | LocoTool/Program.cs:216-223 | two rows of two characters above U+FFFF weigh 4 units each, so a budget of 4 sends them in two batches |
| TableTranslation.TranslatePendingEffect | LocoTool/Program.cs:191-227 | after a successful run, rows that were not pending are unchanged, every batched row was pending, and each got the service's reply for its position in its batch |
| TableTranslation.RunBatchesSucceeds | LocoTool/Program.cs:205-210 | the run succeeds exactly when every batch request is answered with at least as many texts as were sent |
| TableTranslation.RerunSelectsNothing | LocoTool/Program.cs:191-195 | with a service that never answers blank, no row of the in-memory result of a successful run is pending |
| TableTranslation.FlattenedPending | LocoTool/Program.cs:191-195 | flattening line breaks keeps a row pending, or not pending |
| TableTranslation.RerunReadsNothing | LocoTool/Program.cs:187-227 | with a service that never answers blank, a `SafeDelimiter`, and result rows whose texts survive the round trip (`TransparentRows`: no '\r', and no delimiter once line breaks are flattened), the table written after a successful run is read back as its flattened rows, and none of them is pending: a second run over the output file sends nothing. A reply holding the delimiter is split into further cells and may read back blank |
| Backend.EnforceGlossaryLimit | LocoTool/Program.cs:387-393 | the result is a prefix of the input; the input itself when it fits; exactly `maxPairs` entries (none for a negative limit) otherwise |
| Backend.EnforceGlossaryLimitIdempotent | LocoTool/Program.cs:387-393 | limiting twice is limiting once |
| Backend.EnforceGlossaryLimitCompose | LocoTool/Program.cs:387-393 | limiting to `m` and then to `n <= m` is limiting to `n` |
| Cli.IsHelpUpper | LocoTool/Program.cs:397-400 | an argument is a help switch exactly when its upper-case form is `-H`, `--HELP` or `HELP` |
| Cli.GetOptionValue | LocoTool/Program.cs:402-408 | a value is found exactly when some argument before the last matches the key case-insensitively, and it is the argument after the first match |
| Cli.ResolveDelimiter | LocoTool/Program.cs:410-426 | the delimiter is the default, a tab, or the option value when that is one character; the default when the option is absent |
| Cli.ResolveGivenDelimiter | LocoTool/Program.cs:415-423 | any option value of one UTF-16 unit is the delimiter |
| Cli.ResolveOtherValue | LocoTool/Program.cs:413-424 | any other value (empty, longer, or one character above U+FFFF, which is two units) gives the default |
| Cli.ResolveAfterCommand | LocoTool/Program.cs:402-423 | `--delimiter ;` after the command word and two paths gives ';' |
| Cli.ResolveTabWords | LocoTool/Program.cs:417-424 | `tab` and `\t` name the tab character; the `switch` is case-sensitive, so `TAB` falls back to the default |
| Cli.DetectDelimiter | LocoTool/Program.cs:327 | a tab if the header holds one, a comma otherwise |
| TsvTranslation.LocateColumns | LocoTool/Program.cs:244-256 | the header loop records, for each of the four names, the last column with that name, -1 if none |
| TsvTranslation.CollectLines | LocoTool/Program.cs:258-269 | the line loop collects the blank lines and the data entries of the specification |
| TsvTranslation.DataEntries | LocoTool/Program.cs:263-269 | each data entry is a non-blank line with its '\r' trimmed, its cells split on '\t', and increasing line positions |
| TsvTranslation.BlankLines | LocoTool/Program.cs:266 | the collected blank lines are all white space; with `BlankPositions` and `BlankLinesAt` they are exactly the input's '\r'-trimmed blank lines after the header, in input order |
| TsvTranslation.BlankPositions | LocoTool/Program.cs:263-266 | the positions of the blank lines after the header: in range, increasing, each a white-space line once '\r' is trimmed, and every such line among them |
| TsvTranslation.BlankLinesAt | LocoTool/Program.cs:263-266 | the collected blank lines are, in input order, exactly the '\r'-trimmed lines at the blank positions, one per blank line |
| TsvTranslation.PartitionCount | LocoTool/Program.cs:263-269 | every line after the header is either blank or data |
| TsvTranslation.DataComplete | LocoTool/Program.cs:263-269 | every non-blank line after the header is a data entry |
| TsvTranslation.NumberedData | LocoTool/Program.cs:275 | without blank lines before data, entry `p` comes from line `p + 1`, so `idx - 1` is its position |
| TsvTranslation.TransIndicesSelect | LocoTool/Program.cs:271-276 | on numbered entries, the selected positions increase, are in range, and a position is selected iff the entry has source text and no translation |
| TsvTranslation.ShiftedSelection | LocoTool/Program.cs:266-275 | with a blank line before the data the selection names position 1 of a one-entry list, so `data[idx]` (line 312) is out of range |
| TsvTranslation.TsvPlan | LocoTool/Program.cs:310-318 | the batches concatenate to the selection in order and none is empty |
| TsvTranslation.Expand | LocoTool/Program.cs:296-302 | the expanded array has `idxTrans + 1` cells: the old cells, then "" |
| TsvTranslation.Padded | LocoTool/Program.cs:296-302 | padding keeps every existing cell and reads as "" past the end |
| TsvTranslation.Retranslate | LocoTool/Program.cs:293-304 | the entry keeps its position, its cells are padded to the `translated_text` column, which receives the reply with '\n' flattened to ' ', and every other cell is unchanged |
| TsvTranslation.RetranslateEntry | LocoTool/Program.cs:293-304 | one pass of the merge loop, array expansion included, yields exactly `Retranslate` of the entry and the reply |
| TsvTranslation.RetranslateTwice | LocoTool/Program.cs:293-304 | a second translation of the same entry overrides the first |
| TsvTranslation.RetranslateReadBack | LocoTool/Program.cs:267-304 | the rebuilt line splits back into its cells when the reply holds no tab |
| TsvTranslation.RetranslateUnbroken | LocoTool/Program.cs:303-304 | the rebuilt line holds no line break |
| TsvTranslation.MergeTsv | LocoTool/Program.cs:291-305 | after the merge, each batched entry is its retranslation with its last reply, and every other entry is unchanged |
| TsvTranslation.MergeTsvOnlyTranslations | LocoTool/Program.cs:291-305 | the merge keeps the count, the positions, the source cells and all cells but `translated_text` |
| TsvTranslation.SendTsvBatch | LocoTool/Program.cs:282-308 | an empty batch changes nothing; a success changes only translations; a failure is a transport error or a short reply |
| TsvTranslation.RunTsvOnlyTranslations | LocoTool/Program.cs:291-318 | a successful run of the batches keeps every entry's position and every cell outside `translated_text` |
| TsvTranslation.RunTsvFailureSticks | LocoTool/Program.cs:314-318 | a failed batch ends the run with its failure |
| TsvTranslation.FlushTsv | LocoTool/Program.cs:282-308 | the flush sends the open batch and leaves an empty batch with a zero sum |
| TsvTranslation.TranslateEntries | LocoTool/Program.cs:279-318 | the loop with its flushes computes the greedy plan sent batch by batch |
| TsvTranslation.TranslateTsv | LocoTool/Program.cs:232-323 | the whole method is its specification: header, then the blank lines, then the data lines, joined with '\n', or the first failure; batches are sized in UTF-16 units |
| TsvTranslation.RunTsvBatchesEffect | LocoTool/Program.cs:291-318 | after a successful run every entry outside the plan is unchanged and every planned entry holds the reply for its position in its batch |
| TsvTranslation.TranslateTsvEffect | LocoTool/Program.cs:271-318 | entries that need no translation are unchanged, every planned entry needed one, and every batch was answered |
| TsvTranslation.TranslatedEntries | LocoTool/Program.cs:303-304 | every output entry is a single line, and splitting it on tabs gives its cells when no reply holds a tab |
| TsvTranslation.TranslateTsvLines | LocoTool/Program.cs:258-322 | the result splits into the header, the blank lines and the data lines in input order, as many lines as the input |
| TsvTranslation.TsvRerunSelectsNothing | LocoTool/Program.cs:271-276 | with a service that never answers blank, no entry of the in-memory result of a successful run needs a translation |
| TsvTranslation.RereadEntry | LocoTool/Program.cs:263-276 | a line read back without its trailing '\r' needs a translation exactly when the entry it came from does |
| TsvTranslation.TsvRerunReadsNothing | LocoTool/Program.cs:232-323 | with a service that never answers blank or with a tab, the returned text, read again, has the same header and selects nothing: a second run over it sends nothing |
| HashFields.SplitHashPreserveTrailing | LocoTool/loctool.py:8-15 | the parts are the fields of the line without its trailing '\n', and the trailing count is always 0 |
| HashFields.FieldsCount | LocoTool/loctool.py:9-11 | a line has one more field than it has '#' characters, and no field holds a '#' |
| HashFields.JoinFields | LocoTool/loctool.py:8-21 | joining the fields of a line gives the line back without its trailing line breaks |
| HashFields.FieldsJoin | LocoTool/loctool.py:8-21 | splitting a joined line gives the fields back, plus one empty field per trailing '#', when no field holds '#' or a line break |
| Extract.CjkRangeEnds | LocoTool/loctool.py:6 | `IsCjk` holds exactly on U+3400..U+4DBF, U+4E00..U+9FFF and U+F900..U+FAFF: the first and last code point of each range are CJK, and the code points just outside each range are not |
| Extract.HasCjkConcat | LocoTool/loctool.py:35 | `search` (`HasCjk`) finds a CJK character in a concatenation exactly when it finds one in either part |
| Extract.RecordIdGuess | LocoTool/loctool.py:33-41 | the record id is the first field whenever that field is all digits, and "" otherwise |
| Extract.HitsSound | LocoTool/loctool.py:31-45 | every extracted hit is field `idx` of line `lineNo` (numbered from 1), contains a CJK ideograph, and carries its line's record-id guess |
| Extract.HitsComplete | LocoTool/loctool.py:31-45 | every field with a CJK ideograph is extracted |
| Extract.HitsOrdered | LocoTool/loctool.py:31-45 | the hits come in line order, then field order |
| Extract.LineHitsSound | LocoTool/loctool.py:34-35 | the hits of one line are its CJK fields, in field order |
| Extract.ExtractStrings | LocoTool/loctool.py:23-48 | the nested loops produce the header, '\n', and one row per hit joined with '\n' |
| Extract.ExtractLine | LocoTool/loctool.py:33-45 | the inner loop appends exactly the rows of the line's CJK fields, in field order, each with the line number and record-id guess |
| Apply.ParseRow | LocoTool/loctool.py:64-73 | a row is skipped when it is blank to `str.strip`, or when either key column is absent, out of range or not an `int()`; otherwise both keys are the `int()` values of their cells, and `orig_text` and `translated_text` are their cells, or "" when the column is absent or the row too short |
| Apply.ParseExtractedRow | LocoTool/loctool.py:64-73 | a row that extraction wrote with a tab delimiter, for a text without tab or line break, is read back under the extracted header's columns as its line number, field index and text, with an empty translation |
| Apply.LoadRows | LocoTool/loctool.py:63-75 | the loading loop fills both dictionaries as the row-by-row specification does |
| Apply.LoadGet | LocoTool/loctool.py:63-75 | under every key, the dictionaries hold the translation of the last kept row with that key, and nothing when no row has it (blank or non-integer rows are never kept) |
| Apply.LastRow | LocoTool/loctool.py:74-75 | the last kept row with a key, or -1 when none has it |
| Apply.LookupLoaded | LocoTool/loctool.py:82-86 | the strict key wins even over a later row with another original text; the loose key is the fallback |
| Apply.ReplacedOnlyIfMatched | LocoTool/loctool.py:84-91 | a field changes only when a row has its line and field, and never to an empty text unless `apply_empty` is set |
| Apply.TranslateFields | LocoTool/loctool.py:81-91 | the field loop replaces each field by its looked-up translation |
| Apply.ApplyTranslations | LocoTool/loctool.py:50-93 | the whole function is its specification: the input for an empty table, otherwise each line rebuilt with '#' and the lines joined with '\n' |
| Apply.AppliedLines | LocoTool/loctool.py:79-92 | one rebuilt line per input line, numbered from 1 |
| Apply.ApplyOutputLines | LocoTool/loctool.py:79-93 | the result has exactly one line per input line |
| Apply.ApplyLineFields | LocoTool/loctool.py:80-92 | splitting a rebuilt line on '#' gives back exactly its fields after lookup, when no translation holds '#' or a line break |
| Apply.ApplyLineUnchanged | LocoTool/loctool.py:87-92 | with only empty translations and `apply_empty` off, a line comes back unchanged, less its trailing line breaks (none for a line from `splitlines`) |
| Apply.NothingApplied | LocoTool/loctool.py:50-93 | with only empty translations and `apply_empty` off, the result is the input's lines joined with '\n' |
| Apply.LoadAvoids | LocoTool/loctool.py:72-75 | a table without a character loads no translation holding it |
| Apply.ExtractThenApply | LocoTool/loctool.py:23-93 | applying the table that `extract_strings` produced with a tab delimiter, before any translation is filled in, gives the input back less a final line break |
| Text.SplitJoin | LocoTool/loctool.py:10-18 | splitting a joined list gives the list back when no element holds the separator |
| Text.JoinSplit | LocoTool/loctool.py:10-18 | joining the parts of a split gives the text back |
| Text.SplitLines | LocoTool/loctool.py:31 | no line holds a '\n' |
| Text.SplitLinesJoin | LocoTool/loctool.py:31 | joining the lines with '\n', plus a final line break when the text ends with one, gives the text back |
| Text.Utf16Length | LocoTool/Program.cs:218 | C#'s `Length` is between one and two units per character, and equals the character count exactly when no character is above U+FFFF |
| Text.Utf16LengthAstral | LocoTool/Program.cs:218 | a character above U+FFFF is two units, one in the basic plane is one |
| Text.FlattenBlank | LocoTool/Program.cs:381-382 | replacing '\n' by ' ' keeps a text blank, or not blank |
| Text.SplitTrimEnd | LocoTool/Program.cs:264-265 | trimming a trailing character before splitting changes only the last cell |
| Text.LastIndex | LocoTool/loctool.py:62 | the last position holding the name, or -1, with no later match: what the dictionary comprehension keeps |
| Text.FindIgnoreCase | LocoTool/Program.cs:339-342 | the first position matching case-insensitively, or -1 when none does |
| AllMode.AllModeTableAsWritten | LocoTool/Program.cs:138 | the table `all` builds with the default '#' delimiter has a header in which the tab-splitting translator finds neither text column, so it is not a table the translator can handle |
| AllMode.AsWrittenReadsMissingColumn | LocoTool/Program.cs:271-273 | every input with a CJK field gives that table a data line, so the selection reads the cell at index -1 |
| AllMode.AsWrittenExample | LocoTool/loctool.py:30-35 | the one-character input "你" has a CJK field |
| AllMode.AllModeSpec | LocoTool/Program.cs:129-158 | the corrected `all` mode: extract with a tab delimiter, translate in memory, apply without empty translations; a failed translation is the result, and a successful run writes exactly one line per line of a non-empty input |
| AllMode.AllModeTable | LocoTool/Program.cs:138 | the table extracted with a tab delimiter names the five columns, finds the text columns at 3 and 4, and has no blank line before a data line |
| AllMode.ExtractedLines | LocoTool/loctool.py:23-48 | an extracted table splits into its header and then its rows, each starting with the digits of its line number |
| AllMode.AllModeNoHits | LocoTool/Program.cs:129-158 | an input without a CJK field and without tabs needs no request, and the `all` mode writes it back less a final line break |

## Left out

- The `all` mode's file reads and writes, glossary loading and client set-up are not modelled: `AllModeSpec` composes only extraction, in-memory translation and apply.

- `Main` (host and Python setup, file reads and writes, console output, command dispatch) is not modelled. `ReadRows` and `WriteRows` work on the file's text instead of a stream, and `Console.WriteLine` progress lines are dropped.
- `async`/`await` is modelled as sequential calls; batches are awaited one at a time in the source.
- The translation service, including its HTTP and JSON code (`RestTranslateClient`), is a function parameter from request to result. A reply shorter than the batch becomes the `ReplyTooShort` failure that `translated[j]` would raise. A longer reply's extra texts are ignored. A `null` entry in the reply is not representable.
- `GlossaryLoader` and `AppConfig` (file loading, JSON, defaults) are not part of this model.
- Null strings are not representable: `OrigText ?? ""`, `?.Length ?? 0` and `translated[k] ?? ""` are modelled as the non-null case.
- Line splitting: `str.splitlines()` and `StreamReader.ReadLine()` split on '\n' only, dropping a final empty segment. Other Unicode line boundaries are not modelled.
- Line endings: `Environment.NewLine` and `WriteLine` are modelled as "\n".
- Case-insensitive comparison (`OrdinalIgnoreCase`) folds ASCII letters only.
- Python's `str.isdigit` and `int()` are modelled on ASCII digits. Underscores and non-ASCII digits are not modelled.
- A UTF-8 byte-order mark is not modelled.
- `sum` in both batching loops is an unbounded integer. A 32-bit overflow past 2^31 characters is not modelled.
- TsvTranslation.TranslateTsv: requires that both text columns exist and that no blank line precedes a data line. The source throws as soon as a data line reaches a missing column (`cells[-1]`, lines 272-274). It does not throw when no data line reaches it: with no data line at all, or with only `translated_text` missing and every `orig_text` cell blank, it returns the header and the blank lines. With a blank line first, each selected index is one past its entry for each blank line before it: it names another entry, or lies past the end of `data` so that `data[idx]` (line 312) throws, as in `ShiftedSelection`. A table extracted with a tab delimiter meets both conditions (`AllModeTable`). The `lines.Length == 0` early return never applies, because `Split` never returns an empty array.
- TsvTranslation.LocateColumns: the `original_line_no` and `field_index` positions are recorded but, as in the source, never used.
- Apply.ExtractThenApply: stated for a tab delimiter and an input without tabs. With a tab inside a field, the extracted row has extra cells, and its `translated_text` cell may not be empty.

## Findings

| source | as written | input that shows it | evidently intended | confidence | as-written member | corrected member |
|---|---|---|---|---|---|---|
| LocoTool/Program.cs:138 | the `all` mode calls `ExtractStrings(input)`, whose default delimiter is '#', and hands the table to `TranslateTsvInMemory`, which splits the header at tabs; no text column is found, and with any data line the selection reads `cells[-1]` (line 273) and throws | "你" (any input with a CJK field) | extract with a tab delimiter, so that the translator finds `orig_text` and `translated_text` | not executed | AllMode.AsWrittenReadsMissingColumn | AllMode.AllModeTable |

=== FILE: all_mode.dfy ===
/** The `all` mode of the console program: extract the CJK fields of the input into a
    table, translate the table in memory, and apply it to the input. */

module AllMode {
  import opened Outcomes
  import opened Text
  import opened Numbers
  import opened Backend
  import opened TableTranslation
  import Extract
  import ExchangeTable
  import TsvTranslation
  import Apply
  import Batching
  import HashFields

  /** The rows extraction writes for `input` with delimiter `delim`. */
  function ExtractedRows(input: string, delim: string): seq<string>
  {
    var lines := SplitLines(input);
    Extract.RowTexts(Extract.Hits(lines, |lines|), delim)
  }

  /** An extracted row holds a line break only when its texts or the delimiter do. */
  lemma RowUnbroken(h: Extract.Hit, delim: string)
    requires '\n' !in delim && '\n' !in h.recId && '\n' !in h.text
    ensures '\n' !in Extract.RowText(h, delim)
  {
    var cells := [NatToString(h.lineNo), NatToString(h.idx), h.recId, h.text, ""];
    forall i | 0 <= i < 2 ensures '\n' !in cells[i] {
      assert forall x :: 0 <= x < |cells[i]| ==> IsDigit(cells[i][x]);
    }
    assert forall i :: 0 <= i < |cells| ==> '\n' !in cells[i];
    JoinAvoids(cells, delim, '\n');
  }

  /** An extracted row starts with the digits of its line number and, when the delimiter
      holds no line break, has none itself. */
  lemma ExtractedRowShape(lines: seq<string>, h: Extract.Hit, delim: string)
    requires Extract.HitOf(lines, h) && '\n' !in delim
    requires forall i :: 0 <= i < |lines| ==> '\n' !in lines[i]
    ensures var row := Extract.RowText(h, delim);
      |row| > 0 && IsDigit(row[0]) && '\n' !in row
  {
    Extract.RowStartsWithDigit(h, delim);
    Apply.FieldsAvoid(lines[h.lineNo - 1], '\n');
    RowUnbroken(h, delim);
  }

  /** The header holds none of the control characters the tables are split at, unless
      the delimiter does. */
  lemma ExtractHeaderAvoids(delim: string, c: char)
    requires c !in delim && (c == '\n' || c == '\r' || c == '\t')
    ensures c !in Extract.ExtractHeader(delim)
  {
    forall i | 0 <= i < |ExchangeTable.HeaderColumns| ensures c !in ExchangeTable.HeaderColumns[i] {
    }
    JoinAvoids(ExchangeTable.HeaderColumns, delim, c);
  }

  /** The lines of an extracted table: the header, then its rows, each starting with a
      digit (a single empty line when there is no row). */
  lemma ExtractedLines(input: string, delim: string)
    requires '\n' !in delim
    ensures var rows := ExtractedRows(input, delim);
      && Split(Extract.ExtractSpec(input, delim), '\n')
         == [Extract.ExtractHeader(delim)] + (if rows == [] then [""] else rows)
      && forall m :: 0 <= m < |rows| ==> |rows[m]| > 0 && IsDigit(rows[m][0]) && '\n' !in rows[m]
  {
    var lines := SplitLines(input);
    var hits := Extract.Hits(lines, |lines|);
    var rows := ExtractedRows(input, delim);
    var header := Extract.ExtractHeader(delim);
    Extract.HitsSound(lines, |lines|);
    forall m | 0 <= m < |rows| ensures |rows[m]| > 0 && IsDigit(rows[m][0]) && '\n' !in rows[m] {
      ExtractedRowShape(lines, hits[m], delim);
    }
    ExtractHeaderAvoids(delim, '\n');
    SplitAfterLine(header, Join(rows, "\n"));
    if rows != [] {
      assert "\n" == ['\n'];
      SplitJoin(rows, '\n');
    }
  }

  /** A digit is not white space. */
  lemma DigitNotBlank(s: string)
    requires |s| > 0 && IsDigit(s[0])
    ensures !IsNullOrWhiteSpace(s) && !IsNullOrWhiteSpace(TrimEnd(s, '\r'))
  {
    TrimEndBlank(s);
  }

  /** The table the `all` mode builds as the code is written: `ExtractStrings(input)`
      with the script's default '#' delimiter. The in-memory translator splits its
      header at tabs, so it finds neither text column, and the table is not one the
      translator can handle. */
  function AllModeTableAsWritten(input: string): (tsv: string)
    ensures var cols := TsvTranslation.ColumnsOf(TsvTranslation.HeaderCells(tsv));
      cols.orig == -1 && cols.trans == -1
    ensures !TsvTranslation.TsvWellFormed(tsv)
  {
    HashHeaderCells(input);
    Extract.ExtractSpec(input, "#")
  }

  /** The header of the '#'-separated table is a single cell, longer than any column name. */
  lemma HashHeaderCells(input: string)
    ensures TsvTranslation.HeaderCells(Extract.ExtractSpec(input, "#")) == [Extract.ExtractHeader("#")]
    ensures |Extract.ExtractHeader("#")| > |"translated_text"|
  {
    var header := Extract.ExtractHeader("#");
    ExtractHeaderAvoids("#", '\n');
    ExtractHeaderAvoids("#", '\r');
    ExtractHeaderAvoids("#", '\t');
    SingleCellHeader(header, Join(ExtractedRows(input, "#"), "\n"));
  }

  /** A first line without tab, '\r' or line break is the single cell of the header. */
  lemma SingleCellHeader(header: string, body: string)
    requires '\n' !in header && '\r' !in header && '\t' !in header
    ensures TsvTranslation.HeaderCells(header + "\n" + body) == [header]
  {
    SplitAfterLine(header, body);
    TrimEndAbsent(header, '\r');
    SplitJoin([header], '\t');
  }

  /** As written, every input with a CJK field gives the table a data line, so the
      selection reads the cell at `idxOrig`, which is -1: the `all` mode throws instead
      of translating. */
  lemma AsWrittenReadsMissingColumn(input: string)
    requires ExtractedRows(input, "#") != []
    ensures |TsvTranslation.Data(AllModeTableAsWritten(input))| >= 1
    ensures TsvTranslation.ColumnsOf(TsvTranslation.HeaderCells(AllModeTableAsWritten(input))).orig == -1
  {
    var tsv := AllModeTableAsWritten(input);
    var lines := TsvTranslation.LinesOf(tsv);
    ExtractedLines(input, "#");
    DigitNotBlank(lines[1]);
    TsvTranslation.DataComplete(lines, |lines|, 1);
  }

  /** One CJK character is such an input. */
  lemma AsWrittenExample()
    ensures ExtractedRows("你", "#") != []
  {
    var lines := SplitLines("你");
    SplitJoin(["你"], '\n');
    assert Split("你", '\n') == ["你"];
    assert lines == ["你"];
    var fields := HashFields.Fields("你");
    assert fields == ["你"];
    assert Extract.HasCjk(fields[0]) by {
      assert Extract.IsCjk(fields[0][0]);
    }
    assert Extract.Hits(lines, 1) == Extract.LineHits(1, fields, 1);
  }

  /** A header followed by rows that start with a digit (or by one empty line) has no
      blank line before a data line. */
  lemma DigitRowsNoBlank(header: string, rows: seq<string>, lines: seq<string>)
    requires lines == [header] + (if rows == [] then [""] else rows)
    requires forall m :: 0 <= m < |rows| ==> |rows[m]| > 0 && IsDigit(rows[m][0])
    ensures TsvTranslation.NoBlankBeforeData(lines)
  {
    forall i | 1 <= i < |lines| && rows != [] ensures !IsNullOrWhiteSpace(TsvTranslation.Trimmed(lines, i)) {
      assert lines[i] == rows[i - 1];
      DigitNotBlank(lines[i]);
    }
  }

  /** The tab-separated extracted table names the five columns in its header and has
      no blank line before a data line. */
  lemma TabTableWellFormed(input: string)
    ensures var tsv := Extract.ExtractSpec(input, "\t");
      && TsvTranslation.HeaderCells(tsv) == ExchangeTable.HeaderColumns
      && TsvTranslation.NoBlankBeforeData(TsvTranslation.LinesOf(tsv))
  {
    var tsv := Extract.ExtractSpec(input, "\t");
    var header := Extract.ExtractHeader("\t");
    ExtractedLines(input, "\t");
    Extract.ExtractedHeaderCells();
    ExtractHeaderAvoids("\t", '\r');
    TrimEndAbsent(header, '\r');
    assert TsvTranslation.HeaderText(tsv) == header;
    DigitRowsNoBlank(header, ExtractedRows(input, "\t"), TsvTranslation.LinesOf(tsv));
  }

  /** The table the `all` mode evidently means to build: the same extraction with a tab
      as the delimiter, which names both text columns and has no blank line before a
      data line. */
  function AllModeTable(input: string): (tsv: string)
    ensures TsvTranslation.TsvWellFormed(tsv)
    ensures TsvTranslation.HeaderCells(tsv) == ExchangeTable.HeaderColumns
    ensures TsvTranslation.TextColumns(tsv) == (3, 4)
  {
    TabTableWellFormed(input);
    Apply.ExtractedColumns();
    Extract.ExtractSpec(input, "\t")
  }

  /** The `all` mode with the corrected table: translate it in memory, then apply the
      result to the input; or the error that stops the translation. */
  function AllModeSpec(input: string, s: Settings, maxChars: int, backend: Translator): (r: Result<string, TranslateError>)
    ensures r.Success? && SplitLines(input) != [] ==> |Split(r.value, '\n')| == |SplitLines(input)|
  {
    match TsvTranslation.TranslateTsvSpec(AllModeTable(input), s, maxChars, backend)
    case Failure(e) => Failure(e)
    case Success(t) =>
      TranslatedTableLines(input, s, maxChars, backend);
      if SplitLines(input) != [] then
        Apply.ApplyOutputLines(input, t, false);
        Success(Apply.ApplySpec(input, t, false))
      else Success(Apply.ApplySpec(input, t, false))
  }

  /** The translated table keeps its header line, so it has at least one line. */
  lemma TranslatedTableLines(input: string, s: Settings, maxChars: int, backend: Translator)
    requires TsvTranslation.TranslateTsvSpec(AllModeTable(input), s, maxChars, backend).Success?
    ensures SplitLines(TsvTranslation.TranslateTsvSpec(AllModeTable(input), s, maxChars, backend).value) != []
  {
    AllModeHeaderText(input);
    TranslatedKeepsHeader(AllModeTable(input), s, maxChars, backend);
  }

  /** The header line of the tab-separated table is not empty. */
  lemma AllModeHeaderText(input: string)
    ensures TsvTranslation.HeaderText(AllModeTable(input)) != ""
  {
    var h := TsvTranslation.HeaderText(AllModeTable(input));
    assert Split(h, '\t') == ExchangeTable.HeaderColumns;
    assert Split("", '\t') == [""];
  }

  /** A successful in-memory translation of a table with a non-empty header line has
      at least one line. */
  lemma TranslatedKeepsHeader(tsv: string, s: Settings, maxChars: int, backend: Translator)
    requires TsvTranslation.TsvWellFormed(tsv) && TsvTranslation.HeaderText(tsv) != ""
    requires TsvTranslation.TranslateTsvSpec(tsv, s, maxChars, backend).Success?
    ensures SplitLines(TsvTranslation.TranslateTsvSpec(tsv, s, maxChars, backend).value) != []
  {
    var (orig, trans) := TsvTranslation.TextColumns(tsv);
    assert TsvTranslation.RunTsvBatches(TsvTranslation.Data(tsv), TsvTranslation.TsvPlanOf(tsv, maxChars),
      orig, trans, s, backend).Success?;
    TsvTranslation.TranslateTsvLines(tsv, s, maxChars, backend);
  }


  /** With no row, the tab-separated table is its header and one empty line. */
  lemma EmptyTabTable(input: string)
    requires ExtractedRows(input, "\t") == []
    ensures var tsv := AllModeTable(input);
      && TsvTranslation.LinesOf(tsv) == [Extract.ExtractHeader("\t"), ""]
      && tsv == Join([Extract.ExtractHeader("\t"), ""], "\n")
  {
    var header := Extract.ExtractHeader("\t");
    var tsv := AllModeTable(input);
    assert tsv == header + "\n" + "" by {
      assert Join(ExtractedRows(input, "\t"), "\n") == "";
    }
    ExtractHeaderAvoids("\t", '\n');
    HeaderThenNothing(header);
  }

  /** A line and a line break: the line, then one empty line. */
  lemma HeaderThenNothing(header: string)
    requires '\n' !in header
    ensures Split(header + "\n" + "", '\n') == [header, ""]
    ensures header + "\n" + "" == Join([header, ""], "\n")
  {
    SplitAfterLine(header, "");
    JoinPair(header, "", "\n");
  }

  /** A text whose lines are a header and one empty line selects nothing and translates
      to itself. */
  lemma EmptyTableUntouched(tsv: string, header: string, s: Settings, maxChars: int, backend: Translator)
    requires TsvTranslation.TsvWellFormed(tsv)
    requires TsvTranslation.LinesOf(tsv) == [header, ""] && '\r' !in header
    ensures TsvTranslation.TranslateTsvSpec(tsv, s, maxChars, backend) == Success(Join([header, ""], "\n"))
  {
    var lines := TsvTranslation.LinesOf(tsv);
    TrimEndAbsent(lines[0], '\r');
    assert TsvTranslation.Trimmed(lines, 1) == "";
    assert TsvTranslation.DataEntries(lines, 1) == [] && TsvTranslation.BlankLines(lines, 1) == [];
    assert TsvTranslation.Data(tsv) == TsvTranslation.DataEntries(lines, 2) == [];
    assert TsvTranslation.Blanks(tsv) == TsvTranslation.BlankLines(lines, 2) == [""];
    var plan := TsvTranslation.TsvPlanOf(tsv, maxChars);
    Batching.ConcatLength(plan);
    assert plan == [];
    assert TsvTranslation.RunTsvBatches(TsvTranslation.Data(tsv), plan, TsvTranslation.TextColumns(tsv).0,
      TsvTranslation.TextColumns(tsv).1, s, backend) == Success([]);
    assert TsvTranslation.HeaderText(tsv) == lines[0];
    assert [lines[0]] + [""] + TsvTranslation.EntryLines([]) == [lines[0], ""];
  }

  /** An input without a CJK field needs no request: the mode succeeds and writes the
      input back, less a final line break. */
  lemma AllModeNoHits(input: string, s: Settings, maxChars: int, backend: Translator)
    requires '\t' !in input && ExtractedRows(input, "\t") == []
    ensures AllModeSpec(input, s, maxChars, backend) == Success(Join(SplitLines(input), "\n"))
  {
    TabTableUntouched(input, s, maxChars, backend);
    Apply.ExtractThenApply(input);
  }

  /** With no row, in-memory translation gives the tab-separated table back unchanged. */
  lemma TabTableUntouched(input: string, s: Settings, maxChars: int, backend: Translator)
    requires ExtractedRows(input, "\t") == []
    ensures TsvTranslation.TranslateTsvSpec(AllModeTable(input), s, maxChars, backend) == Success(AllModeTable(input))
  {
    var header := Extract.ExtractHeader("\t");
    var tsv := AllModeTable(input);
    assert TsvTranslation.LinesOf(tsv) == [header, ""] && tsv == Join([header, ""], "\n") by {
      EmptyTabTable(input);
    }
    assert '\r' !in header by {
      ExtractHeaderAvoids("\t", '\r');
    }
    EmptyTableUntouched(tsv, header, s, maxChars, backend);
  }
}

=== FILE: apply.dfy ===
/** `apply_translations` of the Python script: a filled-in exchange table is loaded into
    two dictionaries, one keyed by (line number, field index, original text) and one by
    (line number, field index), later rows overriding earlier ones; then every
    '#'-separated field of the source asset takes the translation found under its strict
    key, or else under its loose key, unless that translation is empty and empty
    translations are not applied. The lines are joined again with '\n'. */
module Apply {
  import opened Outcomes
  import opened Text
  import opened Numbers
  import opened HashFields
  import Extract
  import ExchangeTable
  import TsvTranslation

  /** A row the loader keeps: its two integer keys and its two text cells. */
  datatype TableRow = TableRow(lineNo: int, fieldIdx: int, orig: string, trans: string)

  /** `cells[col] if col is not None and col < len(cells) else ''`. */
  function OptionalCell(cells: seq<string>, col: int): string
  {
    if 0 <= col < |cells| then cells[col] else ""
  }

  /** `int(cells[col])`, `None` where the loader's `except Exception` skips the row:
      the column is absent, the row is too short, or the cell is not an integer. */
  function IntCell(cells: seq<string>, col: int): Option<int>
  {
    if 0 <= col < |cells| then PyInt(cells[col]) else None
  }

  /** One row of the table, `None` for a row the loader skips. */
  function ParseRow(cols: TsvTranslation.Columns, row: string): (r: Option<TableRow>)
    ensures IsPythonBlank(row) ==> r.None?
    ensures !IsPythonBlank(row) ==>
      (r.Some? <==> var cells := Split(row, '\t');
        && 0 <= cols.lineNo < |cells| && PyInt(cells[cols.lineNo]).Some?
        && 0 <= cols.fieldIdx < |cells| && PyInt(cells[cols.fieldIdx]).Some?)
    ensures r.Some? ==> var cells := Split(row, '\t');
      && 0 <= cols.lineNo < |cells| && PyInt(cells[cols.lineNo]) == Some(r.value.lineNo)
      && 0 <= cols.fieldIdx < |cells| && PyInt(cells[cols.fieldIdx]) == Some(r.value.fieldIdx)
      && r.value.orig == (if 0 <= cols.orig < |cells| then cells[cols.orig] else "")
      && r.value.trans == (if 0 <= cols.trans < |cells| then cells[cols.trans] else "")
  {
    if IsPythonBlank(row) then None
    else
      var cells := Split(row, '\t');
      match IntCell(cells, cols.lineNo)
      case None => None
      case Some(lineNo) =>
        match IntCell(cells, cols.fieldIdx)
        case None => None
        case Some(fieldIdx) =>
          Some(TableRow(lineNo, fieldIdx, OptionalCell(cells, cols.orig), OptionalCell(cells, cols.trans)))
  }

  /** `map_strict` and `map_loose`. */
  datatype Translations = Translations(strict: map<(int, int, string), string>, loose: map<(int, int), string>)

  /** The two dictionaries after the loader has seen `rows`, one after another. */
  function Load(cols: TsvTranslation.Columns, rows: seq<string>): Translations
  {
    if rows == [] then Translations(map[], map[])
    else
      var t := Load(cols, rows[..|rows| - 1]);
      match ParseRow(cols, rows[|rows| - 1])
      case None => t
      case Some(r) =>
        Translations(t.strict[(r.lineNo, r.fieldIdx, r.orig) := r.trans],
                     t.loose[(r.lineNo, r.fieldIdx) := r.trans])
  }

  /** A dictionary key: `key_s` or `key_l`. */
  datatype Key = Strict(lineNo: int, fieldIdx: int, orig: string) | Loose(lineNo: int, fieldIdx: int)

  predicate KeyOf(r: TableRow, k: Key)
  {
    match k
    case Strict(l, f, o) => r.lineNo == l && r.fieldIdx == f && r.orig == o
    case Loose(l, f) => r.lineNo == l && r.fieldIdx == f
  }

  /** Row `j` is kept by the loader and has key `k`. */
  predicate RowHasKey(cols: TsvTranslation.Columns, rows: seq<string>, j: int, k: Key)
  {
    0 <= j < |rows| && ParseRow(cols, rows[j]).Some? && KeyOf(ParseRow(cols, rows[j]).value, k)
  }

  /** The last row kept with key `k`, -1 when there is none. */
  function LastRow(cols: TsvTranslation.Columns, rows: seq<string>, k: Key): (j: int)
    ensures -1 <= j < |rows|
    ensures j >= 0 ==> RowHasKey(cols, rows, j, k)
    ensures forall j' :: j < j' < |rows| ==> !RowHasKey(cols, rows, j', k)
  {
    if rows == [] then -1
    else if RowHasKey(cols, rows, |rows| - 1, k) then |rows| - 1
    else
      var j := LastRow(cols, rows[..|rows| - 1], k);
      assert forall j' :: j < j' < |rows| - 1 ==> RowHasKey(cols, rows, j', k) == RowHasKey(cols, rows[..|rows| - 1], j', k);
      j
  }

  /** `d.get(key)` on the dictionary the key belongs to. */
  function Get(t: Translations, k: Key): Option<string>
  {
    match k
    case Strict(l, f, o) => if (l, f, o) in t.strict then Some(t.strict[(l, f, o)]) else None
    case Loose(l, f) => if (l, f) in t.loose then Some(t.loose[(l, f)]) else None
  }

  /** The loader keeps, under every key, the translation of the last row with that key,
      and no entry for a key no row has. */
  lemma {:induction false} LoadGet(cols: TsvTranslation.Columns, rows: seq<string>, k: Key)
    ensures var j := LastRow(cols, rows, k);
      Get(Load(cols, rows), k) == if j < 0 then None else Some(ParseRow(cols, rows[j]).value.trans)
  {
    if rows != [] {
      var front := rows[..|rows| - 1];
      LoadGet(cols, front, k);
      if !RowHasKey(cols, rows, |rows| - 1, k) {
        assert LastRow(cols, rows, k) == LastRow(cols, front, k);
        var j := LastRow(cols, front, k);
        if j >= 0 {
          assert rows[j] == front[j];
        }
      }
    }
  }

  /** The translation for one field: `map_strict.get(key_s)`, or `map_loose.get(key_l)`
      when there is none. */
  function Lookup(t: Translations, lineNo: int, idx: int, val: string): Option<string>
  {
    var s := Get(t, Strict(lineNo, idx, val));
    if s.Some? then s else Get(t, Loose(lineNo, idx))
  }

  /** The strict key wins, even over a later row with the same line and field but another
      original text; the loose key is the fallback. */
  lemma LookupLoaded(cols: TsvTranslation.Columns, rows: seq<string>, lineNo: int, idx: int, val: string)
    ensures var s := LastRow(cols, rows, Strict(lineNo, idx, val));
      var l := LastRow(cols, rows, Loose(lineNo, idx));
      Lookup(Load(cols, rows), lineNo, idx, val) ==
        if s >= 0 then Some(ParseRow(cols, rows[s]).value.trans)
        else if l >= 0 then Some(ParseRow(cols, rows[l]).value.trans)
        else None
  {
    LoadGet(cols, rows, Strict(lineNo, idx, val));
    LoadGet(cols, rows, Loose(lineNo, idx));
  }

  /** The field after the loop body: the translation found, unless there is none or it is
      empty and `apply_empty` is off. */
  function ApplyField(t: Translations, lineNo: int, idx: int, val: string, applyEmpty: bool): string
  {
    match Lookup(t, lineNo, idx, val)
    case None => val
    case Some(tr) => if tr == "" && !applyEmpty then val else tr
  }

  /** A field changes only when some kept row has its line and field index (and so at
      least its loose key), and never to an empty text unless `apply_empty` is set. */
  lemma ReplacedOnlyIfMatched(cols: TsvTranslation.Columns, rows: seq<string>, lineNo: int, idx: int, val: string, applyEmpty: bool)
    ensures var r := ApplyField(Load(cols, rows), lineNo, idx, val, applyEmpty);
      r != val ==> LastRow(cols, rows, Loose(lineNo, idx)) >= 0 && (r != "" || applyEmpty)
  {
    LookupLoaded(cols, rows, lineNo, idx, val);
    var s := LastRow(cols, rows, Strict(lineNo, idx, val));
    if s >= 0 {
      assert RowHasKey(cols, rows, s, Loose(lineNo, idx));
    }
  }

  /** The fields of line `lineNo` after translation. */
  function AppliedFields(t: Translations, lineNo: int, fields: seq<string>, applyEmpty: bool): (fs: seq<string>)
    ensures |fs| == |fields|
  {
    seq(|fields|, i requires 0 <= i < |fields| => ApplyField(t, lineNo, i, fields[i], applyEmpty))
  }

  /** One line of the result: its translated fields joined with '#'. */
  function ApplyLine(t: Translations, lineNo: int, raw: string, applyEmpty: bool): string
  {
    JoinHashPreserveTrailing(AppliedFields(t, lineNo, Fields(raw), applyEmpty), 0)
  }

  /** The first `n` lines of the result, line `m` numbered `m + 1`. */
  function AppliedLines(t: Translations, inLines: seq<string>, n: nat, applyEmpty: bool): (out: seq<string>)
    requires n <= |inLines|
    ensures |out| == n
    ensures forall m :: 0 <= m < n ==> out[m] == ApplyLine(t, m + 1, inLines[m], applyEmpty)
  {
    if n == 0 then []
    else AppliedLines(t, inLines, n - 1, applyEmpty) + [ApplyLine(t, n, inLines[n - 1], applyEmpty)]
  }

  /** The dictionaries loaded from a table with at least a header line. */
  function LoadTable(lines: seq<string>): Translations
    requires |lines| >= 1
  {
    Load(TsvTranslation.ColumnsOf(Split(lines[0], '\t')), lines[1..])
  }

  /** What `apply_translations` returns. */
  function ApplySpec(input: string, table: string, applyEmpty: bool): string
  {
    var lines := SplitLines(table);
    if lines == [] then input
    else
      var t := LoadTable(lines);
      var inLines := SplitLines(input);
      Join(AppliedLines(t, inLines, |inLines|, applyEmpty), "\n")
  }

  /** Every translation the dictionaries hold avoids `c`. */
  predicate ValuesAvoid(t: Translations, c: char)
  {
    && (forall k :: k in t.strict ==> c !in t.strict[k])
    && (forall k :: k in t.loose ==> c !in t.loose[k])
  }

  /** A table without `c` loads no translation holding `c`. */
  lemma {:induction false} LoadAvoids(cols: TsvTranslation.Columns, rows: seq<string>, c: char)
    requires forall j :: 0 <= j < |rows| ==> c !in rows[j]
    ensures ValuesAvoid(Load(cols, rows), c)
  {
    if rows != [] {
      var front := rows[..|rows| - 1];
      assert forall j :: 0 <= j < |front| ==> front[j] == rows[j];
      LoadAvoids(cols, front, c);
      var row := rows[|rows| - 1];
      if ParseRow(cols, row).Some? {
        var cells := Split(row, '\t');
        SplitAvoids(row, '\t', c);
        assert c !in OptionalCell(cells, cols.trans);
      }
    }
  }

  /** The fields of a line hold no character the line does not hold. */
  lemma FieldsAvoid(raw: string, c: char)
    requires c !in raw
    ensures forall i :: 0 <= i < |Fields(raw)| ==> c !in Fields(raw)[i]
  {
    TrimEndAvoids(raw, '\n', c);
    SplitAvoids(TrimEnd(raw, '\n'), '#', c);
  }

  /** The translated fields of a line avoid a character that neither the line nor any
      translation holds. */
  lemma AppliedFieldsAvoid(t: Translations, lineNo: int, raw: string, applyEmpty: bool, c: char)
    requires c !in raw && ValuesAvoid(t, c)
    ensures var fs := AppliedFields(t, lineNo, Fields(raw), applyEmpty);
      forall i :: 0 <= i < |fs| ==> c !in fs[i]
  {
    FieldsAvoid(raw, c);
  }

  /** A rebuilt line holds no line break when neither the line nor any translation does. */
  lemma ApplyLineUnbroken(t: Translations, lineNo: int, raw: string, applyEmpty: bool)
    requires '\n' !in raw && ValuesAvoid(t, '\n')
    ensures '\n' !in ApplyLine(t, lineNo, raw, applyEmpty)
  {
    var fs := AppliedFields(t, lineNo, Fields(raw), applyEmpty);
    AppliedFieldsAvoid(t, lineNo, raw, applyEmpty, '\n');
    JoinAvoids(fs, "#", '\n');
    assert ApplyLine(t, lineNo, raw, applyEmpty) == Join(fs, "#") + "";
  }

  /** Splitting a rebuilt line at '#' gives back as many fields as the original line had,
      each the original field or its translation, when no translation holds a '#'. */
  lemma ApplyLineFields(t: Translations, lineNo: int, raw: string, applyEmpty: bool)
    requires '\n' !in raw && ValuesAvoid(t, '#') && ValuesAvoid(t, '\n')
    ensures Fields(ApplyLine(t, lineNo, raw, applyEmpty)) == AppliedFields(t, lineNo, Fields(raw), applyEmpty)
  {
    var fs := AppliedFields(t, lineNo, Fields(raw), applyEmpty);
    FieldsCount(raw);
    forall i | 0 <= i < |fs| ensures '#' !in fs[i] {
      assert '#' !in Fields(raw)[i];
    }
    AppliedFieldsAvoid(t, lineNo, raw, applyEmpty, '\n');
    FieldsJoin(fs, 0);
    assert fs + seq(0, _ => "") == fs;
  }

  /** The result has one line per line of the input, each the rebuilt input line. */
  lemma ApplyOutputLines(input: string, table: string, applyEmpty: bool)
    requires SplitLines(table) != [] && SplitLines(input) != []
    ensures var inLines := SplitLines(input);
      var out := Split(ApplySpec(input, table, applyEmpty), '\n');
      && |out| == |inLines|
      && forall m :: 0 <= m < |out| ==> out[m] == ApplyLine(LoadTable(SplitLines(table)), m + 1, inLines[m], applyEmpty)
  {
    var lines := SplitLines(table);
    var inLines := SplitLines(input);
    var t := LoadTable(lines);
    LoadAvoids(TsvTranslation.ColumnsOf(Split(lines[0], '\t')), lines[1..], '\n');
    var out := AppliedLines(t, inLines, |inLines|, applyEmpty);
    forall m | 0 <= m < |out| ensures '\n' !in out[m] {
      ApplyLineUnbroken(t, m + 1, inLines[m], applyEmpty);
    }
    SplitJoin(out, '\n');
  }

  /** Every translation loaded is empty. */
  predicate AllEmpty(t: Translations)
  {
    && (forall k :: k in t.strict ==> t.strict[k] == "")
    && (forall k :: k in t.loose ==> t.loose[k] == "")
  }

  /** With only empty translations and `apply_empty` off, a line is rebuilt unchanged
      (less its trailing line breaks). */
  lemma ApplyLineUnchanged(t: Translations, lineNo: int, raw: string)
    requires AllEmpty(t)
    ensures ApplyLine(t, lineNo, raw, false) == TrimEnd(raw, '\n')
  {
    var fields := Fields(raw);
    assert AppliedFields(t, lineNo, fields, false) == fields;
    JoinFields(raw);
  }

  /** With only empty translations and `apply_empty` off, the result is the input's lines
      joined with '\n': only a final line break, if any, is lost. */
  lemma NothingApplied(input: string, table: string)
    requires SplitLines(table) != [] && AllEmpty(LoadTable(SplitLines(table)))
    ensures ApplySpec(input, table, false) == Join(SplitLines(input), "\n")
  {
    var t := LoadTable(SplitLines(table));
    var inLines := SplitLines(input);
    forall m | 0 <= m < |inLines| ensures ApplyLine(t, m + 1, inLines[m], false) == inLines[m] {
      ApplyLineUnchanged(t, m + 1, inLines[m]);
      TrimEndAbsent(inLines[m], '\n');
    }
    assert AppliedLines(t, inLines, |inLines|, false) == inLines;
  }

  /** A table whose kept rows all have an empty `translated_text` cell loads only empty
      translations. */
  lemma {:induction false} LoadAllEmpty(cols: TsvTranslation.Columns, rows: seq<string>)
    requires forall j :: 0 <= j < |rows| ==> OptionalCell(Split(rows[j], '\t'), cols.trans) == ""
    ensures AllEmpty(Load(cols, rows))
  {
    if rows != [] {
      var front := rows[..|rows| - 1];
      assert forall j :: 0 <= j < |front| ==> front[j] == rows[j];
      LoadAllEmpty(cols, front);
    }
  }

  /** The column positions the loader finds in that header. */
  lemma ExtractedColumns()
    ensures TsvTranslation.ColumnsOf(ExchangeTable.HeaderColumns) == TsvTranslation.Columns(0, 1, 3, 4)
  {
    var names := ExchangeTable.HeaderColumns;
    var n4 := names[..4];
    var n3 := n4[..3];
    var n2 := n3[..2];
    var n1 := n2[..1];
    assert n4 == ["original_line_no", "field_index", "record_id_guess", "orig_text"];
    assert n3 == ["original_line_no", "field_index", "record_id_guess"];
    assert n2 == ["original_line_no", "field_index"];
    assert n1 == ["original_line_no"];
    assert LastIndex(names, "translated_text") == 4;
    assert LastIndex(names, "orig_text") == LastIndex(n4, "orig_text") == 3;
    assert LastIndex(names, "field_index") == LastIndex(n4, "field_index") == LastIndex(n3, "field_index")
      == LastIndex(n2, "field_index") == 1;
    assert LastIndex(names, "original_line_no") == LastIndex(n4, "original_line_no") == LastIndex(n3, "original_line_no")
      == LastIndex(n2, "original_line_no") == LastIndex(n1, "original_line_no") == 0;
  }

  /** A row written by extraction with a tab delimiter is read back, under the columns
      of the extracted header, as its line number, field index and text, with an empty
      translation. */
  lemma ParseExtractedRow(h: Extract.Hit)
    requires '\t' !in h.text && '\n' !in h.text
    requires h.recId == "" || AllDigits(h.recId)
    ensures ParseRow(TsvTranslation.Columns(0, 1, 3, 4), Extract.RowText(h, "\t"))
      == Some(TableRow(h.lineNo, h.idx, h.text, ""))
  {
    var row := Extract.RowText(h, "\t");
    assert !IsPythonBlank(row) by {
      Extract.RowStartsWithDigit(h, "\t");
    }
    Extract.ExtractedRowCells(h);
    PyIntNatToString(h.lineNo);
    PyIntNatToString(h.idx);
  }

  /** The row of a hit on a text without tabs is a non-empty line whose fifth cell,
      `translated_text`, is empty. */
  lemma ExtractedRow(lines: seq<string>, h: Extract.Hit)
    requires Extract.HitOf(lines, h)
    requires forall i :: 0 <= i < |lines| ==> '\t' !in lines[i] && '\n' !in lines[i]
    ensures var row := Extract.RowText(h, "\t");
      '\n' !in row && row != "" && OptionalCell(Split(row, '\t'), 4) == ""
  {
    FieldsAvoid(lines[h.lineNo - 1], '\t');
    FieldsAvoid(lines[h.lineNo - 1], '\n');
    Extract.ExtractedRowCells(h);
  }

  /** Rows that are non-empty lines with an empty `translated_text` cell (the fifth). */
  predicate UntranslatedRows(rows: seq<string>)
  {
    forall m :: 0 <= m < |rows| ==> '\n' !in rows[m] && rows[m] != "" && OptionalCell(Split(rows[m], '\t'), 4) == ""
  }

  /** Every extracted row of a text without tabs is such a line. */
  lemma ExtractedRows(input: string)
    requires '\t' !in input
    ensures var lines := SplitLines(input);
      UntranslatedRows(Extract.RowTexts(Extract.Hits(lines, |lines|), "\t"))
  {
    var lines := SplitLines(input);
    var hits := Extract.Hits(lines, |lines|);
    var rows := Extract.RowTexts(hits, "\t");
    Extract.HitsSound(lines, |lines|);
    SplitLinesAvoids(input, '\t');
    forall m | 0 <= m < |rows| ensures '\n' !in rows[m] && rows[m] != "" && OptionalCell(Split(rows[m], '\t'), 4) == "" {
      ExtractedRow(lines, hits[m]);
      assert rows[m] == Extract.RowText(hits[m], "\t");
    }
  }

  /** An extracted table whose rows all have an empty `translated_text` cell loads only
      empty translations. */
  lemma ExtractedTableEmpty(rows: seq<string>)
    requires UntranslatedRows(rows)
    ensures var tl := SplitLines(Extract.ExtractHeader("\t") + "\n" + Join(rows, "\n"));
      tl != [] && AllEmpty(LoadTable(tl))
  {
    var header := Extract.ExtractHeader("\t");
    Extract.ExtractedHeaderCells();
    ExtractedColumns();
    Extract.ExtractedHeaderUnbroken();
    Extract.ExtractedTableLines(header, rows);
    var tl := SplitLines(header + "\n" + Join(rows, "\n"));
    var cols := TsvTranslation.ColumnsOf(Split(tl[0], '\t'));
    assert cols.trans == 4;
    var body := tl[1..];
    forall j | 0 <= j < |body| ensures OptionalCell(Split(body[j], '\t'), cols.trans) == "" {
      assert body[j] == rows[j];
    }
    LoadAllEmpty(cols, body);
  }

  /** Applying the table that extraction produced, before anyone fills in a translation,
      gives the input back, less a final line break: every `translated_text` cell is
      empty and empty translations are not applied. */
  lemma ExtractThenApply(input: string)
    requires '\t' !in input
    ensures ApplySpec(input, Extract.ExtractSpec(input, "\t"), false) == Join(SplitLines(input), "\n")
  {
    var lines := SplitLines(input);
    var rows := Extract.RowTexts(Extract.Hits(lines, |lines|), "\t");
    ExtractedRows(input);
    ExtractedTableEmpty(rows);
    assert Extract.ExtractSpec(input, "\t") == Extract.ExtractHeader("\t") + "\n" + Join(rows, "\n");
    NothingApplied(input, Extract.ExtractSpec(input, "\t"));
  }

  /** The loading loop. */
  method LoadRows(cols: TsvTranslation.Columns, rows: seq<string>) returns (t: Translations)
    ensures t == Load(cols, rows)
  {
    var strict: map<(int, int, string), string> := map[];
    var loose: map<(int, int), string> := map[];
    for j := 0 to |rows|
      invariant Translations(strict, loose) == Load(cols, rows[..j])
    {
      assert rows[..j + 1][..j] == rows[..j];
      var row := rows[j];
      if IsPythonBlank(row) {
        continue;
      }
      var cells := Split(row, '\t');
      if !(0 <= cols.lineNo < |cells|) || PyInt(cells[cols.lineNo]).None? {
        continue;
      }
      var lineNo := PyInt(cells[cols.lineNo]).value;
      if !(0 <= cols.fieldIdx < |cells|) || PyInt(cells[cols.fieldIdx]).None? {
        continue;
      }
      var fieldIdx := PyInt(cells[cols.fieldIdx]).value;
      var orig := if 0 <= cols.orig < |cells| then cells[cols.orig] else "";
      var trans := if 0 <= cols.trans < |cells| then cells[cols.trans] else "";
      strict := strict[(lineNo, fieldIdx, orig) := trans];
      loose := loose[(lineNo, fieldIdx) := trans];
    }
    assert rows[..|rows|] == rows;
    t := Translations(strict, loose);
  }

  /** The loop over the fields of one line, which replaces each field in place. */
  method TranslateFields(t: Translations, lineNo: int, fields0: seq<string>, applyEmpty: bool) returns (fields: seq<string>)
    ensures fields == AppliedFields(t, lineNo, fields0, applyEmpty)
  {
    fields := fields0;
    for idx := 0 to |fields|
      invariant |fields| == |fields0|
      invariant forall j :: 0 <= j < idx ==> fields[j] == ApplyField(t, lineNo, j, fields0[j], applyEmpty)
      invariant forall j :: idx <= j < |fields| ==> fields[j] == fields0[j]
    {
      var val := fields[idx];
      var tr := if (lineNo, idx, val) in t.strict then Some(t.strict[(lineNo, idx, val)]) else None;
      if tr.None? {
        tr := if (lineNo, idx) in t.loose then Some(t.loose[(lineNo, idx)]) else None;
      }
      if tr.Some? {
        if tr.value == "" && !applyEmpty {
        } else {
          fields := fields[idx := tr.value];
        }
      }
    }
    assert fields == AppliedFields(t, lineNo, fields0, applyEmpty);
  }

  /** `apply_translations`: load the table, then rewrite every field of every line. */
  method ApplyTranslations(input: string, table: string, applyEmpty: bool) returns (result: string)
    ensures result == ApplySpec(input, table, applyEmpty)
  {
    var lines := SplitLines(table);
    if |lines| == 0 {
      return input;
    }
    var header := Split(lines[0], '\t');
    var cols := TsvTranslation.ColumnsOf(header);
    var t := LoadRows(cols, lines[1..]);
    var inLines := SplitLines(input);
    var outLines: seq<string> := [];
    for i := 0 to |inLines|
      invariant outLines == AppliedLines(t, inLines, i, applyEmpty)
    {
      var fields, trailing := SplitHashPreserveTrailing(inLines[i]);
      fields := TranslateFields(t, i + 1, fields, applyEmpty);
      outLines := outLines + [JoinHashPreserveTrailing(fields, trailing)];
    }
    result := Join(outLines, "\n");
  }
}

=== FILE: backend.dfy ===
/** The translation service as the pipeline sees it: one request per batch, carrying the
    texts, the language pair and the glossary, answered either by a list of
    translations or by an error. HTTP, JSON and authentication are not part of this
    model. */
module Backend {
  import opened Outcomes

  /** One glossary entry: a source term, its forced translation, and whether the match
      must be exact. */
  datatype GlossaryPair = GlossaryPair(src: string, dst: string, exact: bool)

  /** What the pipeline passes with every batch besides the texts. */
  datatype Settings = Settings(glossary: seq<GlossaryPair>, targetLang: string, sourceLang: Option<string>)

  /** The body of one `TranslateBatchAsync` call (the speller is always off). */
  datatype Request = Request(texts: seq<string>, targetLang: string, sourceLang: Option<string>,
                             glossary: seq<GlossaryPair>)

  /** The service: a reply holds one translation per text in the normal case, but
      nothing forces its length; an error status becomes `Failure` with the message. */
  type Translator = Request -> Result<seq<string>, string>

  function MakeRequest(texts: seq<string>, s: Settings): (q: Request)
    ensures q.texts == texts && q.glossary == s.glossary
    ensures q.targetLang == s.targetLang && q.sourceLang == s.sourceLang
  {
    Request(texts, s.targetLang, s.sourceLang, s.glossary)
  }

  /** `EnforceGlossaryLimit`: at most `maxPairs` entries (none when `maxPairs` is not
      positive), always a prefix of the input, and the input itself when it fits. */
  function EnforceGlossaryLimit(pairs: seq<GlossaryPair>, maxPairs: int): (r: seq<GlossaryPair>)
    ensures r <= pairs
    ensures |pairs| <= maxPairs ==> r == pairs
    ensures |pairs| > maxPairs ==> |r| == if maxPairs < 0 then 0 else maxPairs
  {
    if |pairs| == 0 then []
    else if |pairs| <= maxPairs then pairs
    else pairs[..if maxPairs < 0 then 0 else maxPairs]
  }

  /** Enforcing a limit twice is enforcing it once. */
  lemma EnforceGlossaryLimitIdempotent(pairs: seq<GlossaryPair>, maxPairs: int)
    ensures EnforceGlossaryLimit(EnforceGlossaryLimit(pairs, maxPairs), maxPairs)
      == EnforceGlossaryLimit(pairs, maxPairs)
  {
  }

  /** A tighter limit applied after a looser one gives the tighter limit alone. */
  lemma {:induction false} EnforceGlossaryLimitCompose(pairs: seq<GlossaryPair>, m: int, n: int)
    requires n <= m
    ensures EnforceGlossaryLimit(EnforceGlossaryLimit(pairs, m), n) == EnforceGlossaryLimit(pairs, n)
  {
    var r := EnforceGlossaryLimit(pairs, m);
    if |pairs| > m && n >= 0 {
      assert r == pairs[..m];
      assert r[..n] == pairs[..n];
    }
  }
}

=== FILE: batching.dfy ===
/** The greedy batching shared by `TranslateTableAsync` and `TranslateTsvInMemory`: the
    pending items are taken in order; before an item is added, the batch is flushed if
    the running character count plus the item's length would exceed the budget.
    Items are positions into a table and `sizes` gives the character length of each
    position. */
module Batching {

  /** The state of the `foreach` loop: the batches flushed so far (in order), the batch
      being filled, and the running sum `sum`. */
  datatype Packer = Packer(sent: seq<seq<nat>>, batch: seq<nat>, sum: int)

  predicate InRange(items: seq<nat>, sizes: seq<nat>)
  {
    forall i :: 0 <= i < |items| ==> items[i] < |sizes|
  }

  /** Total length of the items of a batch. */
  function Load(sizes: seq<nat>, b: seq<nat>): nat
    requires InRange(b, sizes)
  {
    if b == [] then 0 else Load(sizes, b[..|b| - 1]) + sizes[b[|b| - 1]]
  }

  /** The local `FlushAsync` as seen by the packer: an empty batch is not sent and
      nothing changes; otherwise the batch is sent and the batch and sum are cleared. */
  function Flush(p: Packer): Packer
  {
    if |p.batch| == 0 then p else Packer(p.sent + [p.batch], [], 0)
  }

  /** One iteration: flush when `sum + add > maxCharsPerRequest`, then add the item. */
  function Step(p: Packer, item: nat, add: nat, budget: int): Packer
  {
    var q := if p.sum + add > budget then Flush(p) else p;
    Packer(q.sent, q.batch + [item], q.sum + add)
  }

  /** The packer after the loop has consumed `items`. */
  function Greedy(items: seq<nat>, sizes: seq<nat>, budget: int): Packer
    requires InRange(items, sizes)
  {
    if items == [] then Packer([], [], 0)
    else
      var n := |items| - 1;
      Step(Greedy(items[..n], sizes, budget), items[n], sizes[items[n]], budget)
  }

  /** Every batch sent, in order: the flushes inside the loop and the final one. */
  function Batches(items: seq<nat>, sizes: seq<nat>, budget: int): seq<seq<nat>>
    requires InRange(items, sizes)
  {
    Flush(Greedy(items, sizes, budget)).sent
  }

  /** The batches laid end to end. */
  function Concat(bs: seq<seq<nat>>): seq<nat>
  {
    if bs == [] then [] else Concat(bs[..|bs| - 1]) + bs[|bs| - 1]
  }

  lemma {:induction false} ConcatAppend(bs: seq<seq<nat>>, cs: seq<seq<nat>>)
    ensures Concat(bs + cs) == Concat(bs) + Concat(cs)
    decreases |cs|
  {
    if cs == [] {
      assert bs + cs == bs;
    } else {
      var n := |cs| - 1;
      assert (bs + cs)[..|bs + cs| - 1] == bs + cs[..n];
      ConcatAppend(bs, cs[..n]);
    }
  }

  /** A batch that may be sent: not empty, positions in range, and within the budget
      unless it is a single item. */
  predicate BatchOk(b: seq<nat>, sizes: seq<nat>, budget: int)
  {
    |b| > 0 && InRange(b, sizes) && (|b| == 1 || Load(sizes, b) <= budget)
  }

  /** Batch `b` was closed because the first item of `c` would have pushed it over. */
  predicate Closes(b: seq<nat>, c: seq<nat>, sizes: seq<nat>, budget: int)
  {
    InRange(b, sizes) && |c| > 0 && c[0] < |sizes| && Load(sizes, b) + sizes[c[0]] > budget
  }

  /** Every item of every batch occurs in the concatenation. */
  lemma {:induction false} ConcatHas(bs: seq<seq<nat>>, k: nat, j: nat)
    requires k < |bs| && j < |bs[k]|
    ensures bs[k][j] in Concat(bs)
  {
    var n := |bs| - 1;
    if k < n {
      ConcatHas(bs[..n], k, j);
      assert bs[..n][k] == bs[k];
    }
  }

  /** Every item of the concatenation comes from some batch. */
  lemma {:induction false} ConcatFrom(bs: seq<seq<nat>>, x: nat)
    requires x in Concat(bs)
    ensures exists k, j :: 0 <= k < |bs| && 0 <= j < |bs[k]| && bs[k][j] == x
  {
    var n := |bs| - 1;
    if x in Concat(bs[..n]) {
      ConcatFrom(bs[..n], x);
      var k, j :| 0 <= k < n && 0 <= j < |bs[..n][k]| && bs[..n][k][j] == x;
      assert bs[k][j] == x;
    } else {
      assert x in bs[n];
      var j :| 0 <= j < |bs[n]| && bs[n][j] == x;
    }
  }

  /** What makes a list of batches a greedy packing under the budget: no batch is
      empty, a batch of two or more items stays within the budget, and each batch was
      closed only because the first item of the next one would have pushed it over. */
  predicate WellPacked(bs: seq<seq<nat>>, sizes: seq<nat>, budget: int)
  {
    && (forall k :: 0 <= k < |bs| ==> BatchOk(bs[k], sizes, budget))
    && (forall k :: 0 <= k < |bs| - 1 ==> Closes(bs[k], bs[k + 1], sizes, budget))
  }

  lemma WellPackedSnoc(bs: seq<seq<nat>>, b: seq<nat>, sizes: seq<nat>, budget: int)
    requires WellPacked(bs, sizes, budget) && BatchOk(b, sizes, budget)
    requires |bs| > 0 ==> Closes(bs[|bs| - 1], b, sizes, budget)
    ensures WellPacked(bs + [b], sizes, budget)
  {
    var cs := bs + [b];
    forall k | 0 <= k < |cs| - 1
      ensures Closes(cs[k], cs[k + 1], sizes, budget)
    {
      assert cs[k] == bs[k];
      if k + 1 < |bs| {
        assert cs[k + 1] == bs[k + 1];
      }
    }
  }

  lemma WellPackedPrefix(bs: seq<seq<nat>>, m: nat, sizes: seq<nat>, budget: int)
    requires WellPacked(bs, sizes, budget) && m <= |bs|
    ensures WellPacked(bs[..m], sizes, budget)
  {
    var cs := bs[..m];
    forall k | 0 <= k < |cs| - 1
      ensures Closes(cs[k], cs[k + 1], sizes, budget)
    {
      assert cs[k] == bs[k] && cs[k + 1] == bs[k + 1];
    }
  }

  /** The concatenation of a single batch is that batch. */
  lemma ConcatOne(b: seq<nat>)
    ensures Concat([b]) == b
  {
    var none: seq<seq<nat>> := [];
    assert [b][..0] == none;
  }

  lemma ConcatSnoc(bs: seq<seq<nat>>, b: seq<nat>)
    ensures Concat(bs + [b]) == Concat(bs) + b
  {
    assert (bs + [b])[..|bs|] == bs;
  }

  lemma LoadAppend(sizes: seq<nat>, b: seq<nat>, x: nat)
    requires InRange(b, sizes) && x < |sizes|
    ensures InRange(b + [x], sizes)
    ensures Load(sizes, b + [x]) == Load(sizes, b) + sizes[x]
  {
    assert (b + [x])[..|b|] == b;
  }

  lemma LoadOne(sizes: seq<nat>, x: nat)
    requires x < |sizes|
    ensures InRange([x], sizes) && Load(sizes, [x]) == sizes[x]
  {
    assert [x][..0] == [];
  }

  lemma {:induction false} LoadPrefix(sizes: seq<nat>, b: seq<nat>, m: nat)
    requires InRange(b, sizes) && m <= |b|
    ensures Load(sizes, b[..m]) <= Load(sizes, b)
    decreases |b|
  {
    if m < |b| {
      var n := |b| - 1;
      assert b[..n][..m] == b[..m];
      LoadPrefix(sizes, b[..n], m);
    } else {
      assert b[..m] == b;
    }
  }

  /** The loop invariant of the greedy packer. */
  ghost predicate PackerInvariant(p: Packer, items: seq<nat>, sizes: seq<nat>, budget: int)
  {
    && InRange(p.batch, sizes)
    && Concat(p.sent) + p.batch == items
    && p.sum == Load(sizes, p.batch)
    && (|items| > 0 ==> BatchOk(p.batch, sizes, budget))
    && WellPacked(p.sent, sizes, budget)
    && (|p.sent| > 0 ==> Closes(p.sent[|p.sent| - 1], p.batch, sizes, budget))
  }

  /** A step that flushes a non-empty batch keeps the invariant. */
  lemma StepFlushes(p: Packer, items: seq<nat>, x: nat, sizes: seq<nat>, budget: int)
    requires PackerInvariant(p, items, sizes, budget) && x < |sizes|
    requires |p.batch| > 0 && p.sum + sizes[x] > budget
    ensures PackerInvariant(Packer(p.sent + [p.batch], [x], sizes[x]), items + [x], sizes, budget)
  {
    var sent := p.sent + [p.batch];
    assert |items| >= |p.batch| > 0;
    assert BatchOk(p.batch, sizes, budget);
    ConcatSnoc(p.sent, p.batch);
    WellPackedSnoc(p.sent, p.batch, sizes, budget);
    LoadOne(sizes, x);
    assert sent[|sent| - 1] == p.batch;
    assert Closes(p.batch, [x], sizes, budget);
  }

  /** Batches that are none of them empty concatenate to nothing only when there are none. */
  lemma ConcatNonEmpty(bs: seq<seq<nat>>, sizes: seq<nat>, budget: int)
    requires WellPacked(bs, sizes, budget) && |bs| > 0
    ensures Concat(bs) != []
  {
    assert BatchOk(bs[|bs| - 1], sizes, budget);
  }

  /** Non-empty batches lay out at least one item each. */
  lemma {:induction false} ConcatLength(bs: seq<seq<nat>>)
    requires forall k :: 0 <= k < |bs| ==> |bs[k]| > 0
    ensures |Concat(bs)| >= |bs|
  {
    if bs != [] {
      ConcatLength(bs[..|bs| - 1]);
    }
  }

  lemma SnocAssoc(a: seq<nat>, b: seq<nat>, x: nat)
    ensures a + (b + [x]) == (a + b) + [x]
  {
  }

  /** The batch with the item added may be sent and still follows the last batch sent. */
  lemma JoinedBatchOk(p: Packer, items: seq<nat>, x: nat, sizes: seq<nat>, budget: int)
    requires PackerInvariant(p, items, sizes, budget) && x < |sizes|
    requires |p.batch| == 0 || p.sum + sizes[x] <= budget
    ensures BatchOk(p.batch + [x], sizes, budget)
    ensures |p.sent| > 0 ==> Closes(p.sent[|p.sent| - 1], p.batch + [x], sizes, budget)
  {
    var b := p.batch + [x];
    LoadAppend(sizes, p.batch, x);
    if |p.batch| > 0 {
      assert b[0] == p.batch[0];
    } else if |p.sent| > 0 {
      ConcatNonEmpty(p.sent, sizes, budget);
      assert false;
    }
  }

  /** A step that adds the item to the batch being filled keeps the invariant. */
  lemma StepJoins(p: Packer, items: seq<nat>, x: nat, sizes: seq<nat>, budget: int)
    requires PackerInvariant(p, items, sizes, budget) && x < |sizes|
    requires |p.batch| == 0 || p.sum + sizes[x] <= budget
    ensures PackerInvariant(Packer(p.sent, p.batch + [x], p.sum + sizes[x]), items + [x], sizes, budget)
  {
    LoadAppend(sizes, p.batch, x);
    JoinedBatchOk(p, items, x, sizes, budget);
    SnocAssoc(Concat(p.sent), p.batch, x);
  }

  /** One step of the loop keeps the invariant. */
  lemma StepInvariant(p: Packer, items: seq<nat>, x: nat, sizes: seq<nat>, budget: int)
    requires PackerInvariant(p, items, sizes, budget) && x < |sizes|
    ensures PackerInvariant(Step(p, x, sizes[x], budget), items + [x], sizes, budget)
  {
    var q := Step(p, x, sizes[x], budget);
    if p.sum + sizes[x] > budget && |p.batch| > 0 {
      assert q == Packer(p.sent + [p.batch], [x], sizes[x]);
      StepFlushes(p, items, x, sizes, budget);
    } else {
      assert q == Packer(p.sent, p.batch + [x], p.sum + sizes[x]);
      StepJoins(p, items, x, sizes, budget);
    }
  }

  lemma {:induction false} GreedyInvariant(items: seq<nat>, sizes: seq<nat>, budget: int)
    requires InRange(items, sizes)
    ensures PackerInvariant(Greedy(items, sizes, budget), items, sizes, budget)
  {
    if items != [] {
      var n := |items| - 1;
      GreedyInvariant(items[..n], sizes, budget);
      assert items == items[..n] + [items[n]];
      StepInvariant(Greedy(items[..n], sizes, budget), items[..n], items[n], sizes, budget);
    } else {
      var none: seq<seq<nat>> := [];
      assert Concat(none) == [];
    }
  }

  /** The batches concatenate back to the items, in order: every item is sent, exactly
      as often as it occurs, and in the order given. */
  lemma BatchesCover(items: seq<nat>, sizes: seq<nat>, budget: int)
    requires InRange(items, sizes)
    ensures Concat(Batches(items, sizes, budget)) == items
  {
    var p := Greedy(items, sizes, budget);
    GreedyInvariant(items, sizes, budget);
    if |p.batch| > 0 {
      ConcatSnoc(p.sent, p.batch);
    }
  }

  /** The batches are a greedy packing: none is empty (so the backend never receives an
      empty request), only a lone oversized item can exceed the budget, and a batch is
      closed exactly when the next item would not fit. */
  lemma BatchesWellPacked(items: seq<nat>, sizes: seq<nat>, budget: int)
    requires InRange(items, sizes)
    ensures WellPacked(Batches(items, sizes, budget), sizes, budget)
  {
    var p := Greedy(items, sizes, budget);
    GreedyInvariant(items, sizes, budget);
    if |p.batch| > 0 {
      WellPackedSnoc(p.sent, p.batch, sizes, budget);
    }
  }

  /** The budget bound of every batch, in the terms of the source: a batch's total
      length is within `maxCharsPerRequest` unless it is one row longer than that. */
  lemma BatchWithinBudget(items: seq<nat>, sizes: seq<nat>, budget: int, k: nat)
    requires InRange(items, sizes)
    requires k < |Batches(items, sizes, budget)|
    ensures var b := Batches(items, sizes, budget)[k];
      |b| > 0 && InRange(b, sizes) && (Load(sizes, b) <= budget || (|b| == 1 && sizes[b[0]] > budget))
  {
    BatchesWellPacked(items, sizes, budget);
    var b := Batches(items, sizes, budget)[k];
    assert BatchOk(b, sizes, budget);
    if |b| == 1 && Load(sizes, b) > budget {
      assert b[..0] == [];
    }
  }

  /** When there are items, the final flush sends the batch still being filled. */
  lemma BatchesOfNonEmpty(items: seq<nat>, sizes: seq<nat>, budget: int)
    requires InRange(items, sizes) && |items| > 0
    ensures var p := Greedy(items, sizes, budget);
      |p.batch| > 0 && Batches(items, sizes, budget) == p.sent + [p.batch]
      && InRange(p.batch, sizes) && p.sum == Load(sizes, p.batch)
  {
    GreedyInvariant(items, sizes, budget);
  }

  /** The packer after one more item is one more step of the loop. */
  lemma GreedySnoc(items: seq<nat>, x: nat, sizes: seq<nat>, budget: int)
    requires InRange(items, sizes) && x < |sizes|
    ensures InRange(items + [x], sizes)
    ensures Greedy(items + [x], sizes, budget) == Step(Greedy(items, sizes, budget), x, sizes[x], budget)
  {
    assert (items + [x])[..|items|] == items;
  }

  /** The packer after `k + 1` items is one more step from the packer after `k`. */
  lemma GreedyTake(items: seq<nat>, sizes: seq<nat>, budget: int, k: nat)
    requires InRange(items, sizes) && k < |items|
    ensures InRange(items[..k], sizes) && InRange(items[..k + 1], sizes)
    ensures Greedy(items[..k + 1], sizes, budget)
      == Step(Greedy(items[..k], sizes, budget), items[k], sizes[items[k]], budget)
  {
    assert items[..k + 1] == items[..k] + [items[k]];
    GreedySnoc(items[..k], items[k], sizes, budget);
  }

  /** The batches flushed while the loop has consumed the first `k` items are the first
      batches of the whole plan. */
  lemma {:induction false} GreedySentPrefix(items: seq<nat>, sizes: seq<nat>, budget: int, k: nat)
    requires InRange(items, sizes) && k <= |items|
    ensures InRange(items[..k], sizes)
    ensures Greedy(items[..k], sizes, budget).sent <= Batches(items, sizes, budget)
    decreases |items| - k
  {
    if k == |items| {
      assert items[..k] == items;
    } else {
      GreedySentPrefix(items, sizes, budget, k + 1);
      assert items[..k + 1] == items[..k] + [items[k]];
      GreedySnoc(items[..k], items[k], sizes, budget);
    }
  }

  /** No batches are sent for no items. */
  lemma BatchesOfEmpty(sizes: seq<nat>, budget: int)
    ensures Batches([], sizes, budget) == []
  {
  }

  /** The last batch of a packing ends with the last item. */
  lemma LastBatch(bs: seq<seq<nat>>, items: seq<nat>, sizes: seq<nat>, budget: int)
    requires Concat(bs) == items && WellPacked(bs, sizes, budget) && |items| > 0
    ensures |bs| > 0
    ensures var last := bs[|bs| - 1];
      Concat(bs[..|bs| - 1]) + last[..|last| - 1] == items[..|items| - 1]
      && last[|last| - 1] == items[|items| - 1]
  {
    var m := |bs| - 1;
    var last := bs[m];
    assert BatchOk(last, sizes, budget);
    assert last == last[..|last| - 1] + [last[|last| - 1]];
    assert items == (Concat(bs[..m]) + last[..|last| - 1]) + [last[|last| - 1]];
  }

  /** Greedy packing is the only packing: any list of batches that concatenates to the
      items and is `WellPacked` is exactly what the loop sends. So the plan depends on
      the items, their lengths and the budget alone, and re-planning gives the same
      partition. */
  lemma {:induction false} BatchesUnique(items: seq<nat>, sizes: seq<nat>, budget: int, bs: seq<seq<nat>>)
    requires InRange(items, sizes)
    requires Concat(bs) == items
    requires WellPacked(bs, sizes, budget)
    ensures bs == Batches(items, sizes, budget)
    decreases |items|
  {
    if items == [] {
    } else {
      var n := |items| - 1;
      var x := items[n];
      LastBatch(bs, items, sizes, budget);
      var m := |bs| - 1;
      var last := bs[m];
      var front := last[..|last| - 1];
      assert last == front + [x];
      WellPackedPrefix(bs, m, sizes, budget);
      if front == [] {
        UniqueFreshBatch(items, sizes, budget, bs);
      } else {
        UniqueJoinedBatch(items, sizes, budget, bs);
      }
    }
  }

  /** An item that does not fit into the batch being filled (or finds it empty) is
      sent in a batch of its own after the batches of the items before it. */
  lemma GreedyFresh(init: seq<nat>, x: nat, sizes: seq<nat>, budget: int)
    requires InRange(init, sizes) && x < |sizes|
    requires var p := Greedy(init, sizes, budget); |p.batch| == 0 || p.sum + sizes[x] > budget
    ensures InRange(init + [x], sizes)
    ensures Batches(init + [x], sizes, budget) == Batches(init, sizes, budget) + [[x]]
  {
    GreedySnoc(init, x, sizes, budget);
    var p := Greedy(init, sizes, budget);
    var q := Packer(Flush(p).sent, [x], if |p.batch| == 0 then p.sum + sizes[x] else sizes[x]);
    assert Step(p, x, sizes[x], budget) == q;
  }

  /** An item that fits joins the batch being filled, which is sent last. */
  lemma GreedyJoin(init: seq<nat>, x: nat, sizes: seq<nat>, budget: int)
    requires InRange(init, sizes) && x < |sizes|
    requires var p := Greedy(init, sizes, budget); |p.batch| > 0 && p.sum + sizes[x] <= budget
    ensures InRange(init + [x], sizes)
    ensures var p := Greedy(init, sizes, budget);
      Batches(init + [x], sizes, budget) == p.sent + [p.batch + [x]]
  {
    GreedySnoc(init, x, sizes, budget);
    var p := Greedy(init, sizes, budget);
    assert Step(p, x, sizes[x], budget) == Packer(p.sent, p.batch + [x], p.sum + sizes[x]);
  }

  /** Case of `BatchesUnique` where the last item starts a batch of its own. */
  lemma {:induction false} UniqueFreshBatch(items: seq<nat>, sizes: seq<nat>, budget: int, bs: seq<seq<nat>>)
    requires InRange(items, sizes) && |items| > 0
    requires Concat(bs) == items && WellPacked(bs, sizes, budget) && |bs| > 0
    requires bs[|bs| - 1] == [items[|items| - 1]]
    ensures bs == Batches(items, sizes, budget)
    decreases |items|, 0
  {
    var n := |items| - 1;
    var x := items[n];
    var init := items[..n];
    var m := |bs| - 1;
    var rest := bs[..m];
    assert bs == rest + [[x]];
    assert items == init + [x];
    ConcatSnoc(rest, [x]);
    WellPackedPrefix(bs, m, sizes, budget);
    BatchesUnique(init, sizes, budget, rest);
    var p := Greedy(init, sizes, budget);
    if n > 0 {
      BatchesOfNonEmpty(init, sizes, budget);
      assert rest[m - 1] == p.batch;
      assert Closes(bs[m - 1], bs[m], sizes, budget);
    }
    GreedyFresh(init, x, sizes, budget);
  }

  /** A batch of two or more without its last item is still a batch that may be sent,
      and that item fitted into it. */
  lemma FrontFits(last: seq<nat>, sizes: seq<nat>, budget: int)
    requires BatchOk(last, sizes, budget) && |last| >= 2
    ensures var front := last[..|last| - 1];
      BatchOk(front, sizes, budget) && Load(sizes, front) + sizes[last[|last| - 1]] <= budget
  {
    var front := last[..|last| - 1];
    assert last == front + [last[|last| - 1]];
    LoadAppend(sizes, front, last[|last| - 1]);
  }

  /** Removing the last item from a final batch of two or more leaves a packing of the
      other items, and the removed item fitted into the batch. */
  lemma JoinedPrefix(items: seq<nat>, sizes: seq<nat>, budget: int, bs: seq<seq<nat>>)
    requires InRange(items, sizes) && |items| > 0
    requires Concat(bs) == items && WellPacked(bs, sizes, budget) && |bs| > 0
    requires |bs[|bs| - 1]| >= 2
    ensures var m, last, x := |bs| - 1, bs[|bs| - 1], items[|items| - 1];
      var front := last[..|last| - 1];
      && bs == bs[..m] + [front + [x]]
      && Concat(bs[..m] + [front]) == items[..|items| - 1]
      && WellPacked(bs[..m] + [front], sizes, budget)
      && InRange(front, sizes) && Load(sizes, front) + sizes[x] <= budget
  {
    LastBatch(bs, items, sizes, budget);
    var m := |bs| - 1;
    var last := bs[m];
    var front := last[..|last| - 1];
    assert last == front + [items[|items| - 1]];
    assert bs == bs[..m] + [last];
    assert BatchOk(last, sizes, budget);
    FrontFits(last, sizes, budget);
    ConcatSnoc(bs[..m], front);
    WellPackedPrefix(bs, m, sizes, budget);
    if m > 0 {
      assert Closes(bs[m - 1], bs[m], sizes, budget);
      assert front[0] == last[0];
    }
    WellPackedSnoc(bs[..m], front, sizes, budget);
  }

  /** Case of `BatchesUnique` where the last item joined the batch before it. */
  lemma {:induction false} UniqueJoinedBatch(items: seq<nat>, sizes: seq<nat>, budget: int, bs: seq<seq<nat>>)
    requires InRange(items, sizes) && |items| > 0
    requires Concat(bs) == items && WellPacked(bs, sizes, budget) && |bs| > 0
    requires |bs[|bs| - 1]| >= 2
    ensures bs == Batches(items, sizes, budget)
    decreases |items|, 0
  {
    JoinedPrefix(items, sizes, budget, bs);
    var n := |items| - 1;
    var x := items[n];
    var init := items[..n];
    var m := |bs| - 1;
    var last := bs[m];
    var front := last[..|last| - 1];
    var rest := bs[..m] + [front];
    BatchesUnique(init, sizes, budget, rest);
    BatchesOfNonEmpty(init, sizes, budget);
    var p := Greedy(init, sizes, budget);
    SnocInjective(p.sent, p.batch, bs[..m], front);
    assert items == init + [x];
    GreedyJoin(init, x, sizes, budget);
  }

  /** A non-empty sequence is its front followed by its last element. */
  lemma SplitLast<T>(xs: seq<T>)
    requires |xs| > 0
    ensures xs == xs[..|xs| - 1] + [xs[|xs| - 1]]
  {
  }

  /** Membership facts about the front of a batch: a position outside the batch is
      outside its front, and a last occurrence before the final slot stays a last
      occurrence in the front and differs from the final position. */
  lemma FrontOccurrence(b: seq<nat>, x: nat, j: nat)
    requires |b| > 0
    ensures x !in b ==> x !in b[..|b| - 1] && x != b[|b| - 1]
    ensures j < |b| - 1 && b[j] !in b[j + 1..] ==>
      b[..|b| - 1][j] == b[j] && b[j] != b[|b| - 1] && b[j] !in b[..|b| - 1][j + 1..]
  {
    var n := |b| - 1;
    assert b == b[..n] + [b[n]];
    if j < n {
      assert b[j + 1..] == b[..n][j + 1..] + [b[n]];
    }
  }

  lemma SnocInjective<T>(a: seq<T>, x: T, b: seq<T>, y: T)
    requires a + [x] == b + [y]
    ensures a == b && x == y
  {
    assert a == (a + [x])[..|a|];
    assert b == (b + [y])[..|b|];
  }
}

=== FILE: cli.dfy ===
/** The command-line helpers of `Program.cs`: help detection, option lookup and the
    choice of the exchange-table delimiter. */
module Cli {
  import opened Outcomes
  import opened Text

  /** ASCII upper-casing of a whole string. */
  function Upper(s: string): (u: string)
    ensures |u| == |s|
    ensures forall i :: 0 <= i < |s| ==> u[i] == AsciiUpper(s[i])
  {
    if s == [] then "" else [AsciiUpper(s[0])] + Upper(s[1..])
  }

  /** Case-insensitive equality is equality of the upper-cased strings. */
  lemma EqualsIgnoreCaseUpper(a: string, b: string)
    ensures EqualsIgnoreCase(a, b) <==> Upper(a) == Upper(b)
  {
    if Upper(a) == Upper(b) {
      assert |a| == |b|;
      forall i | 0 <= i < |a| ensures AsciiUpper(a[i]) == AsciiUpper(b[i]) {
        assert Upper(a)[i] == Upper(b)[i];
      }
    }
  }

  /** `-h`, `--help` or `help`, in any letter case. */
  predicate IsHelp(s: string)
  {
    EqualsIgnoreCase(s, "-h") || EqualsIgnoreCase(s, "--help") || EqualsIgnoreCase(s, "help")
  }

  /** A help word is one whose upper-cased form is `-H`, `--HELP` or `HELP`. */
  lemma IsHelpUpper(s: string)
    ensures IsHelp(s) <==> Upper(s) in {"-H", "--HELP", "HELP"}
  {
    EqualsIgnoreCaseUpper(s, "-h");
    EqualsIgnoreCaseUpper(s, "--help");
    EqualsIgnoreCaseUpper(s, "help");
    assert Upper("-h") == "-H";
    assert Upper("--help") == "--HELP";
    assert Upper("help") == "HELP";
  }

  /** The argument after the first occurrence of `key` (any letter case); `None` when
      `key` does not occur or its first occurrence is the last argument. */
  function GetOptionValue(args: seq<string>, key: string): (r: Option<string>)
    ensures r.Some? <==> exists i :: 0 <= i < |args| - 1 && EqualsIgnoreCase(args[i], key)
    ensures r.Some? ==> exists i :: FirstMatch(args, key, i) && i + 1 < |args| && r.value == args[i + 1]
  {
    var i := FindIgnoreCase(args, key);
    if i >= 0 && i + 1 < |args| then
      assert FirstMatch(args, key, i);
      Some(args[i + 1])
    else None
  }

  /** The value of `--delimiter`: "\t" (written as backslash, t) and `tab` mean the tab
      character, any other value one UTF-16 unit long is that character, and a missing,
      empty or longer value leaves the default. */
  function ResolveDelimiter(args: seq<string>, defaultDelim: char): (d: char)
    ensures d == defaultDelim || d == '\t' || GetOptionValue(args, "--delimiter") == Some([d])
    ensures GetOptionValue(args, "--delimiter").None? ==> d == defaultDelim
  {
    match GetOptionValue(args, "--delimiter")
    case None => defaultDelim
    case Some(s) =>
      if s == "" then defaultDelim
      else if s == "\\t" || s == "tab" then '\t'
      else if Utf16Length(s) == 1 then
        assert s == [s[0]];
        s[0]
      else defaultDelim
  }

  /** A value that is one character of the Basic Multilingual Plane selects that
      character, wherever `--delimiter` stands among the arguments. */
  lemma ResolveGivenDelimiter(args: seq<string>, c: char, defaultDelim: char)
    requires GetOptionValue(args, "--delimiter") == Some([c]) && c as int <= 0xFFFF
    ensures ResolveDelimiter(args, defaultDelim) == c
  {
    assert Utf16Length([c]) == 1;
  }

  /** Both spellings of the tab select the tab character. */
  lemma ResolveTabWords(args: seq<string>, defaultDelim: char)
    requires GetOptionValue(args, "--delimiter") == Some("tab")
          || GetOptionValue(args, "--delimiter") == Some("\\t")
    ensures ResolveDelimiter(args, defaultDelim) == '\t'
  {
  }

  /** Any other value (empty, longer than one UTF-16 unit, or a character above U+FFFF)
      leaves the default. */
  lemma ResolveOtherValue(args: seq<string>, v: string, defaultDelim: char)
    requires GetOptionValue(args, "--delimiter") == Some(v)
    requires Utf16Length(v) != 1 && v != "tab" && v != "\\t"
    ensures ResolveDelimiter(args, defaultDelim) == defaultDelim
  {
  }

  /** The option is found after the command word: `translate in out --delimiter ;`. */
  lemma ResolveAfterCommand(cmd: string, input: string, output: string, defaultDelim: char)
    requires !EqualsIgnoreCase(cmd, "--delimiter") && !EqualsIgnoreCase(input, "--delimiter")
    requires !EqualsIgnoreCase(output, "--delimiter")
    ensures ResolveDelimiter([cmd, input, output, "--delimiter", ";"], defaultDelim) == ';'
  {
    var args := [cmd, input, output, "--delimiter", ";"];
    assert FirstMatch(args, "--delimiter", 3);
    ResolveGivenDelimiter(args, ';', defaultDelim);
  }

  /** The delimiter a header line suggests: tab when it holds one, comma otherwise. */
  function DetectDelimiter(header: string): (d: char)
    ensures d == '\t' || d == ','
    ensures d == '\t' <==> '\t' in header
  {
    if '\t' in header then '\t' else ','
  }
}

=== FILE: exchange_table.dfy ===
/** The exchange table of `Program.cs`: the `Row` record and its delimited text form,
    read by `ReadRows` and written by `WriteRows`. The stream is replaced by the whole
    text it holds; `ReadLine` splits at '\n' and each line loses its trailing '\r'. */
module ExchangeTable {
  import opened Outcomes
  import opened Text
  import opened Numbers

  /** One translatable unit: position in the source asset, field on that line, source
      text and (possibly empty) translation. */
  datatype Row = Row(originalLineNo: int32, fieldIndex: int32, origText: string, translatedText: string)

  /** The header lacks a required column; `found` are the header cells, which the
      source lists in its exception message. */
  datatype SchemaError = MissingColumns(found: seq<string>)

  /** The five columns of an exchange table, in order: what `extract_strings` and
      `WriteRows` write as the header. */
  const HeaderColumns: seq<string> :=
    ["original_line_no", "field_index", "record_id_guess", "orig_text", "translated_text"]

  /** Positions of the four required columns in a header. */
  datatype Layout = Layout(line: nat, field: nat, orig: nat, trans: nat)

  /** Some cell of the header is `key` in any letter case. */
  predicate HasColumn(cols: seq<string>, key: string)
  {
    exists i :: 0 <= i < |cols| && EqualsIgnoreCase(cols[i], key)
  }

  /** Locates the required columns, case-insensitively and first match first; `None`
      when any of them is missing. */
  function HeaderLayout(cols: seq<string>): (lay: Option<Layout>)
    ensures lay.None? <==>
      !HasColumn(cols, "original_line_no") || !HasColumn(cols, "field_index")
      || !HasColumn(cols, "orig_text") || !HasColumn(cols, "translated_text")
    ensures lay.Some? ==>
      && FirstMatch(cols, "original_line_no", lay.value.line)
      && FirstMatch(cols, "field_index", lay.value.field)
      && FirstMatch(cols, "orig_text", lay.value.orig)
      && FirstMatch(cols, "translated_text", lay.value.trans)
  {
    var iLine := FindIgnoreCase(cols, "original_line_no");
    var iField := FindIgnoreCase(cols, "field_index");
    var iOrig := FindIgnoreCase(cols, "orig_text");
    var iTrans := FindIgnoreCase(cols, "translated_text");
    if iLine < 0 || iField < 0 || iOrig < 0 || iTrans < 0 then None
    else Some(Layout(iLine, iField, iOrig, iTrans))
  }

  /** The local `Get(idx)`: the cell, or "" past the end of a short line. */
  function Cell(c: seq<string>, i: nat): string
  {
    if i < |c| then c[i] else ""
  }

  /** The cells of a data line: the line without its trailing '\r', split at the
      delimiter. */
  function LineCells(line: string, d: char): seq<string>
  {
    Split(TrimEnd(line, '\r'), d)
  }

  /** Both key cells of the line are 32-bit integers. */
  predicate KeysParse(line: string, d: char, lay: Layout)
  {
    && TryParseInt32(Cell(LineCells(line, d), lay.line)).Some?
    && TryParseInt32(Cell(LineCells(line, d), lay.field)).Some?
  }

  /** One data line: `None` when its line or field cell is not a 32-bit integer;
      otherwise the parsed keys and the two text cells, "" where the line is too
      short. */
  function DecodeLine(line: string, d: char, lay: Layout): (r: Option<Row>)
    ensures r.Some? <==> KeysParse(line, d, lay)
    ensures r.Some? ==>
      && TryParseInt32(Cell(LineCells(line, d), lay.line)) == Some(r.value.originalLineNo)
      && TryParseInt32(Cell(LineCells(line, d), lay.field)) == Some(r.value.fieldIndex)
      && r.value.origText == Cell(LineCells(line, d), lay.orig)
      && r.value.translatedText == Cell(LineCells(line, d), lay.trans)
  {
    var c := Split(TrimEnd(line, '\r'), d);
    match TryParseInt32(Cell(c, lay.line))
    case None => None
    case Some(lineNo) =>
      match TryParseInt32(Cell(c, lay.field))
      case None => None
      case Some(fieldIdx) => Some(Row(lineNo, fieldIdx, Cell(c, lay.orig), Cell(c, lay.trans)))
  }

  /** The rows of the data lines, in order, skipping the lines `DecodeLine` rejects. */
  function DecodeLines(lines: seq<string>, d: char, lay: Layout): (rows: seq<Row>)
    ensures |rows| <= |lines|
  {
    if lines == [] then []
    else
      var prev := DecodeLines(lines[..|lines| - 1], d, lay);
      match DecodeLine(lines[|lines| - 1], d, lay)
      case None => prev
      case Some(r) => prev + [r]
  }

  /** The positions holding `true`, in ascending order. */
  function TruePositions(flags: seq<bool>): (ks: seq<nat>)
    ensures forall m :: 0 <= m < |ks| ==> ks[m] < |flags| && flags[ks[m]]
    ensures forall m, n :: 0 <= m < n < |ks| ==> ks[m] < ks[n]
    ensures forall k :: 0 <= k < |flags| && flags[k] ==> k in ks
  {
    if flags == [] then []
    else
      var n := |flags| - 1;
      var prev := TruePositions(flags[..n]);
      if flags[n] then prev + [n] else prev
  }

  /** The positions of the data lines `DecodeLine` accepts (whose two key cells parse),
      in ascending order. */
  function KeptLines(lines: seq<string>, d: char, lay: Layout): (ks: seq<nat>)
    ensures forall m :: 0 <= m < |ks| ==> ks[m] < |lines| && DecodeLine(lines[ks[m]], d, lay).Some?
    ensures forall m, n :: 0 <= m < n < |ks| ==> ks[m] < ks[n]
    ensures forall k :: 0 <= k < |lines| && DecodeLine(lines[k], d, lay).Some? ==> k in ks
  {
    TruePositions(seq(|lines|, k requires 0 <= k < |lines| => DecodeLine(lines[k], d, lay).Some?))
  }

  /** The rows read are, in order, the decoded lines at the kept positions: exactly the
      lines whose key cells parse, none dropped and none repeated. */
  lemma {:induction false} DecodeLinesKept(lines: seq<string>, d: char, lay: Layout)
    ensures |DecodeLines(lines, d, lay)| == |KeptLines(lines, d, lay)|
    ensures forall m :: 0 <= m < |KeptLines(lines, d, lay)| ==>
      DecodeLines(lines, d, lay)[m] == DecodeLine(lines[KeptLines(lines, d, lay)[m]], d, lay).value
  {
    if lines != [] {
      var n := |lines| - 1;
      DecodeLinesKept(lines[..n], d, lay);
      KeptLinesSnoc(lines, d, lay);
      var rows, ks := DecodeLines(lines, d, lay), KeptLines(lines, d, lay);
      var prevRows, prevKs := DecodeLines(lines[..n], d, lay), KeptLines(lines[..n], d, lay);
      var last := DecodeLine(lines[n], d, lay);
      assert rows == if last.Some? then prevRows + [last.value] else prevRows;
      forall m | 0 <= m < |ks| ensures rows[m] == DecodeLine(lines[ks[m]], d, lay).value {
        if m < |prevKs| {
          assert rows[m] == prevRows[m] && ks[m] == prevKs[m];
          assert lines[..n][prevKs[m]] == lines[ks[m]];
        } else {
          assert ks[m] == n && rows[m] == last.value;
        }
      }
    }
  }

  /** One more line adds its position when `DecodeLine` accepts it. */
  lemma KeptLinesSnoc(lines: seq<string>, d: char, lay: Layout)
    requires |lines| > 0
    ensures var n := |lines| - 1;
      KeptLines(lines, d, lay) == KeptLines(lines[..n], d, lay) + (if DecodeLine(lines[n], d, lay).Some? then [n] else [])
  {
    var n := |lines| - 1;
    var flags := seq(|lines|, k requires 0 <= k < |lines| => DecodeLine(lines[k], d, lay).Some?);
    var front := seq(n, k requires 0 <= k < n => DecodeLine(lines[..n][k], d, lay).Some?);
    forall k | 0 <= k < n ensures flags[..n][k] == front[k] {
      assert lines[..n][k] == lines[k];
    }
    assert flags[..n] == front;
  }

  /** The lines of a table text: the header (possibly empty) and the data lines. */
  function HeaderOf(lines: seq<string>): string { if |lines| > 0 then lines[0] else "" }

  function BodyOf(lines: seq<string>): seq<string> { if |lines| > 0 then lines[1..] else [] }

  /** What `ReadRows(path, delim).ToList()` yields for a file holding `text`. */
  function DecodeTable(text: string, d: char): Result<seq<Row>, SchemaError>
  {
    var lines := SplitLines(text);
    var cols := Split(TrimEnd(HeaderOf(lines), '\r'), d);
    match HeaderLayout(cols)
    case None => Failure(MissingColumns(cols))
    case Some(lay) => Success(DecodeLines(BodyOf(lines), d, lay))
  }

  /** `ReadRows`: reads the header, fails when a required column is missing, then reads
      each data line in turn. */
  method ReadRows(text: string, d: char) returns (result: Result<seq<Row>, SchemaError>)
    ensures result == DecodeTable(text, d)
  {
    var lines := SplitLines(text);
    var headerLine := TrimEnd(HeaderOf(lines), '\r');
    var cols := Split(headerLine, d);
    var iLine := FindIgnoreCase(cols, "original_line_no");
    var iField := FindIgnoreCase(cols, "field_index");
    var iOrig := FindIgnoreCase(cols, "orig_text");
    var iTrans := FindIgnoreCase(cols, "translated_text");
    if iLine < 0 || iField < 0 || iOrig < 0 || iTrans < 0 {
      return Failure(MissingColumns(cols));
    }
    ghost var lay := Layout(iLine, iField, iOrig, iTrans);
    var body := BodyOf(lines);
    var rows: seq<Row> := [];
    for k := 0 to |body|
      invariant rows == DecodeLines(body[..k], d, lay)
    {
      assert body[..k + 1][..k] == body[..k];
      var c := Split(TrimEnd(body[k], '\r'), d);
      var lineNo := TryParseInt32(Cell(c, iLine));
      if lineNo.None? { continue; }
      var fieldIdx := TryParseInt32(Cell(c, iField));
      if fieldIdx.None? { continue; }
      rows := rows + [Row(lineNo.value, fieldIdx.value, Cell(c, iOrig), Cell(c, iTrans))];
    }
    assert body[..|body|] == body;
    return Success(rows);
  }

  /** The header line `WriteRows` writes. */
  function HeaderLine(d: char): string { Join(HeaderColumns, [d]) }

  /** One row as `WriteRows` writes it: invariant-culture integers, an empty
      `record_id_guess`, and both texts with '\n' flattened to ' '. */
  function EncodeLine(r: Row, d: char): string
  {
    Join([IntToString(r.originalLineNo as int), IntToString(r.fieldIndex as int), "",
          FlattenNewlines(r.origText), FlattenNewlines(r.translatedText)], [d])
  }

  function EncodeLines(rows: seq<Row>, d: char): (lines: seq<string>)
    ensures |lines| == |rows|
    ensures forall i :: 0 <= i < |rows| ==> lines[i] == EncodeLine(rows[i], d)
  {
    if rows == [] then [] else EncodeLines(rows[..|rows| - 1], d) + [EncodeLine(rows[|rows| - 1], d)]
  }

  /** The file `WriteRows` produces: the header and one line per row, each ended by
      `WriteLine`'s '\n'. */
  function EncodeTable(rows: seq<Row>, d: char): string
  {
    Join([HeaderLine(d)] + EncodeLines(rows, d), "\n") + "\n"
  }

  /** `WriteRows`: the header, then one line per row in order. */
  method WriteRows(d: char, rows: seq<Row>) returns (text: string)
    ensures text == EncodeTable(rows, d)
  {
    text := HeaderLine(d) + "\n";
    ghost var written := [HeaderLine(d)];
    for i := 0 to |rows|
      invariant written == [HeaderLine(d)] + EncodeLines(rows[..i], d)
      invariant text == Join(written, "\n") + "\n"
    {
      assert rows[..i + 1][..i] == rows[..i];
      var line := Join([IntToString(rows[i].originalLineNo as int), IntToString(rows[i].fieldIndex as int), "",
                        ReplaceChar(rows[i].origText, '\n', ' '), ReplaceChar(rows[i].translatedText, '\n', ' ')], [d]);
      JoinSnoc(written, line, "\n");
      written := written + [line];
      text := text + line + "\n";
    }
    assert rows[..|rows|] == rows;
  }

  /** A delimiter that cannot occur in the header names or in a rendered integer and is
      not a line break. */
  predicate SafeDelimiter(d: char)
  {
    d != '\n' && d != '\r' && !IsDigit(d) && d != '-' && d != '_' && !('a' <= d <= 'z')
  }

  /** A text that survives writing and reading: after flattening it holds neither the
      delimiter nor a carriage return. */
  predicate Transparent(s: string, d: char)
  {
    d !in FlattenNewlines(s) && '\r' !in s
  }

  /** Every text of the rows survives writing with delimiter `d` and reading back. */
  predicate TransparentRows(rows: seq<Row>, d: char)
  {
    forall i :: 0 <= i < |rows| ==> Transparent(rows[i].origText, d) && Transparent(rows[i].translatedText, d)
  }

  /** The row as it is read back: both texts flattened. */
  function Flattened(r: Row): Row
  {
    r.(origText := FlattenNewlines(r.origText), translatedText := FlattenNewlines(r.translatedText))
  }

  function FlattenedRows(rows: seq<Row>): (out: seq<Row>)
    ensures |out| == |rows|
    ensures forall i :: 0 <= i < |rows| ==> out[i] == Flattened(rows[i])
  {
    if rows == [] then [] else FlattenedRows(rows[..|rows| - 1]) + [Flattened(rows[|rows| - 1])]
  }

  lemma FlattenKeepsCarriageReturnOut(s: string)
    requires '\r' !in s
    ensures '\r' !in FlattenNewlines(s)
  {
    var f := FlattenNewlines(s);
    forall i | 0 <= i < |f| ensures f[i] != '\r' {
      assert s[i] != '\r';
    }
  }

  /** The cells `EncodeLine` joins. */
  function EncodedCells(r: Row): seq<string>
  {
    [IntToString(r.originalLineNo as int), IntToString(r.fieldIndex as int), "",
     FlattenNewlines(r.origText), FlattenNewlines(r.translatedText)]
  }

  /** A character that is neither a digit nor '-' and is in neither flattened text is in
      none of the cells of the row. */
  lemma EncodedCellsAvoid(r: Row, c: char)
    requires !IsDigit(c) && c != '-'
    requires c !in FlattenNewlines(r.origText) && c !in FlattenNewlines(r.translatedText)
    ensures forall i :: 0 <= i < 5 ==> c !in EncodedCells(r)[i]
  {
    var a := IntToString(r.originalLineNo as int);
    var b := IntToString(r.fieldIndex as int);
    assert forall i :: 0 <= i < |a| ==> a[i] != c;
    assert forall i :: 0 <= i < |b| ==> b[i] != c;
  }

  /** A written row line splits back into the cells it was joined from. */
  lemma EncodedLineCells(r: Row, d: char)
    requires SafeDelimiter(d)
    requires Transparent(r.origText, d) && Transparent(r.translatedText, d)
    ensures Split(TrimEnd(EncodeLine(r, d), '\r'), d) == EncodedCells(r)
  {
    var cells := EncodedCells(r);
    var line := EncodeLine(r, d);
    assert line == Join(cells, [d]);
    FlattenKeepsCarriageReturnOut(r.origText);
    FlattenKeepsCarriageReturnOut(r.translatedText);
    EncodedCellsAvoid(r, '\r');
    EncodedCellsAvoid(r, d);
    JoinAvoids(cells, [d], '\r');
    TrimEndAbsent(line, '\r');
    SplitJoin(cells, d);
  }

  /** One written row line is read back as the flattened row. */
  lemma DecodeEncodeLine(r: Row, d: char)
    requires SafeDelimiter(d)
    requires Transparent(r.origText, d) && Transparent(r.translatedText, d)
    ensures DecodeLine(EncodeLine(r, d), d, Layout(0, 1, 3, 4)) == Some(Flattened(r))
  {
    EncodedLineCells(r, d);
    TryParseIntToString(r.originalLineNo);
    TryParseIntToString(r.fieldIndex);
  }

  lemma {:induction false} DecodeEncodeLines(rows: seq<Row>, d: char)
    requires SafeDelimiter(d)
    requires forall i :: 0 <= i < |rows| ==>
      Transparent(rows[i].origText, d) && Transparent(rows[i].translatedText, d)
    ensures DecodeLines(EncodeLines(rows, d), d, Layout(0, 1, 3, 4)) == FlattenedRows(rows)
  {
    if rows != [] {
      var n := |rows| - 1;
      var lines := EncodeLines(rows, d);
      assert lines[..n] == EncodeLines(rows[..n], d);
      DecodeEncodeLines(rows[..n], d);
      DecodeEncodeLine(rows[n], d);
      assert FlattenedRows(rows) == FlattenedRows(rows[..n]) + [Flattened(rows[n])];
    }
  }

  lemma FirstColumnsFound()
    ensures FindIgnoreCase(HeaderColumns, "original_line_no") == 0
    ensures FindIgnoreCase(HeaderColumns, "field_index") == 1
  {
    assert EqualsIgnoreCase(HeaderColumns[0], "original_line_no");
    assert EqualsIgnoreCase(HeaderColumns[1], "field_index");
  }

  lemma TextColumnsFound()
    ensures FindIgnoreCase(HeaderColumns, "orig_text") == 3
    ensures FindIgnoreCase(HeaderColumns, "translated_text") == 4
  {
    assert EqualsIgnoreCase(HeaderColumns[3], "orig_text");
    assert EqualsIgnoreCase(HeaderColumns[4], "translated_text");
    assert !EqualsIgnoreCase(HeaderColumns[2], "translated_text") by {
      assert AsciiUpper(HeaderColumns[2][0]) != AsciiUpper("translated_text"[0]);
    }
  }

  /** The header names hold no safe delimiter and no carriage return. */
  lemma HeaderColumnsAvoid(d: char)
    requires SafeDelimiter(d)
    ensures forall i :: 0 <= i < |HeaderColumns| ==> d !in HeaderColumns[i] && '\r' !in HeaderColumns[i]
  {
    forall i | 0 <= i < |HeaderColumns| ensures d !in HeaderColumns[i] && '\r' !in HeaderColumns[i] {
    }
  }

  /** The header `WriteRows` writes is accepted by `ReadRows`, with the required columns
      at positions 0, 1, 3 and 4. */
  lemma HeaderRoundTrip(d: char)
    requires SafeDelimiter(d)
    ensures Split(TrimEnd(HeaderLine(d), '\r'), d) == HeaderColumns
    ensures HeaderLayout(HeaderColumns) == Some(Layout(0, 1, 3, 4))
  {
    HeaderColumnsAvoid(d);
    JoinAvoids(HeaderColumns, [d], '\r');
    TrimEndAbsent(HeaderLine(d), '\r');
    SplitJoin(HeaderColumns, d);
    FirstColumnsFound();
    TextColumnsFound();
  }

  lemma EncodeLineUnbroken(r: Row, d: char)
    requires d != '\n'
    ensures '\n' !in EncodeLine(r, d)
  {
    var cells := EncodedCells(r);
    var a, b := IntToString(r.originalLineNo as int), IntToString(r.fieldIndex as int);
    assert forall i :: 0 <= i < |a| ==> a[i] != '\n';
    assert forall i :: 0 <= i < |b| ==> b[i] != '\n';
    forall i | 0 <= i < 5 ensures '\n' !in cells[i] {
    }
    JoinAvoids(cells, [d], '\n');
  }

  lemma HeaderLineUnbroken(d: char)
    requires d != '\n'
    ensures '\n' !in HeaderLine(d)
  {
    forall i | 0 <= i < 5 ensures '\n' !in HeaderColumns[i] {
    }
    JoinAvoids(HeaderColumns, [d], '\n');
  }

  /** No written line holds a line break. */
  lemma WrittenLinesUnbroken(rows: seq<Row>, d: char)
    requires SafeDelimiter(d)
    ensures forall i :: 0 <= i < |rows| + 1 ==> '\n' !in ([HeaderLine(d)] + EncodeLines(rows, d))[i]
  {
    var lines := [HeaderLine(d)] + EncodeLines(rows, d);
    HeaderLineUnbroken(d);
    forall i | 1 <= i < |lines| ensures '\n' !in lines[i] {
      assert lines[i] == EncodeLines(rows, d)[i - 1] == EncodeLine(rows[i - 1], d);
      EncodeLineUnbroken(rows[i - 1], d);
    }
    assert '\n' !in lines[0];
  }

  /** Writing a table and reading it back with the same delimiter gives the rows back,
      their texts flattened as `WriteRows` flattens them. */
  lemma ReadAfterWrite(rows: seq<Row>, d: char)
    requires SafeDelimiter(d) && TransparentRows(rows, d)
    ensures DecodeTable(EncodeTable(rows, d), d) == Success(FlattenedRows(rows))
  {
    var lines := [HeaderLine(d)] + EncodeLines(rows, d);
    WrittenLinesUnbroken(rows, d);
    LinesOfTerminated(lines);
    assert SplitLines(EncodeTable(rows, d)) == lines;
    assert HeaderOf(lines) == HeaderLine(d);
    assert BodyOf(lines) == EncodeLines(rows, d);
    HeaderRoundTrip(d);
    DecodeEncodeLines(rows, d);
  }

  /** With no line break, delimiter or carriage return in any text the round trip is exact. */
  lemma ReadAfterWriteExact(rows: seq<Row>, d: char)
    requires SafeDelimiter(d)
    requires forall i :: 0 <= i < |rows| ==>
      && d !in rows[i].origText && '\n' !in rows[i].origText && '\r' !in rows[i].origText
      && d !in rows[i].translatedText && '\n' !in rows[i].translatedText && '\r' !in rows[i].translatedText
    ensures DecodeTable(EncodeTable(rows, d), d) == Success(rows)
  {
    forall i | 0 <= i < |rows|
      ensures Flattened(rows[i]) == rows[i]
      ensures Transparent(rows[i].origText, d) && Transparent(rows[i].translatedText, d)
    {
      PlainRow(rows[i], d);
    }
    ReadAfterWrite(rows, d);
    FlattenedRowsPlain(rows);
  }

  /** A row without line breaks is its own flattening. */
  lemma PlainRow(r: Row, d: char)
    requires d !in r.origText && '\n' !in r.origText && '\r' !in r.origText
    requires d !in r.translatedText && '\n' !in r.translatedText && '\r' !in r.translatedText
    ensures Flattened(r) == r
    ensures Transparent(r.origText, d) && Transparent(r.translatedText, d)
  {
    FlattenAbsent(r.origText);
    FlattenAbsent(r.translatedText);
  }

  lemma FlattenedRowsPlain(rows: seq<Row>)
    requires forall i :: 0 <= i < |rows| ==> Flattened(rows[i]) == rows[i]
    ensures FlattenedRows(rows) == rows
  {
  }

  lemma FlattenAbsent(s: string)
    requires '\n' !in s
    ensures FlattenNewlines(s) == s
  {
    var f := FlattenNewlines(s);
    assert forall i :: 0 <= i < |s| ==> f[i] == s[i];
  }
}

=== FILE: extract.dfy ===
/** `extract_strings` of the Python script: every '#'-separated field of the source asset
    that contains a CJK ideograph becomes one row of the exchange table, with its line
    number (from 1), its field index (from 0), the first field of its line as a record
    id when that field is all digits, and the field's text. */
module Extract {
  import opened Text
  import opened Numbers
  import opened HashFields
  import ExchangeTable

  /** `_CJK_RE`: CJK Unified Ideographs Extension A (U+3400..U+4DBF), CJK Unified
      Ideographs (U+4E00..U+9FFF) and CJK Compatibility Ideographs (U+F900..U+FAFF). */
  predicate IsCjk(c: char)
  {
    var n := c as int;
    (0x3400 <= n <= 0x4DBF) || (0x4E00 <= n <= 0x9FFF) || (0xF900 <= n <= 0xFAFF)
  }

  /** `_CJK_RE.search(val)` finds a match. */
  predicate HasCjk(s: string)
  {
    exists i :: 0 <= i < |s| && IsCjk(s[i])
  }

  /** The three ranges end where the Unicode blocks end: their first and last code
      points are CJK, and the code points just outside them are not. */
  lemma CjkRangeEnds()
    ensures IsCjk('\U{3400}') && IsCjk('\U{4DBF}') && !IsCjk('\U{33FF}') && !IsCjk('\U{4DC0}')
    ensures IsCjk('\U{4E00}') && IsCjk('\U{9FFF}') && !IsCjk('\U{4DFF}') && !IsCjk('\U{A000}')
    ensures IsCjk('\U{F900}') && IsCjk('\U{FAFF}') && !IsCjk('\U{F8FF}') && !IsCjk('\U{FB00}')
  {
  }

  /** `search` finds a match in a concatenation exactly when it finds one in either part. */
  lemma HasCjkConcat(a: string, b: string)
    ensures HasCjk(a + b) <==> HasCjk(a) || HasCjk(b)
  {
    if HasCjk(a + b) {
      var i :| 0 <= i < |a + b| && IsCjk((a + b)[i]);
      if i >= |a| {
        assert b[i - |a|] == (a + b)[i];
      }
    }
    if HasCjk(b) {
      var i :| 0 <= i < |b| && IsCjk(b[i]);
      assert (a + b)[|a| + i] == b[i];
    }
    if HasCjk(a) {
      var i :| 0 <= i < |a| && IsCjk(a[i]);
      assert (a + b)[i] == a[i];
    }
  }

  /** Python's `s.isdigit()` restricted to ASCII digits: at least one character, all digits. */
  predicate IsDigitString(s: string)
  {
    |s| >= 1 && AllDigits(s)
  }

  /** The `record_id_guess` cell of a line: its first field when that is all digits. */
  function RecordIdGuess(fields: seq<string>): (rid: string)
    ensures |fields| > 0 && IsDigitString(fields[0]) ==> rid == fields[0]
    ensures !(|fields| > 0 && IsDigitString(fields[0])) ==> rid == ""
  {
    var recId := if |fields| > 0 then fields[0] else "";
    if IsDigitString(recId) then recId else ""
  }

  /** One extracted field. */
  datatype Hit = Hit(lineNo: nat, idx: nat, recId: string, text: string)

  /** The hits among the first `k` fields of line `lineNo`. */
  function LineHits(lineNo: nat, fields: seq<string>, k: nat): (hs: seq<Hit>)
    requires k <= |fields|
    ensures |hs| <= k
  {
    if k == 0 then []
    else
      var prev := LineHits(lineNo, fields, k - 1);
      if HasCjk(fields[k - 1]) then prev + [Hit(lineNo, k - 1, RecordIdGuess(fields), fields[k - 1])]
      else prev
  }

  /** `h` is field `h.idx` (below `k`) of the line `fields`, numbered `lineNo`, has a CJK
      character and carries the record id guess of its line. */
  predicate FieldHit(lineNo: nat, fields: seq<string>, k: nat, h: Hit)
  {
    && h.lineNo == lineNo && h.idx < k && h.idx < |fields|
    && h.text == fields[h.idx] && HasCjk(h.text)
    && h.recId == RecordIdGuess(fields)
  }

  /** Every hit of a line is a field of that line with a CJK character, and the hits
      are in field order. */
  lemma {:induction false} LineHitsSound(lineNo: nat, fields: seq<string>, k: nat)
    requires k <= |fields|
    ensures forall m :: 0 <= m < |LineHits(lineNo, fields, k)| ==> FieldHit(lineNo, fields, k, LineHits(lineNo, fields, k)[m])
    ensures forall m, m' :: 0 <= m < m' < |LineHits(lineNo, fields, k)| ==>
      LineHits(lineNo, fields, k)[m].idx < LineHits(lineNo, fields, k)[m'].idx
  {
    if k > 0 {
      LineHitsSound(lineNo, fields, k - 1);
      var prev := LineHits(lineNo, fields, k - 1);
      var hs := LineHits(lineNo, fields, k);
      if HasCjk(fields[k - 1]) {
        var h := Hit(lineNo, k - 1, RecordIdGuess(fields), fields[k - 1]);
        assert hs == prev + [h];
        forall m | 0 <= m < |hs| ensures FieldHit(lineNo, fields, k, hs[m]) {
          if m < |prev| {
            assert hs[m] == prev[m];
            assert FieldHit(lineNo, fields, k - 1, prev[m]);
          } else {
            assert hs[m] == h;
          }
        }
        forall m, m' | 0 <= m < m' < |hs| ensures hs[m].idx < hs[m'].idx {
          assert hs[m] == prev[m];
          assert FieldHit(lineNo, fields, k - 1, prev[m]);
          if m' < |prev| {
            assert hs[m'] == prev[m'];
          } else {
            assert hs[m'] == h;
          }
        }
      } else {
        assert hs == prev;
        forall m | 0 <= m < |hs| ensures FieldHit(lineNo, fields, k, hs[m]) {
          assert FieldHit(lineNo, fields, k - 1, prev[m]);
        }
      }
    }
  }

  /** `h` comes before `h'` in the table: an earlier line, or the same line and an
      earlier field. */
  predicate Before(h: Hit, h': Hit)
  {
    h.lineNo < h'.lineNo || (h.lineNo == h'.lineNo && h.idx < h'.idx)
  }

  /** The hits of the first `n` lines, line by line. */
  function Hits(lines: seq<string>, n: nat): seq<Hit>
    requires n <= |lines|
  {
    if n == 0 then []
    else
      var fields := Fields(lines[n - 1]);
      Hits(lines, n - 1) + LineHits(n, fields, |fields|)
  }

  /** `h` is field `h.idx` of line `h.lineNo`, has a CJK character, and carries the
      record id guess of its line. */
  predicate HitOf(lines: seq<string>, h: Hit)
  {
    && 1 <= h.lineNo <= |lines|
    && var fields := Fields(lines[h.lineNo - 1]);
    && h.idx < |fields| && h.text == fields[h.idx] && HasCjk(h.text)
    && h.recId == RecordIdGuess(fields)
  }

  /** Every hit is a field of the input with a CJK character. */
  lemma {:induction false} HitsSound(lines: seq<string>, n: nat)
    requires n <= |lines|
    ensures forall m :: 0 <= m < |Hits(lines, n)| ==> HitOf(lines, Hits(lines, n)[m]) && Hits(lines, n)[m].lineNo <= n
  {
    if n > 0 {
      HitsSound(lines, n - 1);
      var prev := Hits(lines, n - 1);
      var fields := Fields(lines[n - 1]);
      var here := LineHits(n, fields, |fields|);
      LineHitsSound(n, fields, |fields|);
      var hs := prev + here;
      assert hs == Hits(lines, n);
      forall m | 0 <= m < |hs| ensures HitOf(lines, hs[m]) && hs[m].lineNo <= n {
        if m < |prev| {
          assert hs[m] == prev[m];
        } else {
          assert hs[m] == here[m - |prev|];
          assert FieldHit(n, fields, |fields|, here[m - |prev|]);
        }
      }
    }
  }

  /** Every hit is on one of the lines 1 to `n`. */
  predicate LinesUpTo(hs: seq<Hit>, n: nat)
  {
    forall m :: 0 <= m < |hs| ==> 1 <= hs[m].lineNo <= n
  }

  /** Every hit is on line `n`, and the hits are in field order. */
  predicate OneLine(hs: seq<Hit>, n: nat)
  {
    && (forall m :: 0 <= m < |hs| ==> hs[m].lineNo == n)
    && (forall m, m' :: 0 <= m < m' < |hs| ==> hs[m].idx < hs[m'].idx)
  }

  lemma LineHitsOneLine(lineNo: nat, fields: seq<string>)
    ensures OneLine(LineHits(lineNo, fields, |fields|), lineNo)
  {
    var here := LineHits(lineNo, fields, |fields|);
    LineHitsSound(lineNo, fields, |fields|);
    forall m | 0 <= m < |here| ensures here[m].lineNo == lineNo {
      assert FieldHit(lineNo, fields, |fields|, here[m]);
    }
  }

  /** The hits of the first `n` lines carry line numbers from 1 to `n`. */
  lemma {:induction false} HitsLines(lines: seq<string>, n: nat)
    requires n <= |lines|
    ensures LinesUpTo(Hits(lines, n), n)
  {
    if n > 0 {
      HitsLines(lines, n - 1);
      var prev := Hits(lines, n - 1);
      var fields := Fields(lines[n - 1]);
      var here := LineHits(n, fields, |fields|);
      LineHitsOneLine(n, fields);
      var hs := prev + here;
      assert hs == Hits(lines, n);
      forall m | 0 <= m < |hs| ensures 1 <= hs[m].lineNo <= n {
        if m < |prev| {
          assert hs[m] == prev[m];
        } else {
          assert hs[m] == here[m - |prev|];
        }
      }
    }
  }

  /** The hits are in table order: by line, then by field. */
  predicate Ordered(hs: seq<Hit>)
  {
    forall m, m' :: 0 <= m < m' < |hs| ==> Before(hs[m], hs[m'])
  }

  /** Ordered hits of earlier lines followed by the hits of line `n` in field order
      are ordered. */
  lemma OrderedConcat(a: seq<Hit>, b: seq<Hit>, n: nat)
    requires n >= 1 && Ordered(a) && LinesUpTo(a, n - 1) && OneLine(b, n)
    ensures Ordered(a + b)
  {
    var hs := a + b;
    forall m, m' | 0 <= m < m' < |hs| ensures Before(hs[m], hs[m']) {
      if m' < |a| {
        assert hs[m] == a[m] && hs[m'] == a[m'];
      } else if m < |a| {
        assert hs[m] == a[m] && hs[m'] == b[m' - |a|];
      } else {
        assert hs[m] == b[m - |a|] && hs[m'] == b[m' - |a|];
      }
    }
  }

  lemma {:induction false} HitsOrdered(lines: seq<string>, n: nat)
    requires n <= |lines|
    ensures Ordered(Hits(lines, n))
  {
    if n > 0 {
      HitsOrdered(lines, n - 1);
      HitsLines(lines, n - 1);
      var fields := Fields(lines[n - 1]);
      LineHitsOneLine(n, fields);
      OrderedConcat(Hits(lines, n - 1), LineHits(n, fields, |fields|), n);
    }
  }

  /** Every field with a CJK character among the first `k` fields of a line is a hit. */
  lemma {:induction false} LineHitsComplete(lineNo: nat, fields: seq<string>, k: nat, j: nat)
    requires j < k <= |fields| && HasCjk(fields[j])
    ensures exists m :: 0 <= m < |LineHits(lineNo, fields, k)| && LineHits(lineNo, fields, k)[m].idx == j
  {
    var hs := LineHits(lineNo, fields, k);
    if j == k - 1 {
      assert hs[|hs| - 1].idx == j;
    } else {
      LineHitsComplete(lineNo, fields, k - 1, j);
      var prev := LineHits(lineNo, fields, k - 1);
      var m :| 0 <= m < |prev| && prev[m].idx == j;
      assert hs[m] == prev[m];
    }
  }

  /** Every field with a CJK character in the first `n` lines is a hit. */
  lemma {:induction false} HitsComplete(lines: seq<string>, n: nat, i: nat, j: nat)
    requires i < n <= |lines| && j < |Fields(lines[i])| && HasCjk(Fields(lines[i])[j])
    ensures exists m :: 0 <= m < |Hits(lines, n)| && Hits(lines, n)[m].lineNo == i + 1 && Hits(lines, n)[m].idx == j
  {
    var hs := Hits(lines, n);
    var prev := Hits(lines, n - 1);
    if i == n - 1 {
      var fields := Fields(lines[i]);
      LineHitsComplete(n, fields, |fields|, j);
      LineHitsSound(n, fields, |fields|);
      var here := LineHits(n, fields, |fields|);
      var m :| 0 <= m < |here| && here[m].idx == j;
      assert FieldHit(n, fields, |fields|, here[m]);
      assert hs == prev + here;
      assert hs[|prev| + m] == here[m];
    } else {
      HitsComplete(lines, n - 1, i, j);
      var m :| 0 <= m < |prev| && prev[m].lineNo == i + 1 && prev[m].idx == j;
      var fields := Fields(lines[n - 1]);
      assert hs == prev + LineHits(n, fields, |fields|);
      assert hs[m] == prev[m];
    }
  }

  /** One table row: `delimiter.join([str(line_no), str(idx), rec_id, val, ''])`. */
  function RowText(h: Hit, delim: string): string
  {
    Join([NatToString(h.lineNo), NatToString(h.idx), h.recId, h.text, ""], delim)
  }

  /** An extracted row starts with the first digit of its line number. */
  lemma RowStartsWithDigit(h: Hit, delim: string)
    ensures var row := RowText(h, delim); |row| > 0 && IsDigit(row[0])
  {
    var cells := [NatToString(h.lineNo), NatToString(h.idx), h.recId, h.text, ""];
    assert RowText(h, delim) == cells[0] + (delim + Join(cells[1..], delim));
  }

  function RowTexts(hs: seq<Hit>, delim: string): (rows: seq<string>)
    ensures |rows| == |hs|
  {
    seq(|hs|, m requires 0 <= m < |hs| => RowText(hs[m], delim))
  }

  lemma RowTextsSnoc(hs: seq<Hit>, h: Hit, delim: string)
    ensures RowTexts(hs + [h], delim) == RowTexts(hs, delim) + [RowText(h, delim)]
  {
    assert forall m :: 0 <= m < |hs| ==> (hs + [h])[m] == hs[m];
  }

  /** The header: the five column names joined with the delimiter. */
  function ExtractHeader(delim: string): string
  {
    Join(ExchangeTable.HeaderColumns, delim)
  }

  /** What `extract_strings` returns: the header, a '\n', and the rows joined with '\n'. */
  function ExtractSpec(input: string, delim: string): string
  {
    var lines := SplitLines(input);
    ExtractHeader(delim) + "\n" + Join(RowTexts(Hits(lines, |lines|), delim), "\n")
  }

  lemma RowTextsConcat(a: seq<Hit>, b: seq<Hit>, delim: string)
    ensures RowTexts(a + b, delim) == RowTexts(a, delim) + RowTexts(b, delim)
  {
    var l := RowTexts(a + b, delim);
    var r := RowTexts(a, delim) + RowTexts(b, delim);
    forall m | 0 <= m < |l| ensures l[m] == r[m] {
      if m < |a| {
        assert (a + b)[m] == a[m];
      } else {
        assert (a + b)[m] == b[m - |a|];
      }
    }
  }

  /** The inner loop of `extract_strings`: one row for each field of line `lineNo` that
      has a CJK character, appended to `out0`. */
  method ExtractLine(lineNo: nat, fields: seq<string>, delim: string, out0: seq<string>)
    returns (out: seq<string>)
    ensures out == out0 + RowTexts(LineHits(lineNo, fields, |fields|), delim)
  {
    var recId := if |fields| > 0 then fields[0] else "";
    var guess := if IsDigitString(recId) then recId else "";
    out := out0;
    for idx := 0 to |fields|
      invariant out == out0 + RowTexts(LineHits(lineNo, fields, idx), delim)
    {
      if HasCjk(fields[idx]) {
        var row := Join([NatToString(lineNo), NatToString(idx), guess, fields[idx], ""], delim);
        ghost var h := Hit(lineNo, idx, guess, fields[idx]);
        RowTextsSnoc(LineHits(lineNo, fields, idx), h, delim);
        out := out + [row];
      }
    }
  }

  /** `extract_strings`: the loop over the lines, and over the fields of each line. */
  method ExtractStrings(input: string, delim: string) returns (result: string)
    ensures result == ExtractSpec(input, delim)
  {
    var out: seq<string> := [];
    ghost var hits: seq<Hit> := [];
    var lines := SplitLines(input);
    for i := 0 to |lines|
      invariant hits == Hits(lines, i)
      invariant out == RowTexts(hits, delim)
    {
      var fields, _ := SplitHashPreserveTrailing(lines[i]);
      RowTextsConcat(hits, LineHits(i + 1, fields, |fields|), delim);
      out := ExtractLine(i + 1, fields, delim, out);
      hits := hits + LineHits(i + 1, fields, |fields|);
    }
    var header := Join(ExchangeTable.HeaderColumns, delim);
    return header + "\n" + Join(out, "\n");
  }

  /** The cells of an extracted row read back with tabs: its line number, field index,
      record id, text and an empty translation, when the text holds no tab or line break. */
  lemma ExtractedRowCells(h: Hit)
    requires '\t' !in h.text && '\n' !in h.text
    requires h.recId == "" || AllDigits(h.recId)
    ensures Split(RowText(h, "\t"), '\t') == [NatToString(h.lineNo), NatToString(h.idx), h.recId, h.text, ""]
    ensures '\n' !in RowText(h, "\t")
  {
    var cells := [NatToString(h.lineNo), NatToString(h.idx), h.recId, h.text, ""];
    forall i | 0 <= i < |cells| ensures '\t' !in cells[i] && '\n' !in cells[i] {
      if i < 3 {
        assert AllDigits(cells[i]);
        assert forall x :: 0 <= x < |cells[i]| ==> IsDigit(cells[i][x]);
      }
    }
    SplitJoin(cells, '\t');
    JoinAvoids(cells, "\t", '\n');
  }

  /** The header line of an extracted table splits back into the five names. */
  lemma ExtractedHeaderCells()
    ensures Split(ExtractHeader("\t"), '\t') == ExchangeTable.HeaderColumns
  {
    forall i | 0 <= i < |ExchangeTable.HeaderColumns| ensures '\t' !in ExchangeTable.HeaderColumns[i] {
    }
    SplitJoin(ExchangeTable.HeaderColumns, '\t');
  }

  /** The header line of an extracted table holds no line break. */
  lemma ExtractedHeaderUnbroken()
    ensures '\n' !in ExtractHeader("\t")
  {
    forall i | 0 <= i < |ExchangeTable.HeaderColumns| ensures '\n' !in ExchangeTable.HeaderColumns[i] {
    }
    JoinAvoids(ExchangeTable.HeaderColumns, "\t", '\n');
  }

  /** `tl` is `header` followed by a prefix of `rows`. */
  predicate HeaderThenRows(tl: seq<string>, header: string, rows: seq<string>)
  {
    && |tl| >= 1 && tl[0] == header && |tl| - 1 <= |rows|
    && forall j :: 1 <= j < |tl| ==> tl[j] == rows[j - 1]
  }

  /** The lines of an extracted table: its header, then (a prefix of) its rows. */
  lemma ExtractedTableLines(header: string, rows: seq<string>)
    requires '\n' !in header
    requires forall m :: 0 <= m < |rows| ==> '\n' !in rows[m] && rows[m] != ""
    ensures HeaderThenRows(SplitLines(header + "\n" + Join(rows, "\n")), header, rows)
  {
    var body := Join(rows, "\n");
    SplitAfterLine(header, body);
    if rows == [] {
      assert Split(body, '\n') == [""];
    } else {
      assert "\n" == ['\n'];
      SplitJoin(rows, '\n');
    }
    LinesAfterHeader(header + "\n" + body, header, Split(body, '\n'), rows);
  }

  /** A text that splits into a header and then the rows (or a single empty piece when
      there are none) has exactly those lines. */
  lemma LinesAfterHeader(text: string, header: string, tail: seq<string>, rows: seq<string>)
    requires Split(text, '\n') == [header] + tail
    requires tail == if rows == [] then [""] else rows
    requires rows != [] ==> rows[|rows| - 1] != ""
    ensures HeaderThenRows(SplitLines(text), header, rows)
  {
    var parts := [header] + tail;
    var tl := SplitLines(text);
    if rows == [] {
      assert parts[|parts| - 1] == "";
      assert tl == parts[..1] == [header];
    } else {
      assert parts[|parts| - 1] == rows[|rows| - 1] != "";
      assert tl == parts;
      forall j | 1 <= j < |tl| ensures tl[j] == rows[j - 1] {
        assert tl[j] == tail[j - 1];
      }
    }
  }
}

=== FILE: hash_fields.dfy ===
/** The field splitting of the Python script: a line of the source asset is a list of
    fields separated by '#', and a line is rebuilt by joining its fields with '#'. */
module HashFields {
  import opened Text

  /** The fields of a line: `line.rstrip('\n').split('#')`. There is one more field
      than the line has '#' characters, so empty fields after trailing '#'s are kept. */
  function Fields(line: string): seq<string>
  {
    Split(TrimEnd(line, '\n'), '#')
  }

  /** One field more than the line has '#' characters, none of which is in a field. */
  lemma FieldsCount(line: string)
    ensures |Fields(line)| == multiset(line)['#'] + 1
    ensures forall i :: 0 <= i < |Fields(line)| ==> '#' !in Fields(line)[i]
  {
    SplitCount(TrimEnd(line, '\n'), '#');
    TrimEndKeepsOthers(line, '\n', '#');
  }

  /** `n` '#' characters (`'#' * n`). */
  function Hashes(n: nat): (s: string)
    ensures |s| == n && forall i :: 0 <= i < n ==> s[i] == '#'
  {
    seq(n, _ => '#')
  }

  /** `_split_hash_preserve_trailing`: the fields of the line and the number of '#'
      characters `split` did not account for, appended as empty fields. `split` keeps
      every empty field, so that number is always 0 and the loop appends nothing. */
  method SplitHashPreserveTrailing(line: string) returns (parts: seq<string>, trailing: int)
    ensures parts == Fields(line)
    ensures trailing == 0
  {
    var totalHash := multiset(line)['#'];
    parts := Split(TrimEnd(line, '\n'), '#');
    var explainedHash := if |parts| - 1 > 0 then |parts| - 1 else 0;
    trailing := totalHash - explainedHash;
    FieldsCount(line);
    ghost var fields := parts;
    for k := 0 to trailing
      invariant parts == fields + seq(k, _ => "")
    {
      parts := parts + [""];
    }
    assert parts == fields;
  }

  /** `_join_hash_preserve_trailing`: the fields joined with '#', then `trailing` more
      '#' characters when the count is positive. */
  function JoinHashPreserveTrailing(fields: seq<string>, trailing: int): string
  {
    Join(fields, "#") + (if trailing > 0 then Hashes(trailing) else "")
  }

  /** Rebuilding a line from its fields gives the line back without its trailing
      line breaks. */
  lemma JoinFields(line: string)
    ensures JoinHashPreserveTrailing(Fields(line), 0) == TrimEnd(line, '\n')
  {
    JoinSplit(TrimEnd(line, '\n'), '#');
    assert Join(Fields(line), "#") + "" == Join(Fields(line), "#");
  }

  /** Splitting a rebuilt line gives its fields back, with one empty field for each
      trailing '#', when no field holds a '#' or a line break. */
  lemma FieldsJoin(fields: seq<string>, trailing: nat)
    requires |fields| >= 1
    requires forall i :: 0 <= i < |fields| ==> '#' !in fields[i] && '\n' !in fields[i]
    ensures Fields(JoinHashPreserveTrailing(fields, trailing)) == fields + seq(trailing, _ => "")
  {
    var padded := fields + seq(trailing, _ => "");
    JoinTrailing(fields, trailing);
    assert JoinHashPreserveTrailing(fields, trailing) == Join(padded, "#");
    forall i | 0 <= i < |padded| ensures '#' !in padded[i] && '\n' !in padded[i] {
      if i < |fields| {
        assert padded[i] == fields[i];
      }
    }
    JoinAvoids(padded, "#", '\n');
    TrimEndAbsent(Join(padded, "#"), '\n');
    SplitJoin(padded, '#');
  }

  /** Trailing '#' characters are empty fields joined on. */
  lemma {:induction false} JoinTrailing(fields: seq<string>, trailing: nat)
    requires |fields| >= 1
    ensures Join(fields, "#") + Hashes(trailing) == Join(fields + seq(trailing, _ => ""), "#")
  {
    if trailing == 0 {
      assert fields + seq(0, _ => "") == fields;
      assert Join(fields, "#") + Hashes(0) == Join(fields, "#");
    } else {
      var prev := fields + seq(trailing - 1, _ => "");
      JoinTrailing(fields, trailing - 1);
      JoinSnoc(prev, "", "#");
      assert prev + [""] == fields + seq(trailing, _ => "");
      assert Hashes(trailing) == Hashes(trailing - 1) + "#";
      assert Join(prev, "#") + "#" + "" == Join(prev, "#") + "#";
    }
  }
}

=== FILE: in_memory.dfy ===
/** `TranslateTsvInMemory`, the translation step of the `all` mode: the same selection,
    greedy batching and merge as `TranslateTableAsync`, done on the raw lines of a
    tab-separated text. The text is split at '\n'; blank lines are collected right after
    the header; every data line that needs a translation gets its `translated_text`
    cell replaced (the cells padded with "" when the line is too short) and is joined
    again with tabs. */
module TsvTranslation {
  import opened Outcomes
  import opened Text
  import opened ExchangeTable
  import opened Batching
  import opened Backend
  import opened TableTranslation

  /** The position of a line after the header (the header is line 0). */
  type LineIndex = i: int | i >= 1 witness 1

  /** One data line: its position among the lines of the text, the line without its
      trailing '\r', and its tab-separated cells. */
  datatype Entry = Entry(idx: LineIndex, line: string, cells: seq<string>)

  /** The four column positions the header loop records; -1 for a column that is absent. */
  datatype Columns = Columns(lineNo: int, fieldIdx: int, orig: int, trans: int)

  /** The column positions of a header. */
  function ColumnsOf(hdr: seq<string>): Columns
  {
    Columns(LastIndex(hdr, "original_line_no"), LastIndex(hdr, "field_index"),
            LastIndex(hdr, "orig_text"), LastIndex(hdr, "translated_text"))
  }

  /** The header loop with its `switch` over the column names. */
  method LocateColumns(hdr: seq<string>) returns (cols: Columns)
    ensures cols == ColumnsOf(hdr)
  {
    var idxLineNo, idxFieldIdx, idxOrig, idxTrans := -1, -1, -1, -1;
    for i := 0 to |hdr|
      invariant idxLineNo == LastIndex(hdr[..i], "original_line_no")
      invariant idxFieldIdx == LastIndex(hdr[..i], "field_index")
      invariant idxOrig == LastIndex(hdr[..i], "orig_text")
      invariant idxTrans == LastIndex(hdr[..i], "translated_text")
    {
      assert hdr[..i + 1][..i] == hdr[..i];
      if hdr[i] == "original_line_no" {
        idxLineNo := i;
      } else if hdr[i] == "field_index" {
        idxFieldIdx := i;
      } else if hdr[i] == "orig_text" {
        idxOrig := i;
      } else if hdr[i] == "translated_text" {
        idxTrans := i;
      }
    }
    assert hdr[..|hdr|] == hdr;
    return Columns(idxLineNo, idxFieldIdx, idxOrig, idxTrans);
  }

  /** Line `i` without its trailing '\r'. */
  function Trimmed(lines: seq<string>, i: nat): string
    requires i < |lines|
  {
    TrimEnd(lines[i], '\r')
  }

  /** The blank lines among lines 1 to `n - 1`, in order. */
  function BlankLines(lines: seq<string>, n: nat): (blanks: seq<string>)
    requires n <= |lines|
    ensures forall i :: 0 <= i < |blanks| ==> IsNullOrWhiteSpace(blanks[i])
  {
    if n <= 1 then []
    else
      var prev := BlankLines(lines, n - 1);
      var l := Trimmed(lines, n - 1);
      if IsNullOrWhiteSpace(l) then prev + [l] else prev
  }

  /** Whether each of lines 0 to `n - 1` is a blank line after the header. */
  function BlankFlags(lines: seq<string>, n: nat): (flags: seq<bool>)
    requires n <= |lines|
    ensures |flags| == n
  {
    seq(n, i requires 0 <= i < n => 1 <= i && IsNullOrWhiteSpace(Trimmed(lines, i)))
  }

  /** The positions of the blank lines among lines 1 to `n - 1`, in ascending order. */
  function BlankPositions(lines: seq<string>, n: nat): (ps: seq<nat>)
    requires n <= |lines|
    ensures forall k :: 0 <= k < |ps| ==> 1 <= ps[k] < n && IsNullOrWhiteSpace(Trimmed(lines, ps[k]))
    ensures forall k, m :: 0 <= k < m < |ps| ==> ps[k] < ps[m]
    ensures forall i :: 1 <= i < n && IsNullOrWhiteSpace(Trimmed(lines, i)) ==> i in ps
  {
    var flags := BlankFlags(lines, n);
    var ps := TruePositions(flags);
    assert forall k :: 0 <= k < |ps| ==> flags[ps[k]];
    assert forall i :: 1 <= i < n && IsNullOrWhiteSpace(Trimmed(lines, i)) ==> flags[i];
    ps
  }

  /** One more line adds its position when it is a blank line after the header. */
  lemma BlankPositionsSnoc(lines: seq<string>, n: nat)
    requires 1 <= n <= |lines|
    ensures BlankPositions(lines, n) == BlankPositions(lines, n - 1)
      + (if 1 <= n - 1 && IsNullOrWhiteSpace(Trimmed(lines, n - 1)) then [n - 1] else [])
  {
    assert BlankFlags(lines, n)[..n - 1] == BlankFlags(lines, n - 1);
  }

  /** The collected blank lines are, in order, the '\r'-trimmed lines at the blank
      positions: every blank line after the header, none dropped and none repeated. */
  lemma {:induction false} BlankLinesAt(lines: seq<string>, n: nat)
    requires n <= |lines|
    ensures |BlankLines(lines, n)| == |BlankPositions(lines, n)|
    ensures forall k :: 0 <= k < |BlankPositions(lines, n)| ==>
      BlankLines(lines, n)[k] == Trimmed(lines, BlankPositions(lines, n)[k])
  {
    if n >= 1 {
      BlankPositionsSnoc(lines, n);
      if n > 1 {
        BlankLinesAt(lines, n - 1);
      }
    }
  }

  /** The data entries among lines 1 to `n - 1`, in order: the lines that are not blank,
      each with its position and its cells. */
  function DataEntries(lines: seq<string>, n: nat): (data: seq<Entry>)
    requires n <= |lines|
    ensures forall p :: 0 <= p < |data| ==>
      && data[p].idx < n
      && data[p].line == Trimmed(lines, data[p].idx)
      && !IsNullOrWhiteSpace(data[p].line)
      && data[p].cells == Split(data[p].line, '\t')
    ensures forall p, q :: 0 <= p < q < |data| ==> data[p].idx < data[q].idx
  {
    if n <= 1 then []
    else
      var prev := DataEntries(lines, n - 1);
      var l := Trimmed(lines, n - 1);
      if IsNullOrWhiteSpace(l) then prev else prev + [Entry(n - 1, l, Split(l, '\t'))]
  }

  /** Every line after the header goes to exactly one of the two lists. */
  lemma {:induction false} PartitionCount(lines: seq<string>, n: nat)
    requires 1 <= n <= |lines|
    ensures |BlankLines(lines, n)| + |DataEntries(lines, n)| == n - 1
  {
    if n > 1 {
      PartitionCount(lines, n - 1);
    }
  }

  /** Every non-blank line after the header is a data entry. */
  lemma {:induction false} DataComplete(lines: seq<string>, n: nat, i: nat)
    requires n <= |lines| && 1 <= i < n && !IsNullOrWhiteSpace(Trimmed(lines, i))
    ensures exists p :: 0 <= p < |DataEntries(lines, n)| && DataEntries(lines, n)[p].idx == i
  {
    var data := DataEntries(lines, n);
    if i == n - 1 {
      assert data[|data| - 1].idx == i;
    } else {
      DataComplete(lines, n - 1, i);
      var prev := DataEntries(lines, n - 1);
      var p :| 0 <= p < |prev| && prev[p].idx == i;
      assert data[p] == prev[p];
    }
  }

  /** No blank line comes before a data line. */
  predicate NoBlankBeforeData(lines: seq<string>)
  {
    forall i, j :: 1 <= i < j < |lines| && IsNullOrWhiteSpace(Trimmed(lines, i)) ==>
      IsNullOrWhiteSpace(Trimmed(lines, j))
  }

  /** Without blank lines, the first `n` lines give `n - 1` data entries. */
  lemma {:induction false} BlankFree(lines: seq<string>, n: nat)
    requires 1 <= n <= |lines|
    requires forall i :: 1 <= i < n ==> !IsNullOrWhiteSpace(Trimmed(lines, i))
    ensures |DataEntries(lines, n)| == n - 1
  {
    if n > 1 {
      BlankFree(lines, n - 1);
    }
  }

  /** When no blank line precedes a data line, the entry at position `p` of `data` is
      line `p + 1`, so `x.idx - 1` is the entry's own position. */
  lemma {:induction false} NumberedData(lines: seq<string>, n: nat)
    requires n <= |lines| && NoBlankBeforeData(lines)
    ensures forall p :: 0 <= p < |DataEntries(lines, n)| ==> DataEntries(lines, n)[p].idx == p + 1
  {
    if n > 1 {
      NumberedData(lines, n - 1);
      var l := Trimmed(lines, n - 1);
      if !IsNullOrWhiteSpace(l) {
        BlankFree(lines, n - 1);
      }
    }
  }

  /** The filter of the `Where` clause: an `orig_text` cell with text, and no
      `translated_text` cell or a blank one. */
  predicate NeedsTranslation(e: Entry, orig: nat, trans: nat)
  {
    && |e.cells| > orig && !IsNullOrWhiteSpace(e.cells[orig])
    && (|e.cells| <= trans || IsNullOrWhiteSpace(e.cells[trans]))
  }

  /** `transIndices`: `x.idx - 1` for every entry that needs a translation, in order. */
  function TransIndices(data: seq<Entry>, orig: nat, trans: nat): (ix: seq<nat>)
    ensures |ix| <= |data|
  {
    if data == [] then []
    else
      var n := |data| - 1;
      var prev := TransIndices(data[..n], orig, trans);
      if NeedsTranslation(data[n], orig, trans) then prev + [data[n].idx - 1] else prev
  }

  /** Entry `p` is line `p + 1`. */
  predicate Numbered(data: seq<Entry>)
  {
    forall p :: 0 <= p < |data| ==> data[p].idx == p + 1
  }

  /** With numbered entries the selection is the ascending list of the positions of the
      entries that need a translation. */
  lemma {:induction false} TransIndicesSelect(data: seq<Entry>, orig: nat, trans: nat)
    requires Numbered(data)
    ensures var ix := TransIndices(data, orig, trans);
      && Increasing(ix) && Within(ix, |data|)
      && forall p :: 0 <= p < |data| ==> (p in ix <==> NeedsTranslation(data[p], orig, trans))
  {
    if data != [] {
      var n := |data| - 1;
      var pre := data[..n];
      assert Numbered(pre) by {
        forall p | 0 <= p < n ensures pre[p].idx == p + 1 {
          assert pre[p] == data[p];
        }
      }
      TransIndicesSelect(pre, orig, trans);
      var prev := TransIndices(pre, orig, trans);
      var ix := TransIndices(data, orig, trans);
      assert data[n].idx - 1 == n;
      if NeedsTranslation(data[n], orig, trans) {
        assert ix == prev + [n];
        IncreasingSnoc(prev, n);
      } else {
        assert ix == prev;
        WithinMore(prev, n);
      }
      forall p | 0 <= p < |data| ensures p in ix <==> NeedsTranslation(data[p], orig, trans) {
        if p < n {
          assert pre[p] == data[p];
        }
      }
    }
  }

  /** An ascending list below `x` stays ascending with `x` appended. */
  lemma IncreasingSnoc(xs: seq<nat>, x: nat)
    requires Increasing(xs) && Within(xs, x)
    ensures Increasing(xs + [x]) && Within(xs + [x], x + 1)
  {
  }

  lemma WithinMore(xs: seq<nat>, n: nat)
    requires Within(xs, n)
    ensures Within(xs, n + 1)
  {
  }

  /** With a blank line before the only data line, that entry sits at position 0 of
      `data` but is selected as 1, past the end of `data`: this is why the model of the
      whole method asks for `NoBlankBeforeData`. */
  lemma ShiftedSelection(header: string)
    ensures var lines := [header, "", "abc"];
      && !NoBlankBeforeData(lines)
      && |DataEntries(lines, 3)| == 1
      && TransIndices(DataEntries(lines, 3), 0, 1) == [1]
  {
    var lines := [header, "", "abc"];
    ShiftedData(lines);
    ShiftedPick();
  }

  /** The blank line 1 is skipped and line 2 becomes the only entry. */
  lemma ShiftedData(lines: seq<string>)
    requires |lines| == 3 && lines[1] == "" && lines[2] == "abc"
    ensures IsNullOrWhiteSpace(Trimmed(lines, 1)) && !IsNullOrWhiteSpace(Trimmed(lines, 2))
    ensures !NoBlankBeforeData(lines)
    ensures DataEntries(lines, 3) == [Entry(2, "abc", ["abc"])]
  {
    AbcLine();
    assert Trimmed(lines, 1) == "";
    assert Trimmed(lines, 2) == "abc";
    assert DataEntries(lines, 2) == [];
  }

  /** The entry of line 2 needs a translation and is selected as `2 - 1`. */
  lemma ShiftedPick()
    ensures TransIndices([Entry(2, "abc", ["abc"])], 0, 1) == [1]
  {
    var e := Entry(2, "abc", ["abc"]);
    AbcLine();
    assert NeedsTranslation(e, 0, 1);
    assert [e][..0] == [];
  }

  /** The one data line of `ShiftedSelection` is a single non-blank cell. */
  lemma AbcLine()
    ensures !IsNullOrWhiteSpace("abc")
    ensures Split("abc", '\t') == ["abc"]
  {
    assert !IsDotnetWhiteSpace("abc"[0]);
    SplitConcat("abc", "", '\t');
    assert "abc" + "" == "abc";
  }

  /** The texts of a batch, in batch order: the `orig_text` cells of its entries. */
  function SourceTexts(data: seq<Entry>, b: seq<nat>, orig: nat): (texts: seq<string>)
    requires Within(b, |data|)
    ensures |texts| == |b|
  {
    seq(|b|, j requires 0 <= j < |b| => Cell(data[b[j]].cells, orig))
  }

  /** The count the loop adds for each entry: the `Length` of its `orig_text` cell, in
      UTF-16 units. */
  function SourceLengths(data: seq<Entry>, orig: nat): (sizes: seq<nat>)
    ensures |sizes| == |data|
    ensures forall p :: 0 <= p < |data| ==> sizes[p] == Utf16Length(Cell(data[p].cells, orig))
  {
    seq(|data|, p requires 0 <= p < |data| => Utf16Length(Cell(data[p].cells, orig)))
  }

  /** The batches sent for the selected positions `items`, packed greedily under the
      budget. */
  function TsvPlan(data: seq<Entry>, items: seq<nat>, orig: nat, maxChars: int): (bs: seq<seq<nat>>)
    requires Within(items, |data|)
    ensures Concat(bs) == items
    ensures forall k :: 0 <= k < |bs| ==> |bs[k]| > 0 && Within(bs[k], |data|)
  {
    var sizes := SourceLengths(data, orig);
    BatchesCover(items, sizes, maxChars);
    BatchesWellPacked(items, sizes, maxChars);
    var bs := Batches(items, sizes, maxChars);
    assert forall k :: 0 <= k < |bs| ==> BatchOk(bs[k], sizes, maxChars);
    bs
  }

  /** The cells of a line too short to hold the `translated_text` column, padded with ""
      up to that column; a long enough line keeps its cells. */
  function Padded(cells: seq<string>, trans: nat): (r: seq<string>)
    ensures |r| == if |cells| <= trans then trans + 1 else |cells|
    ensures forall i :: 0 <= i < |r| ==> r[i] == Cell(cells, i)
  {
    if |cells| <= trans then cells + seq(trans + 1 - |cells|, _ => "") else cells
  }

  /** The expansion in the merge loop: a new array of `trans + 1` cells, the old cells
      copied to its front and "" in the rest. */
  method Expand(cells: seq<string>, trans: nat) returns (expanded: seq<string>)
    requires |cells| <= trans
    ensures |expanded| == trans + 1
    ensures expanded[..|cells|] == cells
    ensures forall z :: |cells| <= z < |expanded| ==> expanded[z] == ""
  {
    var a := new string[trans + 1];
    for i := 0 to |cells|
      invariant a[..i] == cells[..i]
    {
      a[i] := cells[i];
    }
    for z := |cells| to a.Length
      invariant a[..|cells|] == cells
      invariant forall y :: |cells| <= y < z ==> a[y] == ""
    {
      a[z] := "";
    }
    expanded := a[..];
  }

  /** The entry after its `translated_text` cell is set to `t` with line breaks
      flattened (the cells padded first when the line is too short), and the line
      joined again with tabs. */
  function Retranslate(e: Entry, trans: nat, t: string): (r: Entry)
    ensures r.idx == e.idx
    ensures |r.cells| == if |e.cells| <= trans then trans + 1 else |e.cells|
    ensures r.cells[trans] == FlattenNewlines(t)
    ensures forall i :: i != trans ==> Cell(r.cells, i) == Cell(e.cells, i)
  {
    var cells := Padded(e.cells, trans)[trans := FlattenNewlines(t)];
    Entry(e.idx, Join(cells, "\t"), cells)
  }

  /** A second translation replaces the first one. */
  lemma RetranslateTwice(e: Entry, trans: nat, t1: string, t2: string)
    ensures Retranslate(Retranslate(e, trans, t1), trans, t2) == Retranslate(e, trans, t2)
  {
    var c1 := Retranslate(e, trans, t1).cells;
    assert Padded(c1, trans) == c1;
    assert c1[trans := FlattenNewlines(t2)] == Padded(e.cells, trans)[trans := FlattenNewlines(t2)];
  }

  /** No cell of the entry contains `c`. */
  predicate CellsAvoid(e: Entry, c: char)
  {
    forall i :: 0 <= i < |e.cells| ==> c !in e.cells[i]
  }

  /** Reading the new line back with `Split('\t')` gives the new cells, when neither the
      cells nor the translation contain a tab. */
  lemma RetranslateReadBack(e: Entry, trans: nat, t: string)
    requires CellsAvoid(e, '\t') && '\t' !in t
    ensures var r := Retranslate(e, trans, t); Split(r.line, '\t') == r.cells
  {
    var r := Retranslate(e, trans, t);
    ReplaceKeeps(t, '\n', ' ', '\t');
    assert CellsAvoid(r, '\t') by {
      forall i | 0 <= i < |r.cells| ensures '\t' !in r.cells[i] {
        if i != trans {
          assert Cell(r.cells, i) == Cell(e.cells, i);
        }
      }
    }
    SplitJoin(r.cells, '\t');
  }

  /** A line break that was not in the entry is not in its new line either. */
  lemma RetranslateUnbroken(e: Entry, trans: nat, t: string)
    requires CellsAvoid(e, '\n')
    ensures var r := Retranslate(e, trans, t); '\n' !in r.line && CellsAvoid(r, '\n')
  {
    var r := Retranslate(e, trans, t);
    assert CellsAvoid(r, '\n') by {
      forall i | 0 <= i < |r.cells| ensures '\n' !in r.cells[i] {
        if i != trans {
          assert Cell(r.cells, i) == Cell(e.cells, i);
        }
      }
    }
    JoinAvoids(r.cells, "\t", '\n');
  }

  /** Replacing `a` by `b` adds no character other than `b`. */
  lemma ReplaceKeeps(s: string, a: char, b: char, c: char)
    requires c != b && c !in s
    ensures c !in ReplaceChar(s, a, b)
  {
    var r := ReplaceChar(s, a, b);
    forall i | 0 <= i < |r| ensures r[i] != c {
    }
  }

  /** `out` is `data` after the merge loop over batch `b` with reply `reply`: entries
      outside the batch are unchanged and the last occurrence of each position holds
      its translation. */
  predicate MergedTsv(data: seq<Entry>, b: seq<nat>, reply: seq<string>, trans: nat, out: seq<Entry>)
    requires Within(b, |data|) && |reply| >= |b|
  {
    && |out| == |data|
    && (forall p :: 0 <= p < |data| && p !in b ==> out[p] == data[p])
    && (forall j :: 0 <= j < |b| && b[j] !in b[j + 1..] ==> out[b[j]] == Retranslate(data[b[j]], trans, reply[j]))
  }

  /** A position of `b` has a last occurrence. */
  lemma {:induction false} LastOccurrence(b: seq<nat>, x: nat)
    requires x in b
    ensures exists j :: 0 <= j < |b| && b[j] == x && x !in b[j + 1..]
  {
    var n := |b| - 1;
    if b[n] != x {
      assert b == b[..n] + [b[n]];
      LastOccurrence(b[..n], x);
      var j :| 0 <= j < n && b[..n][j] == x && x !in b[..n][j + 1..];
      assert b[j + 1..] == b[..n][j + 1..] + [b[n]];
    } else {
      assert b[n + 1..] == [];
    }
  }

  /** The entry at the last position of the batch, before it is merged: unchanged, or
      translated by an earlier occurrence of the same position. */
  lemma MergeTsvBefore(data: seq<Entry>, b: seq<nat>, reply: seq<string>, trans: nat, prev: seq<Entry>)
    requires |b| > 0 && Within(b, |data|) && |reply| >= |b|
    requires MergedTsv(data, b[..|b| - 1], reply, trans, prev)
    ensures var n := |b| - 1;
      Retranslate(prev[b[n]], trans, reply[n]) == Retranslate(data[b[n]], trans, reply[n])
  {
    var n := |b| - 1;
    var init := b[..n];
    if b[n] in init {
      LastOccurrence(init, b[n]);
      var j :| 0 <= j < n && init[j] == b[n] && b[n] !in init[j + 1..];
      RetranslateTwice(data[b[n]], trans, reply[j], reply[n]);
    }
  }

  /** One more iteration of the merge loop, writing entry `e` at the last position. */
  lemma MergeTsvStep(data: seq<Entry>, b: seq<nat>, reply: seq<string>, trans: nat, prev: seq<Entry>, e: Entry)
    requires |b| > 0 && Within(b, |data|) && |reply| >= |b|
    requires MergedTsv(data, b[..|b| - 1], reply, trans, prev)
    requires e == Retranslate(data[b[|b| - 1]], trans, reply[|b| - 1])
    ensures MergedTsv(data, b, reply, trans, prev[b[|b| - 1] := e])
  {
    var n := |b| - 1;
    var want := Rewrites(data, b, reply, trans);
    MergedTsvUpdated(data, b[..n], reply, trans, want, prev);
    UpdatedStep(data, b, want, prev);
    MergedTsvUpdated(data, b, reply, trans, want, prev[b[n] := e]);
  }

  /** The entries the merge loop writes, one per batch position. */
  function Rewrites(data: seq<Entry>, b: seq<nat>, reply: seq<string>, trans: nat): (w: seq<Entry>)
    requires Within(b, |data|) && |reply| >= |b|
    ensures |w| == |b|
    ensures forall j :: 0 <= j < |b| ==> w[j] == Retranslate(data[b[j]], trans, reply[j])
  {
    if b == [] then []
    else Rewrites(data, b[..|b| - 1], reply, trans) + [Retranslate(data[b[|b| - 1]], trans, reply[|b| - 1])]
  }

  /** `MergedTsv` is `Updated` with the retranslated entries as the values written. */
  lemma MergedTsvUpdated(data: seq<Entry>, b: seq<nat>, reply: seq<string>, trans: nat, want: seq<Entry>, out: seq<Entry>)
    requires Within(b, |data|) && |reply| >= |b| && |want| >= |b|
    requires forall j :: 0 <= j < |b| ==> want[j] == Retranslate(data[b[j]], trans, reply[j])
    ensures MergedTsv(data, b, reply, trans, out) <==> Updated(data, b, want, out)
  {
  }

  /** `out` is `data` with position `b[j]` set to `want[j]` for every `j`, a later write
      to the same position winning. */
  predicate Updated<T(==)>(data: seq<T>, b: seq<nat>, want: seq<T>, out: seq<T>)
    requires Within(b, |data|) && |want| >= |b|
  {
    && |out| == |data|
    && (forall p :: 0 <= p < |data| && p !in b ==> out[p] == data[p])
    && (forall j :: 0 <= j < |b| && b[j] !in b[j + 1..] ==> out[b[j]] == want[j])
  }

  /** Writing the value of the last batch position extends `Updated` to the whole batch. */
  lemma UpdatedStep<T>(data: seq<T>, b: seq<nat>, want: seq<T>, prev: seq<T>)
    requires |b| > 0 && Within(b, |data|) && |want| >= |b|
    requires Updated(data, b[..|b| - 1], want, prev)
    ensures Updated(data, b, want, prev[b[|b| - 1] := want[|b| - 1]])
  {
    var n := |b| - 1;
    var front := b[..n];
    var out := prev[b[n] := want[n]];
    forall p | 0 <= p < |data| && p !in b ensures out[p] == data[p] {
      FrontOccurrence(b, p, 0);
      assert p !in front && p != b[n];
      assert prev[p] == data[p];
    }
    forall j | 0 <= j < |b| && b[j] !in b[j + 1..] ensures out[b[j]] == want[j] {
      if j < n {
        FrontOccurrence(b, 0, j);
        assert front[j] == b[j] && front[j] !in front[j + 1..];
        assert prev[front[j]] == want[j];
      }
    }
  }

  /** The merge loop of the local `FlushAsync`, for `k` from the first position of the
      batch to the last. */
  function MergeTsv(data: seq<Entry>, b: seq<nat>, reply: seq<string>, trans: nat): (out: seq<Entry>)
    requires Within(b, |data|) && |reply| >= |b|
    ensures MergedTsv(data, b, reply, trans, out)
  {
    if b == [] then data
    else
      var n := |b| - 1;
      var prev := MergeTsv(data, b[..n], reply, trans);
      var e := Retranslate(prev[b[n]], trans, reply[n]);
      MergeTsvBefore(data, b, reply, trans, prev);
      MergeTsvStep(data, b, reply, trans, prev, e);
      prev[b[n] := e]
  }

  /** Two lists of entries with the same positions and the same cells outside the
      `translated_text` column. */
  ghost predicate OnlyTranslations(before: seq<Entry>, after: seq<Entry>, trans: nat)
  {
    && |after| == |before|
    && forall p :: 0 <= p < |before| ==>
      && after[p].idx == before[p].idx
      && forall i :: i != trans ==> Cell(after[p].cells, i) == Cell(before[p].cells, i)
  }

  lemma MergeTsvOnlyTranslations(data: seq<Entry>, b: seq<nat>, reply: seq<string>, trans: nat)
    requires Within(b, |data|) && |reply| >= |b|
    ensures OnlyTranslations(data, MergeTsv(data, b, reply, trans), trans)
  {
    var out := MergeTsv(data, b, reply, trans);
    forall p | 0 <= p < |data|
      ensures out[p].idx == data[p].idx
      ensures forall i :: i != trans ==> Cell(out[p].cells, i) == Cell(data[p].cells, i)
    {
      if p in b {
        LastOccurrence(b, p);
      }
    }
  }

  /** The request for batch `b`. */
  function TsvRequest(data: seq<Entry>, b: seq<nat>, orig: nat, s: Settings): Request
    requires Within(b, |data|)
  {
    MakeRequest(SourceTexts(data, b, orig), s)
  }

  /** The local `FlushAsync`: nothing happens for an empty batch; otherwise the texts
      of the batch are sent and the reply merged into the entries. */
  function SendTsvBatch(data: seq<Entry>, b: seq<nat>, orig: nat, trans: nat, s: Settings,
                        backend: Translator): (r: Result<seq<Entry>, TranslateError>)
    requires Within(b, |data|)
    ensures |b| == 0 ==> r == Success(data)
    ensures r.Success? ==> OnlyTranslations(data, r.value, trans)
    ensures r.Failure? ==> r.error.Transport? || r.error.ReplyTooShort?
  {
    if |b| == 0 then Success(data)
    else
      match backend(TsvRequest(data, b, orig, s))
      case Failure(msg) => Failure(Transport(msg))
      case Success(reply) =>
        if |reply| < |b| then Failure(ReplyTooShort(|b|, |reply|))
        else
          MergeTsvOnlyTranslations(data, b, reply, trans);
          Success(MergeTsv(data, b, reply, trans))
  }

  /** The batches sent one after another; the first failure ends the run. */
  function RunTsvBatches(data: seq<Entry>, bs: seq<seq<nat>>, orig: nat, trans: nat, s: Settings,
                         backend: Translator): (r: Result<seq<Entry>, TranslateError>)
    requires forall k :: 0 <= k < |bs| ==> Within(bs[k], |data|)
    ensures r.Success? ==> |r.value| == |data|
  {
    if bs == [] then Success(data)
    else
      var n := |bs| - 1;
      match RunTsvBatches(data, bs[..n], orig, trans, s, backend)
      case Failure(e) => Failure(e)
      case Success(mid) => SendTsvBatch(mid, bs[n], orig, trans, s, backend)
  }

  /** A successful run changes only translations. */
  lemma {:induction false} RunTsvOnlyTranslations(data: seq<Entry>, bs: seq<seq<nat>>, orig: nat, trans: nat,
                                                  s: Settings, backend: Translator)
    requires forall k :: 0 <= k < |bs| ==> Within(bs[k], |data|)
    ensures RunTsvBatches(data, bs, orig, trans, s, backend).Success? ==>
      OnlyTranslations(data, RunTsvBatches(data, bs, orig, trans, s, backend).value, trans)
  {
    if bs != [] {
      var n := |bs| - 1;
      FrontWithin(bs, bs[..n], |data|);
      RunTsvOnlyTranslations(data, bs[..n], orig, trans, s, backend);
    }
  }

  /** `SendTsvBatch` and `RunTsvBatches` send requests built from the `orig_text` cells,
      which a translation never changes. */
  lemma TsvRequestKept(data: seq<Entry>, mid: seq<Entry>, b: seq<nat>, orig: nat, trans: nat, s: Settings)
    requires OnlyTranslations(data, mid, trans) && orig != trans && Within(b, |data|)
    ensures Within(b, |mid|)
    ensures TsvRequest(mid, b, orig, s) == TsvRequest(data, b, orig, s)
  {
    forall j | 0 <= j < |b| ensures SourceTexts(mid, b, orig)[j] == SourceTexts(data, b, orig)[j] {
      assert Cell(mid[b[j]].cells, orig) == Cell(data[b[j]].cells, orig);
    }
    assert SourceTexts(mid, b, orig) == SourceTexts(data, b, orig);
  }

  /** Entry `e` is the entry at position `j` of batch `b` retranslated with the
      service's reply for it. */
  predicate EntryAnswered(data: seq<Entry>, b: seq<nat>, orig: nat, trans: nat, s: Settings,
                          backend: Translator, j: nat, e: Entry)
    requires Within(b, |data|) && j < |b|
  {
    var reply := backend(TsvRequest(data, b, orig, s));
    reply.Success? && j < |reply.value| && e == Retranslate(data[b[j]], trans, reply.value[j])
  }

  /** Every entry of batch `b` holds, in `out`, its entry of `data` retranslated with the
      service's reply for it. */
  predicate TsvBatchAnswered(data: seq<Entry>, b: seq<nat>, orig: nat, trans: nat, s: Settings,
                             backend: Translator, out: seq<Entry>)
    requires Within(b, |data|) && |out| == |data|
  {
    forall j :: 0 <= j < |b| ==> EntryAnswered(data, b, orig, trans, s, backend, j, out[b[j]])
  }

  /** One successful batch whose entries are still those of `data`: entries outside
      the batch keep their value and each entry of the batch is retranslated with its
      reply. */
  lemma SendTsvBatchEffect(data: seq<Entry>, mid: seq<Entry>, b: seq<nat>, orig: nat, trans: nat,
                           s: Settings, backend: Translator)
    requires OnlyTranslations(data, mid, trans) && orig != trans && Within(b, |data|) && Distinct(b)
    requires forall j :: 0 <= j < |b| ==> mid[b[j]] == data[b[j]]
    requires SendTsvBatch(mid, b, orig, trans, s, backend).Success?
    ensures var out := SendTsvBatch(mid, b, orig, trans, s, backend).value;
      && (forall p :: 0 <= p < |mid| && p !in b ==> out[p] == mid[p])
      && TsvBatchAnswered(data, b, orig, trans, s, backend, out)
  {
    TsvRequestKept(data, mid, b, orig, trans, s);
    forall j | 0 <= j < |b| ensures b[j] !in b[j + 1..] {
      DistinctLater(b, j);
    }
  }

  /** What a successful run over batches `bs` did to `data`, giving `out`: positions in
      no batch keep their entry, and every batch is answered. */
  ghost predicate TsvRunEffect(data: seq<Entry>, bs: seq<seq<nat>>, orig: nat, trans: nat, s: Settings,
                               backend: Translator, out: seq<Entry>)
    requires forall k :: 0 <= k < |bs| ==> Within(bs[k], |data|)
  {
    && |out| == |data|
    && (forall p :: 0 <= p < |data| && p !in Concat(bs) ==> out[p] == data[p])
    && (forall k :: 0 <= k < |bs| ==> TsvBatchAnswered(data, bs[k], orig, trans, s, backend, out))
  }

  /** A later batch that writes none of the positions of batch `b` keeps it answered. */
  lemma TsvAnsweredKept(data: seq<Entry>, b: seq<nat>, orig: nat, trans: nat, s: Settings,
                        backend: Translator, mid: seq<Entry>, out: seq<Entry>)
    requires Within(b, |data|) && |mid| == |data| && |out| == |data|
    requires TsvBatchAnswered(data, b, orig, trans, s, backend, mid)
    requires forall j :: 0 <= j < |b| ==> out[b[j]] == mid[b[j]]
    ensures TsvBatchAnswered(data, b, orig, trans, s, backend, out)
  {
    forall j | 0 <= j < |b| ensures EntryAnswered(data, b, orig, trans, s, backend, j, out[b[j]]) {
      assert EntryAnswered(data, b, orig, trans, s, backend, j, mid[b[j]]);
      assert out[b[j]] == mid[b[j]];
    }
  }

  /** One more successful batch, disjoint from the earlier ones, extends the effect. */
  lemma TsvRunEffectSnoc(data: seq<Entry>, init: seq<seq<nat>>, b: seq<nat>, orig: nat, trans: nat,
                         s: Settings, backend: Translator, mid: seq<Entry>, out: seq<Entry>)
    requires forall k :: 0 <= k < |init| ==> Within(init[k], |data|)
    requires Within(b, |data|) && |out| == |data|
    requires TsvRunEffect(data, init, orig, trans, s, backend, mid)
    requires forall x :: x in Concat(init) ==> x !in b
    requires forall p :: 0 <= p < |mid| && p !in b ==> out[p] == mid[p]
    requires TsvBatchAnswered(data, b, orig, trans, s, backend, out)
    ensures forall k :: 0 <= k < |init + [b]| ==> Within((init + [b])[k], |data|)
    ensures TsvRunEffect(data, init + [b], orig, trans, s, backend, out)
  {
    var bs := init + [b];
    ConcatSnoc(init, b);
    forall k | 0 <= k < |bs| ensures TsvBatchAnswered(data, bs[k], orig, trans, s, backend, out) {
      if k < |init| {
        assert bs[k] == init[k];
        forall j | 0 <= j < |init[k]| ensures out[init[k][j]] == mid[init[k][j]] {
          ConcatHas(init, k, j);
        }
        TsvAnsweredKept(data, init[k], orig, trans, s, backend, mid, out);
      } else {
        assert bs[k] == b;
      }
    }
  }

  /** The effect of a successful run in which no position is sent twice. */
  lemma {:induction false} RunTsvBatchesEffect(data: seq<Entry>, bs: seq<seq<nat>>, orig: nat, trans: nat,
                                               s: Settings, backend: Translator)
    requires forall k :: 0 <= k < |bs| ==> Within(bs[k], |data|)
    requires orig != trans && Distinct(Concat(bs))
    requires RunTsvBatches(data, bs, orig, trans, s, backend).Success?
    ensures TsvRunEffect(data, bs, orig, trans, s, backend, RunTsvBatches(data, bs, orig, trans, s, backend).value)
  {
    var out := RunTsvBatches(data, bs, orig, trans, s, backend).value;
    if bs == [] {
      assert Concat(bs) == [];
    } else {
      var n := |bs| - 1;
      var init := bs[..n];
      var b := bs[n];
      SplitLast(bs);
      ConcatSnoc(init, b);
      DistinctSplit(Concat(init), b);
      RunTsvBatchesEffect(data, init, orig, trans, s, backend);
      var mid := RunTsvBatches(data, init, orig, trans, s, backend).value;
      RunTsvOnlyTranslations(data, init, orig, trans, s, backend);
      assert out == SendTsvBatch(mid, b, orig, trans, s, backend).value;
      forall j | 0 <= j < |b| ensures mid[b[j]] == data[b[j]] {
        assert b[j] in b;
      }
      SendTsvBatchEffect(data, mid, b, orig, trans, s, backend);
      TsvRunEffectSnoc(data, init, b, orig, trans, s, backend, mid, out);
    }
  }

  /** The lines of the text: `tsv.Split('\n')`, never empty. */
  function LinesOf(tsv: string): (lines: seq<string>)
    ensures |lines| >= 1
  {
    Split(tsv, '\n')
  }

  /** The header line, kept as it is apart from a trailing '\r'. */
  function HeaderText(tsv: string): string
  {
    Trimmed(LinesOf(tsv), 0)
  }

  function HeaderCells(tsv: string): seq<string>
  {
    Split(HeaderText(tsv), '\t')
  }

  function Blanks(tsv: string): seq<string>
  {
    BlankLines(LinesOf(tsv), |LinesOf(tsv)|)
  }

  function Data(tsv: string): seq<Entry>
  {
    DataEntries(LinesOf(tsv), |LinesOf(tsv)|)
  }

  /** The texts the method handles as this model does: the header names both text
      columns, and no blank line comes before a data line (so `x.idx - 1` is the
      entry's position in `data`). */
  predicate TsvWellFormed(tsv: string)
  {
    && LastIndex(HeaderCells(tsv), "orig_text") >= 0
    && LastIndex(HeaderCells(tsv), "translated_text") >= 0
    && NoBlankBeforeData(LinesOf(tsv))
  }

  /** The `orig_text` and `translated_text` columns of a well-formed text, which differ. */
  function TextColumns(tsv: string): (c: (nat, nat))
    requires TsvWellFormed(tsv)
    ensures c.0 != c.1
  {
    var cols := ColumnsOf(HeaderCells(tsv));
    (cols.orig, cols.trans)
  }

  /** The selected positions of a well-formed text. */
  function Selection(tsv: string): (ix: seq<nat>)
    requires TsvWellFormed(tsv)
    ensures Increasing(ix) && Within(ix, |Data(tsv)|)
    ensures forall p :: 0 <= p < |Data(tsv)| ==>
      (p in ix <==> NeedsTranslation(Data(tsv)[p], TextColumns(tsv).0, TextColumns(tsv).1))
  {
    var (orig, trans) := TextColumns(tsv);
    NumberedData(LinesOf(tsv), |LinesOf(tsv)|);
    TransIndicesSelect(Data(tsv), orig, trans);
    TransIndices(Data(tsv), orig, trans)
  }

  /** The batches sent for a well-formed text. */
  function TsvPlanOf(tsv: string, maxChars: int): (bs: seq<seq<nat>>)
    requires TsvWellFormed(tsv)
    ensures Concat(bs) == Selection(tsv)
    ensures forall k :: 0 <= k < |bs| ==> |bs[k]| > 0 && Within(bs[k], |Data(tsv)|)
  {
    TsvPlan(Data(tsv), Selection(tsv), TextColumns(tsv).0, maxChars)
  }

  /** The lines of the entries, in order. */
  function EntryLines(data: seq<Entry>): (ls: seq<string>)
    ensures |ls| == |data|
  {
    seq(|data|, p requires 0 <= p < |data| => data[p].line)
  }

  /** What `TranslateTsvInMemory` returns for a text: the header, the blank lines, then
      the data lines in input order joined with "\n"; or the error that stops it. */
  function TranslateTsvSpec(tsv: string, s: Settings, maxChars: int, backend: Translator): Result<string, TranslateError>
    requires TsvWellFormed(tsv)
  {
    var (orig, trans) := TextColumns(tsv);
    match RunTsvBatches(Data(tsv), TsvPlanOf(tsv, maxChars), orig, trans, s, backend)
    case Failure(e) => Failure(e)
    case Success(out) => Success(Join([HeaderText(tsv)] + Blanks(tsv) + EntryLines(out), "\n"))
  }

  /** Once a batch has failed, later batches change nothing. */
  lemma {:induction false} RunTsvFailureSticks(data: seq<Entry>, bs: seq<seq<nat>>, cs: seq<seq<nat>>,
                                               orig: nat, trans: nat, s: Settings, backend: Translator)
    requires forall k :: 0 <= k < |cs| ==> Within(cs[k], |data|)
    requires bs <= cs
    requires RunTsvBatches(data, bs, orig, trans, s, backend).Failure?
    ensures RunTsvBatches(data, cs, orig, trans, s, backend) == RunTsvBatches(data, bs, orig, trans, s, backend)
    decreases |cs|
  {
    if |cs| > |bs| {
      var n := |cs| - 1;
      var front := cs[..n];
      PrefixOfFront(bs, cs);
      FrontWithin(cs, front, |data|);
      RunTsvFailureSticks(data, bs, front, orig, trans, s, backend);
      RunTsvFailedFront(data, cs, orig, trans, s, backend);
    } else {
      assert bs == cs;
    }
  }

  /** A run whose front failed fails the same way. */
  lemma RunTsvFailedFront(data: seq<Entry>, cs: seq<seq<nat>>, orig: nat, trans: nat, s: Settings, backend: Translator)
    requires |cs| > 0 && forall k :: 0 <= k < |cs| ==> Within(cs[k], |data|)
    requires RunTsvBatches(data, cs[..|cs| - 1], orig, trans, s, backend).Failure?
    ensures RunTsvBatches(data, cs, orig, trans, s, backend) == RunTsvBatches(data, cs[..|cs| - 1], orig, trans, s, backend)
  {
  }

  /** Flushing the packer after a successful run sends its batch, if any, as the next
      batch of the run. */
  lemma RunTsvFlush(data0: seq<Entry>, p: Packer, data: seq<Entry>, orig: nat, trans: nat,
                    s: Settings, backend: Translator)
    requires forall k :: 0 <= k < |p.sent| ==> Within(p.sent[k], |data0|)
    requires Within(p.batch, |data0|)
    requires RunTsvBatches(data0, p.sent, orig, trans, s, backend) == Success(data)
    ensures forall k :: 0 <= k < |Flush(p).sent| ==> Within(Flush(p).sent[k], |data0|)
    ensures Within(p.batch, |data|)
    ensures RunTsvBatches(data0, Flush(p).sent, orig, trans, s, backend) == SendTsvBatch(data, p.batch, orig, trans, s, backend)
  {
    if |p.batch| > 0 {
      var bs := p.sent + [p.batch];
      assert bs[..|p.sent|] == p.sent;
    }
  }

  /** The local `FlushAsync`: an empty batch returns at once; otherwise the texts of the
      batch are sent, each entry of the batch gets its reply (after expanding cells that
      are too short), and the batch and the running sum are cleared. */
  method FlushTsv(data: seq<Entry>, batch: seq<nat>, sum: int, ghost sent: seq<seq<nat>>,
                  orig: nat, trans: nat, s: Settings, backend: Translator)
    returns (result: Result<seq<Entry>, TranslateError>, batch': seq<nat>, sum': int,
             ghost sent': seq<seq<nat>>)
    requires Within(batch, |data|)
    ensures result == SendTsvBatch(data, batch, orig, trans, s, backend)
    ensures Packer(sent', batch', sum') == Flush(Packer(sent, batch, sum))
  {
    if |batch| == 0 {
      return Success(data), batch, sum, sent;
    }
    var texts := SourceTexts(data, batch, orig);
    var reply := backend(MakeRequest(texts, s));
    if reply.Failure? {
      return Failure(Transport(reply.error)), [], 0, sent + [batch];
    }
    var translated := reply.value;
    var out := data;
    for k := 0 to |batch|
      invariant k <= |translated|
      invariant out == MergeTsv(data, batch[..k], translated, trans)
    {
      if k >= |translated| {
        return Failure(ReplyTooShort(|batch|, |translated|)), [], 0, sent + [batch];
      }
      assert batch[..k + 1][..k] == batch[..k];
      var e := RetranslateEntry(out[batch[k]], trans, translated[k]);
      out := out[batch[k] := e];
    }
    assert batch[..|batch|] == batch;
    return Success(out), [], 0, sent + [batch];
  }

  /** One pass of the merge loop: expand the cells when they are too short, put the
      flattened reply in `translated_text`, and rebuild the line. */
  method RetranslateEntry(e: Entry, trans: nat, t: string) returns (r: Entry)
    ensures r == Retranslate(e, trans, t)
  {
    var cells := e.cells;
    if |cells| <= trans {
      cells := Expand(cells, trans);
      assert cells == Padded(e.cells, trans);
    }
    cells := cells[trans := ReplaceChar(t, '\n', ' ')];
    r := Entry(e.idx, Join(cells, "\t"), cells);
  }

  /** The state of the loop over `transIndices` after the first `k` positions: the
      packer is the greedy packer over them, the batches it flushed are the first
      batches of the plan, and sending them turned `data0` into `data`. */
  ghost predicate TsvProgress(data0: seq<Entry>, items: seq<nat>, orig: nat, trans: nat, k: nat, budget: int,
                              p: Packer, data: seq<Entry>, s: Settings, backend: Translator)
    requires Within(items, |data0|)
  {
    var sizes := SourceLengths(data0, orig);
    && k <= |items|
    && InRange(items[..k], sizes)
    && Greedy(items[..k], sizes, budget) == p
    && p.sent <= TsvPlan(data0, items, orig, budget)
    && (forall j :: 0 <= j < |p.sent| ==> Within(p.sent[j], |data0|))
    && Within(p.batch, |data0|)
    && RunTsvBatches(data0, p.sent, orig, trans, s, backend) == Success(data)
  }

  lemma TsvProgressStart(data0: seq<Entry>, items: seq<nat>, orig: nat, trans: nat, budget: int,
                         s: Settings, backend: Translator)
    requires Within(items, |data0|)
    ensures TsvProgress(data0, items, orig, trans, 0, budget, Packer([], [], 0), data0, s, backend)
  {
    assert items[..0] == [];
  }

  /** The next selected position is an entry of the current list, and its `orig_text`
      cell is still the one the plan measured. */
  lemma TsvProgressItem(data0: seq<Entry>, items: seq<nat>, orig: nat, trans: nat, k: nat, budget: int,
                        p: Packer, data: seq<Entry>, s: Settings, backend: Translator)
    requires Within(items, |data0|) && TsvProgress(data0, items, orig, trans, k, budget, p, data, s, backend)
    requires k < |items| && orig != trans
    ensures items[k] < |data| && Utf16Length(Cell(data[items[k]].cells, orig)) == SourceLengths(data0, orig)[items[k]]
  {
    var x := items[k];
    RunTsvOnlyTranslations(data0, p.sent, orig, trans, s, backend);
    assert Cell(data[x].cells, orig) == Cell(data0[x].cells, orig);
  }

  /** Flushing inside the loop sends the packer's batch as the next batch of the plan;
      if that call fails, the whole run fails with it. */
  lemma TsvProgressFlush(data0: seq<Entry>, items: seq<nat>, orig: nat, trans: nat, k: nat, budget: int,
                         p: Packer, data: seq<Entry>, s: Settings, backend: Translator)
    requires Within(items, |data0|) && TsvProgress(data0, items, orig, trans, k, budget, p, data, s, backend)
    requires k < |items| && p.sum + SourceLengths(data0, orig)[items[k]] > budget
    ensures Within(p.batch, |data|)
    ensures forall j :: 0 <= j < |Flush(p).sent| ==> Within(Flush(p).sent[j], |data0|)
    ensures RunTsvBatches(data0, Flush(p).sent, orig, trans, s, backend) == SendTsvBatch(data, p.batch, orig, trans, s, backend)
    ensures SendTsvBatch(data, p.batch, orig, trans, s, backend).Failure? ==>
      RunTsvBatches(data0, TsvPlan(data0, items, orig, budget), orig, trans, s, backend)
        == SendTsvBatch(data, p.batch, orig, trans, s, backend)
  {
    var sizes := SourceLengths(data0, orig);
    RunTsvFlush(data0, p, data, orig, trans, s, backend);
    GreedyTake(items, sizes, budget, k);
    GreedySentPrefix(items, sizes, budget, k + 1);
    assert Step(p, items[k], sizes[items[k]], budget).sent == Flush(p).sent;
    if SendTsvBatch(data, p.batch, orig, trans, s, backend).Failure? {
      RunTsvFailureSticks(data0, Flush(p).sent, TsvPlan(data0, items, orig, budget), orig, trans, s, backend);
    }
  }

  /** Adding the next position to the batch, after the flush if there was one, gives
      the state after `k + 1` positions. */
  lemma TsvProgressAdd(data0: seq<Entry>, items: seq<nat>, orig: nat, trans: nat, k: nat, budget: int,
                       p: Packer, q: Packer, data: seq<Entry>, data': seq<Entry>, s: Settings, backend: Translator)
    requires Within(items, |data0|) && TsvProgress(data0, items, orig, trans, k, budget, p, data, s, backend)
    requires k < |items|
    requires q == if p.sum + SourceLengths(data0, orig)[items[k]] > budget then Flush(p) else p
    requires forall j :: 0 <= j < |q.sent| ==> Within(q.sent[j], |data0|)
    requires RunTsvBatches(data0, q.sent, orig, trans, s, backend) == Success(data')
    ensures TsvProgress(data0, items, orig, trans, k + 1, budget,
                        Packer(q.sent, q.batch + [items[k]], q.sum + SourceLengths(data0, orig)[items[k]]), data', s, backend)
  {
    var sizes := SourceLengths(data0, orig);
    GreedyAdd(items, sizes, budget, k, p, q);
    TsvPlanBatches(data0, items, orig, budget);
    WithinSnoc(q.batch, items[k], |data0|);
  }

  /** The plan is the greedy split of the selection under the UTF-16 sizes. */
  lemma TsvPlanBatches(data: seq<Entry>, items: seq<nat>, orig: nat, maxChars: int)
    requires Within(items, |data|)
    ensures InRange(items, SourceLengths(data, orig))
    ensures TsvPlan(data, items, orig, maxChars) == Batches(items, SourceLengths(data, orig), maxChars)
  {
  }

  /** The packer after `k + 1` positions, when `q` is the packer after `k` positions
      with its batch flushed if the next item would not fit. */
  lemma GreedyAdd(items: seq<nat>, sizes: seq<nat>, budget: int, k: nat, p: Packer, q: Packer)
    requires InRange(items, sizes) && k < |items|
    requires InRange(items[..k], sizes) && Greedy(items[..k], sizes, budget) == p
    requires q == if p.sum + sizes[items[k]] > budget then Flush(p) else p
    ensures InRange(items[..k + 1], sizes)
    ensures Greedy(items[..k + 1], sizes, budget) == Packer(q.sent, q.batch + [items[k]], q.sum + sizes[items[k]])
    ensures q.sent <= Batches(items, sizes, budget)
  {
    GreedyTake(items, sizes, budget, k);
    GreedySentPrefix(items, sizes, budget, k + 1);
  }

  /** After the loop, the final flush sends the last batch of the plan. */
  lemma TsvProgressDone(data0: seq<Entry>, items: seq<nat>, orig: nat, trans: nat, budget: int,
                        p: Packer, data: seq<Entry>, s: Settings, backend: Translator)
    requires Within(items, |data0|) && TsvProgress(data0, items, orig, trans, |items|, budget, p, data, s, backend)
    ensures Within(p.batch, |data|)
    ensures RunTsvBatches(data0, TsvPlan(data0, items, orig, budget), orig, trans, s, backend)
      == SendTsvBatch(data, p.batch, orig, trans, s, backend)
  {
    assert items[..|items|] == items;
    RunTsvFlush(data0, p, data, orig, trans, s, backend);
  }

  /** One iteration of the `foreach`: the open batch is flushed when entry `items[k]`
      would not fit, then the entry joins the batch. A failed flush ends the run with
      the failure of the whole plan. */
  method TsvLoopStep(data0: seq<Entry>, items: seq<nat>, orig: nat, trans: nat, k: nat, s: Settings,
                     maxChars: int, backend: Translator, data: seq<Entry>, batch: seq<nat>, sum: int,
                     ghost sent: seq<seq<nat>>)
    returns (failure: Option<TranslateError>, data': seq<Entry>, batch': seq<nat>, sum': int,
             ghost sent': seq<seq<nat>>)
    requires Within(items, |data0|) && orig != trans && k < |items|
    requires TsvProgress(data0, items, orig, trans, k, maxChars, Packer(sent, batch, sum), data, s, backend)
    ensures failure.Some? ==>
      RunTsvBatches(data0, TsvPlan(data0, items, orig, maxChars), orig, trans, s, backend) == Failure(failure.value)
    ensures failure.None? ==>
      TsvProgress(data0, items, orig, trans, k + 1, maxChars, Packer(sent', batch', sum'), data', s, backend)
  {
    ghost var p := Packer(sent, batch, sum);
    TsvProgressItem(data0, items, orig, trans, k, maxChars, p, data, s, backend);
    var idx := items[k];
    var add := Utf16Length(Cell(data[idx].cells, orig));
    failure, data', batch', sum', sent' := None, data, batch, sum, sent;
    if sum + add > maxChars {
      TsvProgressFlush(data0, items, orig, trans, k, maxChars, p, data, s, backend);
      var r;
      r, batch', sum', sent' := FlushTsv(data, batch, sum, sent, orig, trans, s, backend);
      if r.Failure? {
        failure := Some(r.error);
        return;
      }
      data' := r.value;
    }
    TsvProgressAdd(data0, items, orig, trans, k, maxChars, p, Packer(sent', batch', sum'), data, data', s, backend);
    batch' := batch' + [idx];
    sum' := sum' + add;
  }

  /** The `foreach` over `transIndices`: a batch is flushed when the next entry would
      not fit, and the last batch is flushed after the loop. */
  method TranslateEntries(data0: seq<Entry>, transIndices: seq<nat>, orig: nat, trans: nat, s: Settings,
                          maxChars: int, backend: Translator) returns (result: Result<seq<Entry>, TranslateError>)
    requires Within(transIndices, |data0|) && orig != trans
    ensures result == RunTsvBatches(data0, TsvPlan(data0, transIndices, orig, maxChars), orig, trans, s, backend)
  {
    var data := data0;
    var batch: seq<nat> := [];
    var sum := 0;
    ghost var sent: seq<seq<nat>> := [];
    TsvProgressStart(data0, transIndices, orig, trans, maxChars, s, backend);
    for k := 0 to |transIndices|
      invariant TsvProgress(data0, transIndices, orig, trans, k, maxChars, Packer(sent, batch, sum), data, s, backend)
    {
      var failure;
      failure, data, batch, sum, sent := TsvLoopStep(data0, transIndices, orig, trans, k, s, maxChars, backend, data, batch, sum, sent);
      if failure.Some? {
        return Failure(failure.value);
      }
    }
    TsvProgressDone(data0, transIndices, orig, trans, maxChars, Packer(sent, batch, sum), data, s, backend);
    result, batch, sum, sent := FlushTsv(data, batch, sum, sent, orig, trans, s, backend);
  }

  /** The loop over the lines after the header: blank lines go to `rows` (after the
      header), the others become data entries. */
  method CollectLines(lines: seq<string>) returns (blanks: seq<string>, data: seq<Entry>)
    requires |lines| >= 1
    ensures blanks == BlankLines(lines, |lines|)
    ensures data == DataEntries(lines, |lines|)
  {
    blanks, data := [], [];
    for i := 1 to |lines|
      invariant blanks == BlankLines(lines, i)
      invariant data == DataEntries(lines, i)
    {
      var l := TrimEnd(lines[i], '\r');
      if IsNullOrWhiteSpace(l) {
        blanks := blanks + [l];
      } else {
        var c := Split(l, '\t');
        data := data + [Entry(i, l, c)];
      }
    }
  }

  /** `TranslateTsvInMemory`: returns the translated text, or the error that stops it. */
  method TranslateTsv(tsv: string, s: Settings, maxChars: int, backend: Translator)
    returns (result: Result<string, TranslateError>)
    requires TsvWellFormed(tsv)
    ensures result == TranslateTsvSpec(tsv, s, maxChars, backend)
  {
    // `Split` never returns an empty array, so the early return for zero lines never applies
    var lines := Split(tsv, '\n');
    var header := TrimEnd(lines[0], '\r');
    var hdr := Split(header, '\t');
    var cols := LocateColumns(hdr);
    var blanks, data := CollectLines(lines);
    var rows := [header] + blanks;
    var orig: nat, trans: nat := cols.orig, cols.trans;
    assert (orig, trans) == TextColumns(tsv);
    var transIndices := TransIndices(data, orig, trans);
    assert transIndices == Selection(tsv);
    var translated := TranslateEntries(data, transIndices, orig, trans, s, maxChars, backend);
    if translated.Failure? {
      return Failure(translated.error);
    }
    rows := rows + EntryLines(translated.value);
    return Success(Join(rows, "\n"));
  }

  /** An entry with no line break in its line or its cells. */
  predicate Unbroken(e: Entry)
  {
    '\n' !in e.line && CellsAvoid(e, '\n')
  }

  /** Lines without `c` give blank lines without `c`. */
  lemma {:induction false} BlankLinesAvoid(lines: seq<string>, n: nat, c: char)
    requires n <= |lines| && forall i :: 0 <= i < |lines| ==> c !in lines[i]
    ensures forall i :: 0 <= i < |BlankLines(lines, n)| ==> c !in BlankLines(lines, n)[i]
  {
    if n > 1 {
      BlankLinesAvoid(lines, n - 1, c);
      TrimEndAvoids(lines[n - 1], '\r', c);
    }
  }

  /** Lines without line breaks give entries without line breaks, whose cells hold no tab. */
  lemma DataEntriesUnbroken(lines: seq<string>, n: nat)
    requires n <= |lines| && forall i :: 0 <= i < |lines| ==> '\n' !in lines[i]
    ensures forall p :: 0 <= p < |DataEntries(lines, n)| ==>
      Unbroken(DataEntries(lines, n)[p]) && CellsAvoid(DataEntries(lines, n)[p], '\t')
  {
    var data := DataEntries(lines, n);
    forall p | 0 <= p < |data| ensures Unbroken(data[p]) && CellsAvoid(data[p], '\t') {
      TrimEndAvoids(lines[data[p].idx], '\r', '\n');
      SplitAvoids(data[p].line, '\t', '\n');
    }
  }

  /** The effect of `TranslateTsvInMemory` on the entries when every call succeeds:
      an entry that needs no translation is unchanged, every batch holds entries that
      need one, and each of those is retranslated with the service's reply for it. */
  lemma TranslateTsvEffect(tsv: string, s: Settings, maxChars: int, backend: Translator)
    requires TsvWellFormed(tsv)
    requires RunTsvBatches(Data(tsv), TsvPlanOf(tsv, maxChars), TextColumns(tsv).0, TextColumns(tsv).1, s, backend).Success?
    ensures var (orig, trans) := TextColumns(tsv);
      var data := Data(tsv);
      var plan := TsvPlanOf(tsv, maxChars);
      var out := RunTsvBatches(data, plan, orig, trans, s, backend).value;
      && |out| == |data|
      && (forall p :: 0 <= p < |data| && !NeedsTranslation(data[p], orig, trans) ==> out[p] == data[p])
      && (forall k, j :: 0 <= k < |plan| && 0 <= j < |plan[k]| ==> NeedsTranslation(data[plan[k][j]], orig, trans))
      && (forall k :: 0 <= k < |plan| ==> TsvBatchAnswered(data, plan[k], orig, trans, s, backend, out))
  {
    var (orig, trans) := TextColumns(tsv);
    var data := Data(tsv);
    var plan := TsvPlanOf(tsv, maxChars);
    assert Distinct(Concat(plan));
    RunTsvBatchesEffect(data, plan, orig, trans, s, backend);
    forall k, j | 0 <= k < |plan| && 0 <= j < |plan[k]| ensures NeedsTranslation(data[plan[k][j]], orig, trans) {
      ConcatHas(plan, k, j);
    }
  }

  /** Every entry after a successful run is an entry of the text or its retranslation:
      it has no line break, and its line splits back into its cells when no reply
      holds a tab. */
  lemma TranslatedEntries(tsv: string, s: Settings, maxChars: int, backend: Translator)
    requires TsvWellFormed(tsv)
    requires RunTsvBatches(Data(tsv), TsvPlanOf(tsv, maxChars), TextColumns(tsv).0, TextColumns(tsv).1, s, backend).Success?
    ensures var out := RunTsvBatches(Data(tsv), TsvPlanOf(tsv, maxChars), TextColumns(tsv).0, TextColumns(tsv).1, s, backend).value;
      && (forall p :: 0 <= p < |out| ==> Unbroken(out[p]))
      && (NoTabReplies(backend) ==> forall p :: 0 <= p < |out| ==> Split(out[p].line, '\t') == out[p].cells)
  {
    var (orig, trans) := TextColumns(tsv);
    var data := Data(tsv);
    var plan := TsvPlanOf(tsv, maxChars);
    var out := RunTsvBatches(data, plan, orig, trans, s, backend).value;
    var lines := LinesOf(tsv);
    DataEntriesUnbroken(lines, |lines|);
    TranslateTsvEffect(tsv, s, maxChars, backend);
    forall p | 0 <= p < |out|
      ensures Unbroken(out[p])
      ensures NoTabReplies(backend) ==> Split(out[p].line, '\t') == out[p].cells
    {
      if p in Concat(plan) {
        ConcatFrom(plan, p);
        var k, j :| 0 <= k < |plan| && 0 <= j < |plan[k]| && plan[k][j] == p;
        assert TsvBatchAnswered(data, plan[k], orig, trans, s, backend, out);
        assert EntryAnswered(data, plan[k], orig, trans, s, backend, j, out[plan[k][j]]);
        var reply := backend(TsvRequest(data, plan[k], orig, s)).value;
        RetranslateUnbroken(data[p], trans, reply[j]);
        if NoTabReplies(backend) {
          RetranslateReadBack(data[p], trans, reply[j]);
        }
      }
    }
  }

  /** No reply of the service holds a tab. */
  ghost predicate NoTabReplies(backend: Translator)
  {
    forall q :: backend(q).Success? ==>
      forall j :: 0 <= j < |backend(q).value| ==> '\t' !in backend(q).value[j]
  }

  /** The text returned after a successful run, split at '\n', is the header, the blank
      lines and the data lines in input order: one line for each line of the input. */
  lemma TranslateTsvLines(tsv: string, s: Settings, maxChars: int, backend: Translator)
    requires TsvWellFormed(tsv)
    requires RunTsvBatches(Data(tsv), TsvPlanOf(tsv, maxChars), TextColumns(tsv).0, TextColumns(tsv).1, s, backend).Success?
    ensures var out := RunTsvBatches(Data(tsv), TsvPlanOf(tsv, maxChars), TextColumns(tsv).0, TextColumns(tsv).1, s, backend).value;
      var result := TranslateTsvSpec(tsv, s, maxChars, backend);
      && result.Success?
      && Split(result.value, '\n') == [HeaderText(tsv)] + Blanks(tsv) + EntryLines(out)
      && |Split(result.value, '\n')| == |LinesOf(tsv)|
  {
    var (orig, trans) := TextColumns(tsv);
    var out := RunTsvBatches(Data(tsv), TsvPlanOf(tsv, maxChars), orig, trans, s, backend).value;
    var lines := LinesOf(tsv);
    var ls := EntryLines(out);
    assert TranslateTsvSpec(tsv, s, maxChars, backend) == Success(Join([HeaderText(tsv)] + Blanks(tsv) + ls, "\n"));
    TrimEndAvoids(lines[0], '\r', '\n');
    BlankLinesAvoid(lines, |lines|, '\n');
    TranslatedEntries(tsv, s, maxChars, backend);
    forall p | 0 <= p < |ls| ensures '\n' !in ls[p] {
      assert Unbroken(out[p]);
    }
    SplitJoinedLines(HeaderText(tsv), Blanks(tsv), ls);
    PartitionCount(lines, |lines|);
  }

  /** Lines without line breaks, joined with "\n", split back into the same lines. */
  lemma SplitJoinedLines(header: string, blanks: seq<string>, ls: seq<string>)
    requires '\n' !in header
    requires forall i :: 0 <= i < |blanks| ==> '\n' !in blanks[i]
    requires forall i :: 0 <= i < |ls| ==> '\n' !in ls[i]
    ensures Split(Join([header] + blanks + ls, "\n"), '\n') == [header] + blanks + ls
  {
    ThreePartsAvoid(header, blanks, ls, '\n');
    SplitJoin([header] + blanks + ls, '\n');
  }

  lemma ThreePartsAvoid(header: string, blanks: seq<string>, ls: seq<string>, c: char)
    requires c !in header
    requires forall i :: 0 <= i < |blanks| ==> c !in blanks[i]
    requires forall i :: 0 <= i < |ls| ==> c !in ls[i]
    ensures var parts := [header] + blanks + ls; forall i :: 0 <= i < |parts| ==> c !in parts[i]
  {
    var front := [header] + blanks;
    var parts := front + ls;
    forall i | 0 <= i < |parts| ensures c !in parts[i] {
      if i == 0 {
        assert parts[i] == header;
      } else if i < |front| {
        assert parts[i] == front[i] == blanks[i - 1];
      } else {
        assert parts[i] == ls[i - |front|];
      }
    }
  }

  /** An entry the service answered with a non-blank text needs no translation. */
  lemma EntryAnsweredNotPending(data: seq<Entry>, b: seq<nat>, orig: nat, trans: nat, s: Settings,
                                backend: Translator, j: nat, e: Entry)
    requires Within(b, |data|) && j < |b|
    requires EntryAnswered(data, b, orig, trans, s, backend, j, e) && NonBlankReplies(backend)
    ensures !NeedsTranslation(e, orig, trans)
  {
    var reply := backend(TsvRequest(data, b, orig, s));
    FlattenBlank(reply.value[j]);
  }

  /** A list in which no entry needs a translation selects nothing. */
  lemma {:induction false} NoneSelected(data: seq<Entry>, orig: nat, trans: nat)
    requires forall p :: 0 <= p < |data| ==> !NeedsTranslation(data[p], orig, trans)
    ensures TransIndices(data, orig, trans) == []
  {
    if data != [] {
      var n := |data| - 1;
      assert forall p :: 0 <= p < n ==> data[..n][p] == data[p];
      NoneSelected(data[..n], orig, trans);
    }
  }

  /** After a successful run with a service that never answers with a blank text, no
      entry needs a translation any more. */
  lemma TsvRerunSelectsNothing(tsv: string, s: Settings, maxChars: int, backend: Translator)
    requires TsvWellFormed(tsv) && NonBlankReplies(backend)
    requires RunTsvBatches(Data(tsv), TsvPlanOf(tsv, maxChars), TextColumns(tsv).0, TextColumns(tsv).1, s, backend).Success?
    ensures var out := RunTsvBatches(Data(tsv), TsvPlanOf(tsv, maxChars), TextColumns(tsv).0, TextColumns(tsv).1, s, backend).value;
      && (forall p :: 0 <= p < |out| ==> !NeedsTranslation(out[p], TextColumns(tsv).0, TextColumns(tsv).1))
      && TransIndices(out, TextColumns(tsv).0, TextColumns(tsv).1) == []
  {
    var (orig, trans) := TextColumns(tsv);
    var data := Data(tsv);
    var plan := TsvPlanOf(tsv, maxChars);
    var out := RunTsvBatches(data, plan, orig, trans, s, backend).value;
    TranslateTsvEffect(tsv, s, maxChars, backend);
    forall p | 0 <= p < |out| ensures !NeedsTranslation(out[p], orig, trans) {
      if NeedsTranslation(data[p], orig, trans) {
        ConcatFrom(plan, p);
        var k, j :| 0 <= k < |plan| && 0 <= j < |plan[k]| && plan[k][j] == p;
        assert TsvBatchAnswered(data, plan[k], orig, trans, s, backend, out);
        EntryAnsweredNotPending(data, plan[k], orig, trans, s, backend, j, out[plan[k][j]]);
      }
    }
    NoneSelected(out, orig, trans);
  }

  /** An entry read back from `x.line` without its trailing '\r' needs a translation
      exactly when `x` does: only its last cell loses the '\r', and that keeps it blank
      or not blank. */
  lemma RereadEntry(x: Entry, e: Entry, orig: nat, trans: nat)
    requires Split(x.line, '\t') == x.cells
    requires e.cells == Split(TrimEnd(x.line, '\r'), '\t')
    ensures NeedsTranslation(e, orig, trans) <==> NeedsTranslation(x, orig, trans)
  {
    SplitTrimEnd(x.line, '\r', '\t');
    var n := |x.cells| - 1;
    forall i | 0 <= i < |x.cells| ensures IsNullOrWhiteSpace(e.cells[i]) <==> IsNullOrWhiteSpace(x.cells[i]) {
      if i == n {
        TrimEndBlank(x.cells[n]);
      } else {
        assert e.cells[i] == x.cells[i];
      }
    }
  }

  /** Lines made of a header, blank lines and the lines of entries that split back into
      their cells and need no translation select nothing when read again. */
  lemma RereadSelectsNothing(header: string, blanks: seq<string>, out: seq<Entry>, orig: nat, trans: nat)
    requires forall i :: 0 <= i < |blanks| ==> IsNullOrWhiteSpace(blanks[i])
    requires forall q :: 0 <= q < |out| ==>
      Split(out[q].line, '\t') == out[q].cells && !NeedsTranslation(out[q], orig, trans)
    ensures var lines := [header] + blanks + EntryLines(out);
      TransIndices(DataEntries(lines, |lines|), orig, trans) == []
  {
    var ls := EntryLines(out);
    var lines := [header] + blanks + ls;
    forall i | 1 <= i <= |blanks| ensures IsNullOrWhiteSpace(Trimmed(lines, i)) {
      assert lines[i] == blanks[i - 1];
      TrimEndBlank(blanks[i - 1]);
    }
    var data := DataEntries(lines, |lines|);
    forall p | 0 <= p < |data| ensures !NeedsTranslation(data[p], orig, trans) {
      var i := data[p].idx;
      assert i > |blanks|;
      var q := i - 1 - |blanks|;
      assert lines[i] == ls[q] == out[q].line;
      RereadEntry(out[q], data[p], orig, trans);
    }
    NoneSelected(data, orig, trans);
  }

  /** The text a successful run returns, read again, has the same header and selects
      nothing, when the service never answers with a blank text or one holding a tab:
      running the method on its own output sends no request. */
  lemma TsvRerunReadsNothing(tsv: string, s: Settings, maxChars: int, backend: Translator)
    requires TsvWellFormed(tsv) && NonBlankReplies(backend) && NoTabReplies(backend)
    requires RunTsvBatches(Data(tsv), TsvPlanOf(tsv, maxChars), TextColumns(tsv).0, TextColumns(tsv).1, s, backend).Success?
    ensures TranslateTsvSpec(tsv, s, maxChars, backend).Success?
    ensures var r := TranslateTsvSpec(tsv, s, maxChars, backend).value;
      && HeaderCells(r) == HeaderCells(tsv)
      && TransIndices(Data(r), TextColumns(tsv).0, TextColumns(tsv).1) == []
  {
    var (orig, trans) := TextColumns(tsv);
    var out := RunTsvBatches(Data(tsv), TsvPlanOf(tsv, maxChars), orig, trans, s, backend).value;
    TranslateTsvLines(tsv, s, maxChars, backend);
    TsvRerunSelectsNothing(tsv, s, maxChars, backend);
    TranslatedEntries(tsv, s, maxChars, backend);
    var r := TranslateTsvSpec(tsv, s, maxChars, backend).value;
    assert LinesOf(r) == [HeaderText(tsv)] + Blanks(tsv) + EntryLines(out);
    TrimEndTwice(LinesOf(tsv)[0], '\r');
    RereadSelectsNothing(HeaderText(tsv), Blanks(tsv), out, orig, trans);
  }
}

=== FILE: numbers.dfy ===
/** Decimal rendering and parsing of integer cells: C#'s `ToString(InvariantCulture)`
    and `int.TryParse(s, NumberStyles.Integer, InvariantCulture, out _)`, and Python's
    `str(n)` and `int(s)`. */
module Numbers {
  import opened Outcomes
  import opened Text

  /** C#'s `int`. */
  newtype int32 = x: int | -0x8000_0000 <= x < 0x8000_0000

  predicate IsDigit(c: char) { '0' <= c <= '9' }

  predicate AllDigits(s: string) { forall i :: 0 <= i < |s| ==> IsDigit(s[i]) }

  /** The value of a string of decimal digits, most significant first. */
  function DigitsValue(s: string): nat
    requires AllDigits(s)
  {
    if s == [] then 0
    else 10 * DigitsValue(s[..|s| - 1]) + (s[|s| - 1] as int - '0' as int)
  }

  function DigitChar(n: nat): (c: char)
    requires n < 10
    ensures IsDigit(c) && c as int - '0' as int == n
  {
    ('0' as int + n) as char
  }

  /** Shortest decimal rendering of a natural number (`str(n)`, `n.ToString()`). */
  function NatToString(n: nat): (s: string)
    ensures |s| >= 1 && AllDigits(s)
    ensures DigitsValue(s) == n
    ensures s[0] == '0' ==> n == 0
  {
    if n < 10 then [DigitChar(n)]
    else
      var p := NatToString(n / 10);
      var s := p + [DigitChar(n % 10)];
      assert s[..|s| - 1] == p;
      s
  }

  /** Invariant-culture rendering of an integer: a '-' before the digits when negative. */
  function IntToString(x: int): (s: string)
    ensures |s| >= 1
    ensures forall i :: 0 <= i < |s| ==> IsDigit(s[i]) || s[i] == '-'
  {
    if x < 0 then "-" + NatToString(-x) else NatToString(x)
  }

  /** An optional '+' or '-' followed by at least one ASCII digit, and nothing else. */
  function ParseSigned(s: string): (r: Option<int>)
    ensures r.Some? <==>
      (|s| >= 1 && AllDigits(s)) || (|s| >= 2 && (s[0] == '+' || s[0] == '-') && AllDigits(s[1..]))
    ensures |s| >= 1 && AllDigits(s) ==> r == Some(DigitsValue(s))
    ensures |s| >= 2 && s[0] == '+' && AllDigits(s[1..]) ==> r == Some(DigitsValue(s[1..]))
    ensures |s| >= 2 && s[0] == '-' && AllDigits(s[1..]) ==> r == Some(-(DigitsValue(s[1..]) as int))
  {
    if |s| >= 1 && (s[0] == '+' || s[0] == '-') then
      var digits := s[1..];
      if |digits| >= 1 && AllDigits(digits) then
        var v: int := DigitsValue(digits);
        Some(if s[0] == '-' then -v else v)
      else None
    else if |s| >= 1 && AllDigits(s) then Some(DigitsValue(s))
    else None
  }

  /** Removes leading and trailing characters that satisfy `ws`. */
  function Strip(s: string, ws: char -> bool): (t: string)
    ensures |t| <= |s|
  {
    if |s| > 0 && ws(s[0]) then Strip(s[1..], ws)
    else if |s| > 0 && ws(s[|s| - 1]) then Strip(s[..|s| - 1], ws)
    else s
  }

  /** `s[i..j]` is `s` without its surrounding `ws` characters: everything before `i`
      and from `j` on satisfies `ws`, and the kept part neither starts nor ends with
      such a character. */
  predicate StrippedAt(s: string, ws: char -> bool, i: int, j: int)
  {
    && 0 <= i <= j <= |s|
    && (forall k :: 0 <= k < i ==> ws(s[k]))
    && (forall k :: j <= k < |s| ==> ws(s[k]))
    && (i < j ==> !ws(s[i]) && !ws(s[j - 1]))
  }

  /** `Strip` removes exactly the surrounding `ws` characters. */
  lemma {:induction false} StripSpec(s: string, ws: char -> bool)
    ensures exists i, j :: StrippedAt(s, ws, i, j) && Strip(s, ws) == s[i..j]
  {
    if |s| > 0 && ws(s[0]) {
      StripSpec(s[1..], ws);
      var i, j :| StrippedAt(s[1..], ws, i, j) && Strip(s[1..], ws) == s[1..][i..j];
      StrippedAfterFirst(s, ws, i, j);
    } else if |s| > 0 && ws(s[|s| - 1]) {
      var front := s[..|s| - 1];
      StripSpec(front, ws);
      var i, j :| StrippedAt(front, ws, i, j) && Strip(front, ws) == front[i..j];
      StrippedBeforeLast(s, ws, i, j);
    } else {
      assert StrippedAt(s, ws, 0, |s|);
      assert s[0..|s|] == s;
    }
  }

  lemma StrippedAfterFirst(s: string, ws: char -> bool, i: int, j: int)
    requires |s| > 0 && ws(s[0]) && StrippedAt(s[1..], ws, i, j)
    ensures StrippedAt(s, ws, i + 1, j + 1) && s[1..][i..j] == s[i + 1..j + 1]
  {
    forall k | 0 <= k < i + 1 ensures ws(s[k]) {
      if k > 0 {
        assert s[k] == s[1..][k - 1];
      }
    }
    forall k | j + 1 <= k < |s| ensures ws(s[k]) {
      assert s[k] == s[1..][k - 1];
    }
  }

  lemma StrippedBeforeLast(s: string, ws: char -> bool, i: int, j: int)
    requires |s| > 0 && ws(s[|s| - 1]) && StrippedAt(s[..|s| - 1], ws, i, j)
    ensures StrippedAt(s, ws, i, j) && s[..|s| - 1][i..j] == s[i..j]
  {
    var front := s[..|s| - 1];
    forall k | 0 <= k < i ensures ws(s[k]) {
      assert s[k] == front[k];
    }
    forall k | j <= k < |s| ensures ws(s[k]) {
      if k < |front| {
        assert s[k] == front[k];
      }
    }
  }

  /** Stripping a text surrounded by `ws` characters gives the text back. */
  lemma {:induction false} StripPadded(pre: string, m: string, post: string, ws: char -> bool)
    requires |m| > 0 && !ws(m[0]) && !ws(m[|m| - 1])
    requires forall k :: 0 <= k < |pre| ==> ws(pre[k])
    requires forall k :: 0 <= k < |post| ==> ws(post[k])
    ensures Strip(pre + m + post, ws) == m
  {
    var s := pre + m + post;
    if |pre| > 0 {
      assert s[0] == pre[0];
      assert s[1..] == pre[1..] + m + post;
      StripPadded(pre[1..], m, post, ws);
    } else if |post| > 0 {
      assert s == m + post;
      assert s[0] == m[0] && s[|s| - 1] == post[|post| - 1];
      assert s[..|s| - 1] == [] + m + post[..|post| - 1];
      StripPadded([], m, post[..|post| - 1], ws);
    } else {
      assert s == m;
    }
  }

  lemma StripNothing(s: string, ws: char -> bool)
    requires forall i :: 0 <= i < |s| ==> !ws(s[i])
    ensures Strip(s, ws) == s
  {
  }

  /** `int.TryParse(s, NumberStyles.Integer, CultureInfo.InvariantCulture, out v)`:
      surrounding white space, an optional sign, ASCII digits, and a value that fits
      in 32 bits; anything else fails. */
  function TryParseInt32(s: string): (r: Option<int32>)
    ensures r.Some? <==>
      (ParseSigned(Strip(s, IsNumberWhite)).Some? &&
       -0x8000_0000 <= ParseSigned(Strip(s, IsNumberWhite)).value < 0x8000_0000)
    ensures r.Some? ==> ParseSigned(Strip(s, IsNumberWhite)) == Some(r.value as int)
  {
    match ParseSigned(Strip(s, IsNumberWhite))
    case Some(v) => if -0x8000_0000 <= v < 0x8000_0000 then Some(v as int32) else None
    case None => None
  }

  /** `int.TryParse` accepts a rendered 32-bit integer with white space around it. */
  lemma TryParsePadded(pre: string, x: int32, post: string)
    requires forall k :: 0 <= k < |pre| ==> IsNumberWhite(pre[k])
    requires forall k :: 0 <= k < |post| ==> IsNumberWhite(post[k])
    ensures TryParseInt32(pre + IntToString(x as int) + post) == Some(x)
  {
    var m := IntToString(x as int);
    StripPadded(pre, m, post, IsNumberWhite);
    ParseIntToString(x as int);
  }

  /** Python's `int(s)` on a string: surrounding white space, an optional sign and
      ASCII digits, without a bound on the value. */
  function PyInt(s: string): Option<int>
  {
    ParseSigned(Strip(s, IsPythonSpace))
  }

  /** Parsing undoes rendering, for every integer. */
  lemma ParseIntToString(x: int)
    ensures ParseSigned(IntToString(x)) == Some(x)
  {
    if x < 0 {
      var s := IntToString(x);
      assert s[1..] == NatToString(-x);
    }
  }

  /** Any rendered 32-bit integer is read back by `int.TryParse`. */
  lemma TryParseIntToString(x: int32)
    ensures TryParseInt32(IntToString(x as int)) == Some(x)
  {
    var s := IntToString(x as int);
    StripNothing(s, IsNumberWhite);
    ParseIntToString(x as int);
  }

  /** Python's `int(str(n))` gives `n` back. */
  lemma PyIntNatToString(n: nat)
    ensures PyInt(NatToString(n)) == Some(n)
  {
    var s := NatToString(n);
    StripNothing(s, IsPythonSpace);
    ParseIntToString(n);
  }
}

=== FILE: outcomes.dfy ===
/** Optional values and results with an error, the shapes the source expresses with
    null, exceptions and `try`/`except`. */
module Outcomes {

  datatype Option<+T> = None | Some(value: T)

  datatype Result<+T, +E> = Success(value: T) | Failure(error: E)
}

=== FILE: table_translation.dfy ===
/** `TranslateTableAsync`: read the exchange table, pick the rows still to translate,
    send them to the service in greedy batches, write each reply into the rows of its
    batch, and write the table back. Each `await` is a plain sequential call; a thrown
    exception is the `Failure` of the result, and nothing is written after one. */
module TableTranslation {
  import opened Outcomes
  import opened Text
  import opened ExchangeTable
  import opened Batching
  import opened Backend
  import opened Cli

  /** Why `TranslateTableAsync` stops without writing the table. */
  datatype TranslateError =
    | Schema(schema: SchemaError)                 // `ReadRows` rejected the header
    | Transport(message: string)                  // the service answered with an error status
    | ReplyTooShort(sent: nat, received: nat)     // `translated[j]` indexed past the reply

  /** A row that still needs a translation: it has source text and no translation yet. */
  predicate IsPending(r: Row)
  {
    !IsNullOrWhiteSpace(r.origText) && IsNullOrWhiteSpace(r.translatedText)
  }

  predicate Increasing(xs: seq<nat>)
  {
    forall i, j :: 0 <= i < j < |xs| ==> xs[i] < xs[j]
  }

  /** Every position of `b` is a row of a table with `n` rows. */
  predicate Within(b: seq<nat>, n: nat)
  {
    forall j :: 0 <= j < |b| ==> b[j] < n
  }

  lemma WithinSnoc(b: seq<nat>, x: nat, n: nat)
    requires Within(b, n) && x < n
    ensures Within(b + [x], n)
  {
  }

  /** The selection at the start of the method: the positions of the pending rows. */
  function PendingIndices(rows: seq<Row>): (ix: seq<nat>)
    ensures Increasing(ix) && Within(ix, |rows|)
    ensures forall i :: 0 <= i < |rows| ==> (i in ix <==> IsPending(rows[i]))
  {
    if rows == [] then []
    else
      var n := |rows| - 1;
      var prev := PendingIndices(rows[..n]);
      assert forall i :: 0 <= i < n ==> rows[..n][i] == rows[i];
      if IsPending(rows[n]) then prev + [n] else prev
  }

  /** The count the loop adds for each row: `OrigText.Length`, in UTF-16 units. */
  function OrigLengths(rows: seq<Row>): (sizes: seq<nat>)
    ensures |sizes| == |rows|
    ensures forall i :: 0 <= i < |rows| ==> sizes[i] == Utf16Length(rows[i].origText)
  {
    seq(|rows|, i requires 0 <= i < |rows| => Utf16Length(rows[i].origText))
  }

  /** The batches `TranslateTableAsync` sends when the rows at positions `items` are to
      be translated: those positions, in order, packed greedily under the budget. */
  function Plan(rows: seq<Row>, items: seq<nat>, maxChars: int): (bs: seq<seq<nat>>)
    requires Within(items, |rows|)
    ensures Concat(bs) == items
    ensures forall k :: 0 <= k < |bs| ==> |bs[k]| > 0 && Within(bs[k], |rows|)
  {
    var sizes := OrigLengths(rows);
    BatchesCover(items, sizes, maxChars);
    BatchesWellPacked(items, sizes, maxChars);
    var bs := Batches(items, sizes, maxChars);
    assert forall k :: 0 <= k < |bs| ==> BatchOk(bs[k], sizes, maxChars);
    bs
  }

  /** Two tables with the same rows, keys and source texts, differing at most in
      their translations. */
  predicate Retranslated(before: seq<Row>, after: seq<Row>)
  {
    |after| == |before|
    && forall i :: 0 <= i < |before| ==> after[i] == before[i].(translatedText := after[i].translatedText)
  }

  /** The texts of a batch, in batch order. */
  function OrigTexts(rows: seq<Row>, b: seq<nat>): (texts: seq<string>)
    requires Within(b, |rows|)
    ensures |texts| == |b|
  {
    seq(|b|, j requires 0 <= j < |b| => rows[b[j]].origText)
  }

  /** `out` is `rows` after the merge loop over batch `b` with reply `reply`. */
  predicate MergedFrom(rows: seq<Row>, b: seq<nat>, reply: seq<string>, out: seq<Row>)
    requires Within(b, |rows|) && |reply| >= |b|
  {
    && Retranslated(rows, out)
    && (forall i :: 0 <= i < |rows| && i !in b ==> out[i] == rows[i])
    && (forall j :: 0 <= j < |b| && b[j] !in b[j + 1..] ==> out[b[j]].translatedText == reply[j])
  }

  /** One more iteration of the merge loop. */
  lemma MergeStep(rows: seq<Row>, b: seq<nat>, reply: seq<string>, prev: seq<Row>)
    requires |b| > 0 && Within(b, |rows|) && |reply| >= |b|
    requires MergedFrom(rows, b[..|b| - 1], reply, prev)
    ensures var n := |b| - 1;
      MergedFrom(rows, b, reply, prev[b[n] := prev[b[n]].(translatedText := reply[n])])
  {
    var n := |b| - 1;
    var out := prev[b[n] := prev[b[n]].(translatedText := reply[n])];
    assert Retranslated(rows, out) by {
      forall i | 0 <= i < |rows| ensures out[i] == rows[i].(translatedText := out[i].translatedText) {
        assert prev[i] == rows[i].(translatedText := prev[i].translatedText);
      }
    }
    forall i | 0 <= i < |rows| && i !in b ensures out[i] == rows[i] {
      FrontOccurrence(b, i, 0);
      assert out[i] == prev[i];
    }
    forall j | 0 <= j < |b| && b[j] !in b[j + 1..] ensures out[b[j]].translatedText == reply[j] {
      if j < n {
        FrontOccurrence(b, 0, j);
        assert out[b[j]] == prev[b[j]];
      }
    }
  }

  /** The merge loop of `FlushAsync`: `rows[b[j]]` gets translation `reply[j]`, for
      `j` from the first position of the batch to the last. */
  function Merge(rows: seq<Row>, b: seq<nat>, reply: seq<string>): (out: seq<Row>)
    requires Within(b, |rows|) && |reply| >= |b|
    ensures Retranslated(rows, out)
    ensures forall i :: 0 <= i < |rows| && i !in b ==> out[i] == rows[i]
    ensures forall j :: 0 <= j < |b| && b[j] !in b[j + 1..] ==> out[b[j]].translatedText == reply[j]
  {
    if b == [] then rows
    else
      var n := |b| - 1;
      var prev := Merge(rows, b[..n], reply);
      MergeStep(rows, b, reply, prev);
      prev[b[n] := prev[b[n]].(translatedText := reply[n])]
  }

  /** The request `FlushAsync` sends for batch `b`. */
  function RequestFor(rows: seq<Row>, b: seq<nat>, s: Settings): Request
    requires Within(b, |rows|)
  {
    MakeRequest(OrigTexts(rows, b), s)
  }

  /** `FlushAsync`: nothing happens for an empty batch; otherwise the texts of the batch
      are sent and the reply merged into the rows. */
  function SendBatch(rows: seq<Row>, b: seq<nat>, s: Settings, backend: Translator): (r: Result<seq<Row>, TranslateError>)
    requires Within(b, |rows|)
    ensures |b| == 0 ==> r == Success(rows)
    ensures r.Success? ==> Retranslated(rows, r.value)
    ensures r.Failure? ==> r.error.Transport? || r.error.ReplyTooShort?
  {
    if |b| == 0 then Success(rows)
    else
      match backend(RequestFor(rows, b, s))
      case Failure(msg) => Failure(Transport(msg))
      case Success(reply) =>
        if |reply| < |b| then Failure(ReplyTooShort(|b|, |reply|))
        else Success(Merge(rows, b, reply))
  }

  /** The batches sent one after another; the first failure ends the run. */
  function RunBatches(rows: seq<Row>, bs: seq<seq<nat>>, s: Settings, backend: Translator): (r: Result<seq<Row>, TranslateError>)
    requires forall k :: 0 <= k < |bs| ==> Within(bs[k], |rows|)
    ensures r.Success? ==> Retranslated(rows, r.value)
  {
    if bs == [] then Success(rows)
    else
      var n := |bs| - 1;
      match RunBatches(rows, bs[..n], s, backend)
      case Failure(e) => Failure(e)
      case Success(mid) => SendBatch(mid, bs[n], s, backend)
  }

  /** What `TranslateTableAsync` produces for a table text: the text written to the
      output file, or the reason it stops. The delimiter comes from `--delimiter`,
      `#` when absent. */
  function TranslateTableSpec(text: string, args: seq<string>, s: Settings, maxChars: int,
                              backend: Translator): Result<string, TranslateError>
  {
    var d := ResolveDelimiter(args, '#');
    match DecodeTable(text, d)
    case Failure(e) => Failure(Schema(e))
    case Success(rows) =>
      match RunBatches(rows, Plan(rows, PendingIndices(rows), maxChars), s, backend)
      case Failure(e) => Failure(e)
      case Success(out) => Success(EncodeTable(out, d))
  }

  /** Once a batch has failed, later batches change nothing: the run fails with the
      same error. */
  lemma {:induction false} RunBatchesFailureSticks(rows: seq<Row>, bs: seq<seq<nat>>, cs: seq<seq<nat>>,
                                                  s: Settings, backend: Translator)
    requires forall k :: 0 <= k < |cs| ==> Within(cs[k], |rows|)
    requires bs <= cs
    requires RunBatches(rows, bs, s, backend).Failure?
    ensures RunBatches(rows, cs, s, backend) == RunBatches(rows, bs, s, backend)
    decreases |cs|
  {
    if |cs| > |bs| {
      var n := |cs| - 1;
      var front := cs[..n];
      PrefixOfFront(bs, cs);
      FrontWithin(cs, front, |rows|);
      RunBatchesFailureSticks(rows, bs, front, s, backend);
      RunFailedFront(rows, cs, s, backend);
    } else {
      assert bs == cs;
    }
  }

  /** The batches before the last one are still within range. */
  lemma FrontWithin(cs: seq<seq<nat>>, front: seq<seq<nat>>, n: nat)
    requires |cs| > 0 && front == cs[..|cs| - 1]
    requires forall k :: 0 <= k < |cs| ==> Within(cs[k], n)
    ensures forall k :: 0 <= k < |front| ==> Within(front[k], n)
  {
    forall k | 0 <= k < |front| ensures Within(front[k], n) {
      assert front[k] == cs[k];
    }
  }

  /** A strictly shorter prefix is a prefix of the front. */
  lemma PrefixOfFront<T>(bs: seq<T>, cs: seq<T>)
    requires bs <= cs && |bs| < |cs|
    ensures bs <= cs[..|cs| - 1]
  {
  }

  /** A run whose front failed fails the same way. */
  lemma RunFailedFront(rows: seq<Row>, cs: seq<seq<nat>>, s: Settings, backend: Translator)
    requires |cs| > 0 && forall k :: 0 <= k < |cs| ==> Within(cs[k], |rows|)
    requires RunBatches(rows, cs[..|cs| - 1], s, backend).Failure?
    ensures RunBatches(rows, cs, s, backend) == RunBatches(rows, cs[..|cs| - 1], s, backend)
  {
  }

  /** Running one more batch after a successful run. */
  lemma RunBatchesSnoc(rows: seq<Row>, bs: seq<seq<nat>>, b: seq<nat>, s: Settings, backend: Translator)
    requires forall k :: 0 <= k < |bs| ==> Within(bs[k], |rows|)
    requires Within(b, |rows|)
    requires RunBatches(rows, bs, s, backend).Success?
    ensures forall k :: 0 <= k < |bs + [b]| ==> Within((bs + [b])[k], |rows|)
    ensures RunBatches(rows, bs + [b], s, backend) == SendBatch(RunBatches(rows, bs, s, backend).value, b, s, backend)
  {
    assert (bs + [b])[..|bs|] == bs;
  }

  /** Flushing the packer after a successful run sends its batch, if any, as the next
      batch of the run. */
  lemma RunBatchesFlush(rows0: seq<Row>, p: Packer, rows: seq<Row>, s: Settings, backend: Translator)
    requires forall k :: 0 <= k < |p.sent| ==> Within(p.sent[k], |rows0|)
    requires Within(p.batch, |rows0|)
    requires RunBatches(rows0, p.sent, s, backend) == Success(rows)
    ensures forall k :: 0 <= k < |Flush(p).sent| ==> Within(Flush(p).sent[k], |rows0|)
    ensures Within(p.batch, |rows|)
    ensures RunBatches(rows0, Flush(p).sent, s, backend) == SendBatch(rows, p.batch, s, backend)
  {
    if |p.batch| > 0 {
      RunBatchesSnoc(rows0, p.sent, p.batch, s, backend);
    }
  }

  /** The local `FlushAsync`: an empty batch returns at once; otherwise the texts of the
      batch are sent, the reply is merged position by position, and the batch and the
      running sum are cleared. `sent` records the batches flushed so far. */
  method FlushAsync(rows: seq<Row>, batch: seq<nat>, sum: int, ghost sent: seq<seq<nat>>,
                    s: Settings, backend: Translator)
    returns (result: Result<seq<Row>, TranslateError>, batch': seq<nat>, sum': int,
             ghost sent': seq<seq<nat>>)
    requires Within(batch, |rows|)
    ensures result == SendBatch(rows, batch, s, backend)
    ensures Packer(sent', batch', sum') == Flush(Packer(sent, batch, sum))
  {
    if |batch| == 0 {
      return Success(rows), batch, sum, sent;
    }
    var texts := OrigTexts(rows, batch);
    var reply := backend(MakeRequest(texts, s));
    if reply.Failure? {
      return Failure(Transport(reply.error)), [], 0, sent + [batch];
    }
    var translated := reply.value;
    var out := rows;
    for j := 0 to |batch|
      invariant j <= |translated|
      invariant out == Merge(rows, batch[..j], translated)
    {
      if j >= |translated| {
        return Failure(ReplyTooShort(|batch|, |translated|)), [], 0, sent + [batch];
      }
      assert batch[..j + 1][..j] == batch[..j];
      out := out[batch[j] := out[batch[j]].(translatedText := translated[j])];
    }
    assert batch[..|batch|] == batch;
    return Success(out), [], 0, sent + [batch];
  }

  /** The state of the loop of `TranslateTableAsync` after the first `k` selected
      positions: the packer is the greedy packer over those positions, the batches it
      flushed are the first batches of the plan, and sending them turned `rows0` into
      `rows`. */
  ghost predicate Progress(rows0: seq<Row>, items: seq<nat>, k: nat, budget: int, p: Packer,
                           rows: seq<Row>, s: Settings, backend: Translator)
    requires Within(items, |rows0|)
  {
    var sizes := OrigLengths(rows0);
    && k <= |items|
    && InRange(items[..k], sizes)
    && Greedy(items[..k], sizes, budget) == p
    && p.sent <= Plan(rows0, items, budget)
    && (forall j :: 0 <= j < |p.sent| ==> Within(p.sent[j], |rows0|))
    && Within(p.batch, |rows0|)
    && RunBatches(rows0, p.sent, s, backend) == Success(rows)
  }

  lemma ProgressStart(rows0: seq<Row>, items: seq<nat>, budget: int, s: Settings, backend: Translator)
    requires Within(items, |rows0|)
    ensures Progress(rows0, items, 0, budget, Packer([], [], 0), rows0, s, backend)
  {
    assert items[..0] == [];
  }

  /** The next selected position is a row of the current table, and its source text
      is still the one the plan measured. */
  lemma ProgressItem(rows0: seq<Row>, items: seq<nat>, k: nat, budget: int, p: Packer,
                     rows: seq<Row>, s: Settings, backend: Translator)
    requires Within(items, |rows0|) && Progress(rows0, items, k, budget, p, rows, s, backend)
    requires k < |items|
    ensures items[k] < |rows| && Utf16Length(rows[items[k]].origText) == OrigLengths(rows0)[items[k]]
  {
  }

  /** Flushing inside the loop sends the packer's batch as the next batch of the plan;
      if that call fails, the whole run fails with it. */
  lemma ProgressFlush(rows0: seq<Row>, items: seq<nat>, k: nat, budget: int, p: Packer,
                      rows: seq<Row>, s: Settings, backend: Translator)
    requires Within(items, |rows0|) && Progress(rows0, items, k, budget, p, rows, s, backend)
    requires k < |items| && p.sum + OrigLengths(rows0)[items[k]] > budget
    ensures Within(p.batch, |rows|)
    ensures forall j :: 0 <= j < |Flush(p).sent| ==> Within(Flush(p).sent[j], |rows0|)
    ensures RunBatches(rows0, Flush(p).sent, s, backend) == SendBatch(rows, p.batch, s, backend)
    ensures SendBatch(rows, p.batch, s, backend).Failure? ==>
      RunBatches(rows0, Plan(rows0, items, budget), s, backend) == SendBatch(rows, p.batch, s, backend)
  {
    var sizes := OrigLengths(rows0);
    RunBatchesFlush(rows0, p, rows, s, backend);
    GreedyTake(items, sizes, budget, k);
    GreedySentPrefix(items, sizes, budget, k + 1);
    assert Step(p, items[k], sizes[items[k]], budget).sent == Flush(p).sent;
    if SendBatch(rows, p.batch, s, backend).Failure? {
      RunBatchesFailureSticks(rows0, Flush(p).sent, Plan(rows0, items, budget), s, backend);
    }
  }

  /** Adding the next position to the batch, after the flush if there was one, gives
      the state after `k + 1` positions. */
  lemma ProgressAdd(rows0: seq<Row>, items: seq<nat>, k: nat, budget: int, p: Packer, q: Packer,
                    rows: seq<Row>, rows': seq<Row>, s: Settings, backend: Translator)
    requires Within(items, |rows0|) && Progress(rows0, items, k, budget, p, rows, s, backend)
    requires k < |items|
    requires q == if p.sum + OrigLengths(rows0)[items[k]] > budget then Flush(p) else p
    requires forall j :: 0 <= j < |q.sent| ==> Within(q.sent[j], |rows0|)
    requires RunBatches(rows0, q.sent, s, backend) == Success(rows')
    ensures Progress(rows0, items, k + 1, budget,
                     Packer(q.sent, q.batch + [items[k]], q.sum + OrigLengths(rows0)[items[k]]), rows', s, backend)
  {
    var sizes := OrigLengths(rows0);
    var x := items[k];
    var np := Packer(q.sent, q.batch + [x], q.sum + sizes[x]);
    GreedyTake(items, sizes, budget, k);
    GreedySentPrefix(items, sizes, budget, k + 1);
    assert Step(p, x, sizes[x], budget) == np;
    assert Within(q.batch, |rows0|);
    WithinSnoc(q.batch, x, |rows0|);
  }

  /** After the loop, the final flush sends the last batch of the plan. */
  lemma ProgressDone(rows0: seq<Row>, items: seq<nat>, budget: int, p: Packer,
                     rows: seq<Row>, s: Settings, backend: Translator)
    requires Within(items, |rows0|) && Progress(rows0, items, |items|, budget, p, rows, s, backend)
    ensures Within(p.batch, |rows|)
    ensures RunBatches(rows0, Plan(rows0, items, budget), s, backend) == SendBatch(rows, p.batch, s, backend)
  {
    assert items[..|items|] == items;
    RunBatchesFlush(rows0, p, rows, s, backend);
  }

  /** One iteration of the loop: the open batch is flushed when row `items[k]` would
      not fit, then the row joins the batch. A failed flush ends the run with the
      failure of the whole plan. */
  method LoopStep(rows0: seq<Row>, items: seq<nat>, k: nat, s: Settings, maxChars: int, backend: Translator,
                  rows: seq<Row>, batch: seq<nat>, sum: int, ghost sent: seq<seq<nat>>)
    returns (failure: Option<TranslateError>, rows': seq<Row>, batch': seq<nat>, sum': int,
             ghost sent': seq<seq<nat>>)
    requires Within(items, |rows0|) && k < |items|
    requires Progress(rows0, items, k, maxChars, Packer(sent, batch, sum), rows, s, backend)
    ensures failure.Some? ==>
      RunBatches(rows0, Plan(rows0, items, maxChars), s, backend) == Failure(failure.value)
    ensures failure.None? ==>
      Progress(rows0, items, k + 1, maxChars, Packer(sent', batch', sum'), rows', s, backend)
  {
    ghost var p := Packer(sent, batch, sum);
    ProgressItem(rows0, items, k, maxChars, p, rows, s, backend);
    var idx := items[k];
    var add := Utf16Length(rows[idx].origText);
    failure, rows', batch', sum', sent' := None, rows, batch, sum, sent;
    if sum + add > maxChars {
      ProgressFlush(rows0, items, k, maxChars, p, rows, s, backend);
      var r;
      r, batch', sum', sent' := FlushAsync(rows, batch, sum, sent, s, backend);
      if r.Failure? {
        failure := Some(r.error);
        return;
      }
      rows' := r.value;
    }
    ProgressAdd(rows0, items, k, maxChars, p, Packer(sent', batch', sum'), rows, rows', s, backend);
    batch' := batch' + [idx];
    sum' := sum' + add;
  }

  /** The loop of `TranslateTableAsync` over the selected positions `toTranslate`: a
      batch is flushed when the next row would not fit, and the last batch is flushed
      after the loop. */
  method TranslatePositions(rows0: seq<Row>, toTranslate: seq<nat>, s: Settings, maxChars: int,
                            backend: Translator) returns (result: Result<seq<Row>, TranslateError>)
    requires Within(toTranslate, |rows0|)
    ensures result == RunBatches(rows0, Plan(rows0, toTranslate, maxChars), s, backend)
  {
    var rows := rows0;
    var batch: seq<nat> := [];
    var sum := 0;
    ghost var sent: seq<seq<nat>> := [];
    ProgressStart(rows0, toTranslate, maxChars, s, backend);
    for k := 0 to |toTranslate|
      invariant Progress(rows0, toTranslate, k, maxChars, Packer(sent, batch, sum), rows, s, backend)
    {
      var failure;
      failure, rows, batch, sum, sent := LoopStep(rows0, toTranslate, k, s, maxChars, backend, rows, batch, sum, sent);
      if failure.Some? {
        return Failure(failure.value);
      }
    }
    ProgressDone(rows0, toTranslate, maxChars, Packer(sent, batch, sum), rows, s, backend);
    result, batch, sum, sent := FlushAsync(rows, batch, sum, sent, s, backend);
  }

  /** `TranslateTableAsync` with the file contents as `tableText`: returns the text it
      writes to the output file, or the error that stops it. */
  method TranslateTable(tableText: string, args: seq<string>, s: Settings, maxChars: int,
                        backend: Translator) returns (result: Result<string, TranslateError>)
    ensures result == TranslateTableSpec(tableText, args, s, maxChars, backend)
  {
    var delim := ResolveDelimiter(args, '#');
    var read := ReadRows(tableText, delim);
    if read.Failure? {
      return Failure(Schema(read.error));
    }
    var rows := read.value;
    var toTranslate := PendingIndices(rows);
    var translated := TranslatePositions(rows, toTranslate, s, maxChars, backend);
    if translated.Failure? {
      return Failure(translated.error);
    }
    var text := WriteRows(delim, translated.value);
    return Success(text);
  }

  /** No position occurs twice. */
  predicate Distinct(xs: seq<nat>)
  {
    forall i, j :: 0 <= i < j < |xs| ==> xs[i] != xs[j]
  }

  lemma DistinctSplit(a: seq<nat>, b: seq<nat>)
    requires Distinct(a + b)
    ensures Distinct(a) && Distinct(b)
    ensures forall x :: x in a ==> x !in b
  {
    var c := a + b;
    forall i, j | 0 <= i < j < |a| ensures a[i] != a[j] {
      assert a[i] == c[i] && a[j] == c[j];
    }
    forall i, j | 0 <= i < j < |b| ensures b[i] != b[j] {
      assert b[i] == c[|a| + i] && b[j] == c[|a| + j];
    }
    forall i, j | 0 <= i < |a| && 0 <= j < |b| ensures a[i] != b[j] {
      assert a[i] == c[i] && b[j] == c[|a| + j];
    }
  }

  lemma DistinctLater(b: seq<nat>, j: nat)
    requires Distinct(b) && j < |b|
    ensures b[j] !in b[j + 1..]
  {
  }

  /** The service's reply to the request for batch `b`. */
  function ReplyTo(rows: seq<Row>, b: seq<nat>, s: Settings, backend: Translator): Result<seq<string>, string>
    requires Within(b, |rows|)
  {
    backend(RequestFor(rows, b, s))
  }

  /** `t` is the translation the service returned at position `j` for batch `b`. */
  predicate Answered(rows: seq<Row>, b: seq<nat>, s: Settings, backend: Translator, j: nat, t: string)
    requires Within(b, |rows|)
  {
    var reply := ReplyTo(rows, b, s, backend);
    reply.Success? && j < |reply.value| && reply.value[j] == t
  }

  /** The service accepts batch `b`: it is empty, or the reply is a success with a
      translation for each of its texts. */
  predicate Accepted(rows: seq<Row>, b: seq<nat>, s: Settings, backend: Translator)
    requires Within(b, |rows|)
  {
    var reply := ReplyTo(rows, b, s, backend);
    |b| == 0 || (reply.Success? && |reply.value| >= |b|)
  }

  /** Requests depend only on the source texts, which translation never changes. */
  lemma RequestForRetranslated(rows: seq<Row>, mid: seq<Row>, b: seq<nat>, s: Settings)
    requires Retranslated(rows, mid) && Within(b, |rows|)
    ensures Within(b, |mid|)
    ensures RequestFor(mid, b, s) == RequestFor(rows, b, s)
  {
    forall j | 0 <= j < |b| ensures OrigTexts(mid, b)[j] == OrigTexts(rows, b)[j] {
      assert mid[b[j]].origText == rows[b[j]].origText;
    }
    assert OrigTexts(mid, b) == OrigTexts(rows, b);
  }

  /** One batch goes through exactly when the service accepts it. */
  lemma SendBatchSucceeds(rows: seq<Row>, b: seq<nat>, s: Settings, backend: Translator)
    requires Within(b, |rows|)
    ensures SendBatch(rows, b, s, backend).Success? <==> Accepted(rows, b, s, backend)
  {
  }

  /** The service accepts every batch of `bs`. */
  predicate AllAccepted(rows: seq<Row>, bs: seq<seq<nat>>, s: Settings, backend: Translator)
    requires forall k :: 0 <= k < |bs| ==> Within(bs[k], |rows|)
  {
    forall k :: 0 <= k < |bs| ==> Accepted(rows, bs[k], s, backend)
  }

  lemma AllAcceptedSnoc(rows: seq<Row>, bs: seq<seq<nat>>, s: Settings, backend: Translator)
    requires forall k :: 0 <= k < |bs| ==> Within(bs[k], |rows|)
    requires |bs| > 0
    ensures var n := |bs| - 1;
      AllAccepted(rows, bs, s, backend) <==>
        AllAccepted(rows, bs[..n], s, backend) && Accepted(rows, bs[n], s, backend)
  {
    var n := |bs| - 1;
    if AllAccepted(rows, bs[..n], s, backend) && Accepted(rows, bs[n], s, backend) {
      forall k | 0 <= k < |bs| ensures Accepted(rows, bs[k], s, backend) {
        if k < n {
          assert bs[..n][k] == bs[k];
        }
      }
    }
    if AllAccepted(rows, bs, s, backend) {
      forall k | 0 <= k < n ensures Accepted(rows, bs[..n][k], s, backend) {
        assert bs[..n][k] == bs[k];
      }
    }
  }

  /** A run succeeds exactly when the service accepts every batch, so any failing call
      stops the run and nothing is written. */
  lemma {:induction false} RunBatchesSucceeds(rows: seq<Row>, bs: seq<seq<nat>>, s: Settings, backend: Translator)
    requires forall k :: 0 <= k < |bs| ==> Within(bs[k], |rows|)
    ensures RunBatches(rows, bs, s, backend).Success? <==> AllAccepted(rows, bs, s, backend)
  {
    if bs != [] {
      var n := |bs| - 1;
      var init := bs[..n];
      RunBatchesSucceeds(rows, init, s, backend);
      AllAcceptedSnoc(rows, bs, s, backend);
      var prev := RunBatches(rows, init, s, backend);
      if prev.Success? {
        RequestForRetranslated(rows, prev.value, bs[n], s);
        SendBatchSucceeds(prev.value, bs[n], s, backend);
        assert RunBatches(rows, bs, s, backend) == SendBatch(prev.value, bs[n], s, backend);
        assert Accepted(prev.value, bs[n], s, backend) == Accepted(rows, bs[n], s, backend);
      }
    }
  }

  /** Every row of batch `b` holds, in `out`, the service's translation for it. */
  predicate BatchAnswered(rows: seq<Row>, b: seq<nat>, s: Settings, backend: Translator, out: seq<Row>)
    requires Within(b, |rows|) && |out| == |rows|
  {
    forall j :: 0 <= j < |b| ==> Answered(rows, b, s, backend, j, out[b[j]].translatedText)
  }

  /** The effect of one successful batch on a table whose source texts are those of
      `rows`: rows outside the batch keep their value and the row at position `j` of the
      batch holds the reply's translation at `j`. */
  lemma SendBatchEffect(rows: seq<Row>, mid: seq<Row>, b: seq<nat>, s: Settings, backend: Translator)
    requires Retranslated(rows, mid) && Within(b, |rows|) && Distinct(b)
    requires SendBatch(mid, b, s, backend).Success?
    ensures var out := SendBatch(mid, b, s, backend).value;
      && (forall i :: 0 <= i < |mid| && i !in b ==> out[i] == mid[i])
      && BatchAnswered(rows, b, s, backend, out)
  {
    RequestForRetranslated(rows, mid, b, s);
    forall j | 0 <= j < |b| ensures b[j] !in b[j + 1..] {
      DistinctLater(b, j);
    }
  }

  /** What a successful run over batches `bs` did to `rows`, giving `out`: positions in
      no batch keep their row, and every batch is answered. */
  ghost predicate RunEffect(rows: seq<Row>, bs: seq<seq<nat>>, s: Settings, backend: Translator, out: seq<Row>)
    requires forall k :: 0 <= k < |bs| ==> Within(bs[k], |rows|)
  {
    && Retranslated(rows, out)
    && (forall i :: 0 <= i < |rows| && i !in Concat(bs) ==> out[i] == rows[i])
    && (forall k :: 0 <= k < |bs| ==> BatchAnswered(rows, bs[k], s, backend, out))
  }

  /** A later batch that writes none of the positions of batch `b` keeps it answered. */
  lemma AnsweredKept(rows: seq<Row>, b: seq<nat>, s: Settings, backend: Translator, mid: seq<Row>, out: seq<Row>)
    requires Within(b, |rows|) && |mid| == |rows| && |out| == |rows|
    requires BatchAnswered(rows, b, s, backend, mid)
    requires forall j :: 0 <= j < |b| ==> out[b[j]] == mid[b[j]]
    ensures BatchAnswered(rows, b, s, backend, out)
  {
  }

  /** One more successful batch, disjoint from the earlier ones, extends the effect. */
  lemma RunEffectSnoc(rows: seq<Row>, init: seq<seq<nat>>, b: seq<nat>, s: Settings, backend: Translator,
                      mid: seq<Row>, out: seq<Row>)
    requires forall k :: 0 <= k < |init| ==> Within(init[k], |rows|)
    requires Within(b, |rows|) && Retranslated(rows, out)
    requires RunEffect(rows, init, s, backend, mid)
    requires forall x :: x in Concat(init) ==> x !in b
    requires forall i :: 0 <= i < |mid| && i !in b ==> out[i] == mid[i]
    requires BatchAnswered(rows, b, s, backend, out)
    ensures forall k :: 0 <= k < |init + [b]| ==> Within((init + [b])[k], |rows|)
    ensures RunEffect(rows, init + [b], s, backend, out)
  {
    var bs := init + [b];
    ConcatSnoc(init, b);
    forall k | 0 <= k < |bs| ensures BatchAnswered(rows, bs[k], s, backend, out) {
      if k < |init| {
        assert bs[k] == init[k];
        forall j | 0 <= j < |init[k]| ensures out[init[k][j]] == mid[init[k][j]] {
          ConcatHas(init, k, j);
        }
        AnsweredKept(rows, init[k], s, backend, mid, out);
      } else {
        assert bs[k] == b;
      }
    }
  }

  /** The effect of a successful run in which no position is sent twice. */
  lemma {:induction false} RunBatchesEffect(rows: seq<Row>, bs: seq<seq<nat>>, s: Settings, backend: Translator)
    requires forall k :: 0 <= k < |bs| ==> Within(bs[k], |rows|)
    requires Distinct(Concat(bs))
    requires RunBatches(rows, bs, s, backend).Success?
    ensures RunEffect(rows, bs, s, backend, RunBatches(rows, bs, s, backend).value)
  {
    var out := RunBatches(rows, bs, s, backend).value;
    if bs == [] {
      assert Concat(bs) == [];
    } else {
      var n := |bs| - 1;
      var init := bs[..n];
      var b := bs[n];
      SplitLast(bs);
      ConcatSnoc(init, b);
      DistinctSplit(Concat(init), b);
      RunBatchesEffect(rows, init, s, backend);
      var mid := RunBatches(rows, init, s, backend).value;
      assert out == SendBatch(mid, b, s, backend).value;
      SendBatchEffect(rows, mid, b, s, backend);
      RunEffectSnoc(rows, init, b, s, backend, mid, out);
    }
  }

  /** The effect of `TranslateTableAsync` on the rows when every call succeeds: the rows
      that were not pending are unchanged, every batch holds pending rows only, and each
      pending row holds the translation the service returned for it; the number of
      rows, their order, keys and source texts are unchanged. */
  lemma TranslatePendingEffect(rows: seq<Row>, s: Settings, maxChars: int, backend: Translator)
    requires RunBatches(rows, Plan(rows, PendingIndices(rows), maxChars), s, backend).Success?
    ensures var plan := Plan(rows, PendingIndices(rows), maxChars);
      var out := RunBatches(rows, plan, s, backend).value;
      && Retranslated(rows, out)
      && (forall i :: 0 <= i < |rows| && !IsPending(rows[i]) ==> out[i] == rows[i])
      && (forall k, j :: 0 <= k < |plan| && 0 <= j < |plan[k]| ==>
            IsPending(rows[plan[k][j]]) && Answered(rows, plan[k], s, backend, j, out[plan[k][j]].translatedText))
  {
    var pending := PendingIndices(rows);
    var plan := Plan(rows, pending, maxChars);
    assert Distinct(Concat(plan));
    RunBatchesEffect(rows, plan, s, backend);
    var out := RunBatches(rows, plan, s, backend).value;
    forall k, j | 0 <= k < |plan| && 0 <= j < |plan[k]|
      ensures IsPending(rows[plan[k][j]])
      ensures Answered(rows, plan[k], s, backend, j, out[plan[k][j]].translatedText)
    {
      ConcatHas(plan, k, j);
      assert BatchAnswered(rows, plan[k], s, backend, out);
    }
  }

  /** Every reply of the service is a list of non-blank translations. */
  ghost predicate NonBlankReplies(backend: Translator)
  {
    forall q :: backend(q).Success? ==>
      forall j :: 0 <= j < |backend(q).value| ==> !IsNullOrWhiteSpace(backend(q).value[j])
  }

  /** A table with no pending row selects nothing. */
  lemma {:induction false} NothingPending(rows: seq<Row>)
    requires forall i :: 0 <= i < |rows| ==> !IsPending(rows[i])
    ensures PendingIndices(rows) == []
  {
    if rows != [] {
      var n := |rows| - 1;
      assert forall i :: 0 <= i < n ==> rows[..n][i] == rows[i];
      NothingPending(rows[..n]);
    }
  }

  /** A pending row that received a non-blank translation is no longer pending. */
  lemma AnsweredNotPending(rows: seq<Row>, b: seq<nat>, s: Settings, backend: Translator, j: nat, r: Row)
    requires NonBlankReplies(backend) && Within(b, |rows|)
    requires Answered(rows, b, s, backend, j, r.translatedText)
    ensures !IsPending(r)
  {
    var q := RequestFor(rows, b, s);
    assert backend(q).Success? && j < |backend(q).value|;
  }

  /** After a successful run with a service that never answers with a blank text, no
      row is pending any more: translating the result again sends nothing. */
  lemma RerunSelectsNothing(rows: seq<Row>, s: Settings, maxChars: int, backend: Translator)
    requires NonBlankReplies(backend)
    requires RunBatches(rows, Plan(rows, PendingIndices(rows), maxChars), s, backend).Success?
    ensures var out := RunBatches(rows, Plan(rows, PendingIndices(rows), maxChars), s, backend).value;
      && (forall i :: 0 <= i < |out| ==> !IsPending(out[i]))
      && PendingIndices(out) == []
  {
    var plan := Plan(rows, PendingIndices(rows), maxChars);
    var out := RunBatches(rows, plan, s, backend).value;
    TranslatePendingEffect(rows, s, maxChars, backend);
    forall i | 0 <= i < |out| ensures !IsPending(out[i]) {
      if IsPending(rows[i]) {
        ConcatFrom(plan, i);
        var k, j :| 0 <= k < |plan| && 0 <= j < |plan[k]| && plan[k][j] == i;
        AnsweredNotPending(rows, plan[k], s, backend, j, out[i]);
      }
    }
    NothingPending(out);
  }
  /** Flattening a row keeps it pending, or not pending. */
  lemma FlattenedPending(rows: seq<Row>)
    ensures forall i :: 0 <= i < |rows| ==> (IsPending(FlattenedRows(rows)[i]) <==> IsPending(rows[i]))
  {
    forall i | 0 <= i < |rows| ensures IsPending(FlattenedRows(rows)[i]) <==> IsPending(rows[i]) {
      FlattenBlank(rows[i].origText);
      FlattenBlank(rows[i].translatedText);
    }
  }

  /** Rows none of which is pending stay so once flattened. */
  lemma FlattenedNothingPending(out: seq<Row>)
    requires forall i :: 0 <= i < |out| ==> !IsPending(out[i])
    ensures PendingIndices(FlattenedRows(out)) == []
  {
    FlattenedPending(out);
    NothingPending(FlattenedRows(out));
  }

  /** After a successful run with a service that never answers with a blank text, the
      table `WriteRows` writes is read back by `ReadRows` with no pending row, so a
      second run over the output file sends nothing. This needs every text of the
      written rows to survive the round trip: a reply holding the delimiter would be
      split into further cells. */
  lemma RerunReadsNothing(rows: seq<Row>, s: Settings, maxChars: int, backend: Translator, d: char)
    requires NonBlankReplies(backend) && SafeDelimiter(d)
    requires RunBatches(rows, Plan(rows, PendingIndices(rows), maxChars), s, backend).Success?
    requires TransparentRows(RunBatches(rows, Plan(rows, PendingIndices(rows), maxChars), s, backend).value, d)
    ensures var out := RunBatches(rows, Plan(rows, PendingIndices(rows), maxChars), s, backend).value;
      && DecodeTable(EncodeTable(out, d), d) == Success(FlattenedRows(out))
      && PendingIndices(FlattenedRows(out)) == []
  {
    var out := RunBatches(rows, Plan(rows, PendingIndices(rows), maxChars), s, backend).value;
    RerunSelectsNothing(rows, s, maxChars, backend);
    FlattenedNothingPending(out);
    ReadAfterWrite(out, d);
  }

  /** Sizes count UTF-16 units: a row of two characters above U+FFFF weighs 4, so two such
      rows under a budget of 4 go in two batches, where counting characters would put
      them in one. */
  lemma AstralRowsSplit()
    ensures var t := "\U{20000}\U{20000}";
      Plan([Row(1, 0, t, ""), Row(2, 0, t, "")], [0, 1], 4) == [[0], [1]]
  {
    var c := '\U{20000}';
    var t := "\U{20000}\U{20000}";
    var rows := [Row(1, 0, t, ""), Row(2, 0, t, "")];
    Utf16LengthAstral(c, 'a');
    assert t == [c, c];
    assert OrigLengths(rows) == [4, 4];
    var items: seq<nat> := [0, 1];
    assert items[..1] == [0] && items[..1][..0] == [];
  }
}

=== FILE: text.dfy ===
/** String primitives shared by the C# pipeline and the Python extract/apply script:
    single-character split and join, line splitting, trimming, character replacement
    and the whitespace classes each runtime uses. */
module Text {

  /** `String.Split(char)` in C# and `str.split(sep)` in Python for a one-character
      separator: never empty, and no part contains the separator (`SplitCount` gives the
      number of parts). */
  function Split(s: string, d: char): (parts: seq<string>)
    ensures |parts| >= 1
    ensures forall i :: 0 <= i < |parts| ==> d !in parts[i]
  {
    if s == [] then [""]
    else
      var rest := Split(s[1..], d);
      assert s == [s[0]] + s[1..];
      if s[0] == d then [""] + rest
      else [[s[0]] + rest[0]] + rest[1..]
  }

  /** `string.Join(sep, parts)` in C# and `sep.join(parts)` in Python. */
  function Join(parts: seq<string>, sep: string): string
  {
    if |parts| == 0 then ""
    else if |parts| == 1 then parts[0]
    else parts[0] + sep + Join(parts[1..], sep)
  }

  /** One more part than there are separators. */
  lemma {:induction false} SplitCount(s: string, d: char)
    ensures |Split(s, d)| == multiset(s)[d] + 1
  {
    if s != [] {
      SplitCount(s[1..], d);
      assert s == [s[0]] + s[1..];
      assert multiset(s) == multiset{s[0]} + multiset(s[1..]);
    }
  }

  /** Splitting a text that starts with the separator. */
  lemma SplitSep(t: string, d: char)
    ensures Split([d] + t, d) == [""] + Split(t, d)
  {
    assert ([d] + t)[1..] == t;
  }

  /** Splitting a text that starts with a separator-free piece `a`. */
  lemma {:induction false} SplitConcat(a: string, t: string, d: char)
    requires d !in a
    ensures Split(a + t, d) == [a + Split(t, d)[0]] + Split(t, d)[1..]
  {
    if a != [] {
      SplitConcat(a[1..], t, d);
      var p, r := Split(t, d), Split(a[1..] + t, d);
      assert (a + t)[1..] == a[1..] + t;
      assert (a + t)[0] == a[0] != d;
      assert Split(a + t, d) == [[a[0]] + r[0]] + r[1..];
      assert r[0] == a[1..] + p[0] && r[1..] == p[1..];
      assert [a[0]] + (a[1..] + p[0]) == a + p[0];
    } else {
      assert a + t == t;
      var p := Split(t, d);
      assert p == [p[0]] + p[1..];
      assert a + p[0] == p[0];
    }
  }

  /** Prepending a character to the first element prepends it to the join. */
  lemma JoinPrepend(c: char, parts: seq<string>, sep: string)
    requires |parts| >= 1
    ensures Join([[c] + parts[0]] + parts[1..], sep) == [c] + Join(parts, sep)
  {
    var q := [[c] + parts[0]] + parts[1..];
    assert q[1..] == parts[1..];
  }

  /** Joining with the separator undoes splitting on it. */
  lemma {:induction false} JoinSplit(s: string, d: char)
    ensures Join(Split(s, d), [d]) == s
  {
    if s != [] {
      var rest := Split(s[1..], d);
      JoinSplit(s[1..], d);
      assert s == [s[0]] + s[1..];
      if s[0] == d {
        assert Split(s, d) == [""] + rest;
        assert ([""] + rest)[1..] == rest;
      } else {
        JoinPrepend(s[0], rest, [d]);
      }
    }
  }

  /** Splitting a joined list gives the list back when no element holds the separator. */
  lemma {:induction false} SplitJoin(parts: seq<string>, d: char)
    requires |parts| >= 1
    requires forall i :: 0 <= i < |parts| ==> d !in parts[i]
    ensures Split(Join(parts, [d]), d) == parts
  {
    if |parts| == 1 {
      SplitConcat(parts[0], "", d);
      assert parts[0] + "" == parts[0];
    } else {
      var rest := Join(parts[1..], [d]);
      SplitJoin(parts[1..], d);
      assert Join(parts, [d]) == parts[0] + ([d] + rest);
      SplitConcat(parts[0], [d] + rest, d);
      assert ([d] + rest)[1..] == rest;
      assert Split([d] + rest, d) == [""] + Split(rest, d);
      assert parts[0] + "" == parts[0];
    }
  }

  /** Two parts joined. */
  lemma JoinPair(a: string, b: string, sep: string)
    ensures Join([a, b], sep) == a + sep + b
  {
    assert [a, b][1..] == [b];
  }

  /** Appending one more element to a non-empty joined list. */
  lemma {:induction false} JoinSnoc(parts: seq<string>, x: string, sep: string)
    requires |parts| >= 1
    ensures Join(parts + [x], sep) == Join(parts, sep) + sep + x
  {
    if |parts| == 1 {
      assert parts + [x] == [parts[0], x];
    } else {
      JoinSnoc(parts[1..], x, sep);
      assert (parts + [x])[1..] == parts[1..] + [x];
    }
  }

  /** A joined list contains no character that is neither in the separator nor in an element. */
  lemma {:induction false} JoinAvoids(parts: seq<string>, sep: string, c: char)
    requires c !in sep
    requires forall i :: 0 <= i < |parts| ==> c !in parts[i]
    ensures c !in Join(parts, sep)
  {
    if |parts| > 1 {
      JoinAvoids(parts[1..], sep, c);
    }
  }

  /** The parts of a text hold no character the text does not hold. */
  lemma {:induction false} SplitAvoids(s: string, d: char, c: char)
    requires c !in s
    ensures forall i :: 0 <= i < |Split(s, d)| ==> c !in Split(s, d)[i]
  {
    if s != [] {
      SplitAvoids(s[1..], d, c);
      assert s[0] != c;
    }
  }

  /** Python's `str.splitlines()` and the successive `StreamReader.ReadLine()` calls, both
      restricted to '\n' as the only line break: a final empty segment (the text ends with
      a line break, or is empty) is not a line. */
  function SplitLines(s: string): (lines: seq<string>)
    ensures forall i :: 0 <= i < |lines| ==> '\n' !in lines[i]
  {
    var parts := Split(s, '\n');
    if parts[|parts| - 1] == "" then parts[..|parts| - 1] else parts
  }

  /** The lines joined with "\n", and a final "\n" when the text ends with one, give the
      text back. */
  lemma SplitLinesJoin(s: string)
    ensures Join(SplitLines(s), "\n") + (if |s| > 0 && s[|s| - 1] == '\n' then "\n" else "") == s
  {
    var parts := Split(s, '\n');
    var n := |parts| - 1;
    JoinSplit(s, '\n');
    if n == 0 {
      assert SplitLines(s) == [] || SplitLines(s) == parts;
      if parts[0] != "" {
        assert s == parts[0];
        assert s[|s| - 1] == parts[0][|parts[0]| - 1] != '\n';
      }
    } else {
      var front := parts[..n];
      assert parts == front + [parts[n]];
      JoinSnoc(front, parts[n], "\n");
      if parts[n] == "" {
        assert s == Join(front, "\n") + "\n";
      } else {
        assert SplitLines(s) == parts;
        assert s[|s| - 1] == parts[n][|parts[n]| - 1] != '\n';
      }
    }
  }

  /** Only the empty text has no lines. */
  lemma SplitLinesEmpty(s: string)
    ensures SplitLines(s) == [] <==> s == ""
  {
    if SplitLines(s) == [] {
      JoinSplit(s, '\n');
      assert Split(s, '\n') == [""];
    }
  }

  /** The lines of a text hold no character the text does not hold. */
  lemma SplitLinesAvoids(s: string, c: char)
    requires c !in s
    ensures forall i :: 0 <= i < |SplitLines(s)| ==> c !in SplitLines(s)[i]
  {
    SplitAvoids(s, '\n', c);
    var parts := Split(s, '\n');
    forall i | 0 <= i < |SplitLines(s)| ensures c !in SplitLines(s)[i] {
      assert SplitLines(s)[i] == parts[i];
    }
  }

  /** Lines written one after another, each followed by '\n', are read back as written. */
  lemma LinesOfTerminated(lines: seq<string>)
    requires |lines| >= 1
    requires forall i :: 0 <= i < |lines| ==> '\n' !in lines[i]
    ensures SplitLines(Join(lines, "\n") + "\n") == lines
  {
    JoinSnoc(lines, "", "\n");
    assert Join(lines, "\n") + "\n" == Join(lines + [""], "\n");
    SplitJoin(lines + [""], '\n');
    assert (lines + [""])[..|lines|] == lines;
  }

  /** C#'s `TrimEnd(c)` and Python's `rstrip(c)`: drop every trailing `c`. */
  function TrimEnd(s: string, c: char): (t: string)
    ensures t <= s
    ensures |t| == 0 || t[|t| - 1] != c
    ensures forall i :: |t| <= i < |s| ==> s[i] == c
  {
    if |s| > 0 && s[|s| - 1] == c then TrimEnd(s[..|s| - 1], c) else s
  }

  /** A text without `c` has nothing for `TrimEnd(c)` to remove. */
  lemma TrimEndAbsent(s: string, c: char)
    requires c !in s
    ensures TrimEnd(s, c) == s
  {
    assert |s| > 0 ==> s[|s| - 1] != c;
  }

  /** Trimming adds no character. */
  lemma TrimEndAvoids(s: string, c: char, x: char)
    requires x !in s
    ensures x !in TrimEnd(s, c)
  {
    var t := TrimEnd(s, c);
    forall i | 0 <= i < |t| ensures t[i] != x {
      assert t[i] == s[i];
    }
  }

  /** Trimming one character keeps the count of any other character. */
  lemma TrimEndKeepsOthers(s: string, c: char, d: char)
    requires c != d
    ensures multiset(TrimEnd(s, c))[d] == multiset(s)[d]
  {
    var t := TrimEnd(s, c);
    var tail := s[|t|..];
    assert s == t + tail;
    assert d !in tail;
    assert multiset(s) == multiset(t) + multiset(tail);
  }

  /** Trimming twice is trimming once. */
  lemma TrimEndTwice(s: string, c: char)
    ensures TrimEnd(TrimEnd(s, c), c) == TrimEnd(s, c)
  {
  }

  /** Trimming a text whose front does not end with `c` trims only its back part. */
  lemma {:induction false} TrimEndConcat(a: string, b: string, c: char)
    requires |a| > 0 && a[|a| - 1] != c
    ensures TrimEnd(a + b, c) == a + TrimEnd(b, c)
  {
    if |b| > 0 && b[|b| - 1] == c {
      assert (a + b)[..|a + b| - 1] == a + b[..|b| - 1];
      TrimEndConcat(a, b[..|b| - 1], c);
    } else if |b| == 0 {
      assert a + b == a;
    }
  }

  /** Trimming `c` from the end of a text trims only its last part: the other parts
      split at `d` stay as they are. */
  lemma SplitTrimEnd(s: string, c: char, d: char)
    requires c != d
    ensures var p := Split(s, d); var n := |p| - 1;
      Split(TrimEnd(s, c), d) == p[..n] + [TrimEnd(p[n], c)]
  {
    var p := Split(s, d);
    var n := |p| - 1;
    var last := TrimEnd(p[n], c);
    TrimEndAvoids(p[n], c, d);
    JoinSplit(s, d);
    var q := p[..n] + [last];
    if n == 0 {
      assert s == p[0];
      SplitConcat(last, "", d);
      assert last + "" == last;
    } else {
      var front := Join(p[..n], [d]);
      assert p == p[..n] + [p[n]];
      JoinSnoc(p[..n], p[n], [d]);
      assert s == (front + [d]) + p[n];
      TrimEndConcat(front + [d], p[n], c);
      JoinSnoc(p[..n], last, [d]);
      assert TrimEnd(s, c) == Join(q, [d]);
      assert forall i :: 0 <= i < |q| ==> d !in q[i] by {
        forall i | 0 <= i < |q| ensures d !in q[i] {
          if i < n {
            assert q[i] == p[i];
          }
        }
      }
      SplitJoin(q, d);
    }
  }

  /** `s.Replace(a, b)` for single characters (C#'s `Replace("\n", " ")`). */
  function ReplaceChar(s: string, a: char, b: char): (r: string)
    ensures |r| == |s|
    ensures forall i :: 0 <= i < |s| ==> r[i] == (if s[i] == a then b else s[i])
  {
    if s == [] then "" else [if s[0] == a then b else s[0]] + ReplaceChar(s[1..], a, b)
  }

  /** Newlines flattened to spaces, as done before a cell is written. */
  function FlattenNewlines(s: string): (r: string)
    ensures '\n' !in r
    ensures |r| == |s|
  {
    var r := ReplaceChar(s, '\n', ' ');
    assert forall i :: 0 <= i < |r| ==> r[i] != '\n';
    r
  }

  /** Flattening line breaks keeps a text blank, or not blank: '\n' and ' ' are both
      white space. */
  lemma FlattenBlank(s: string)
    ensures IsNullOrWhiteSpace(FlattenNewlines(s)) <==> IsNullOrWhiteSpace(s)
  {
    var f := FlattenNewlines(s);
    assert forall i :: 0 <= i < |s| ==> (IsDotnetWhiteSpace(f[i]) <==> IsDotnetWhiteSpace(s[i]));
  }

  /** Trimming carriage returns keeps a text blank, or not blank: '\r' is white space. */
  lemma TrimEndBlank(s: string)
    ensures IsNullOrWhiteSpace(TrimEnd(s, '\r')) <==> IsNullOrWhiteSpace(s)
  {
    var t := TrimEnd(s, '\r');
    assert forall i :: 0 <= i < |t| ==> t[i] == s[i];
  }

  /** `char.IsWhiteSpace` in .NET: the Unicode space, line and paragraph separators
      together with U+0009..U+000D and U+0085. */
  predicate IsDotnetWhiteSpace(c: char)
  {
    var n := c as int;
    (0x09 <= n <= 0x0D) || n == 0x20 || n == 0x85 || n == 0xA0 || n == 0x1680
    || (0x2000 <= n <= 0x200A) || n == 0x2028 || n == 0x2029 || n == 0x202F
    || n == 0x205F || n == 0x3000
  }

  /** `string.IsNullOrWhiteSpace` (a null string is not representable here). */
  predicate IsNullOrWhiteSpace(s: string)
  {
    forall i :: 0 <= i < |s| ==> IsDotnetWhiteSpace(s[i])
  }

  /** Python's `str.isspace` per character (what `strip()` and `int()` remove): .NET's set
      plus the four information separators U+001C..U+001F. */
  predicate IsPythonSpace(c: char)
  {
    IsDotnetWhiteSpace(c) || (0x1C <= c as int <= 0x1F)
  }

  /** Python's `not s.strip()`: the string is empty or all whitespace. */
  predicate IsPythonBlank(s: string)
  {
    forall i :: 0 <= i < |s| ==> IsPythonSpace(s[i])
  }

  /** The white space `NumberStyles.AllowLeadingWhite`/`AllowTrailingWhite` accept:
      U+0009..U+000D and U+0020. */
  predicate IsNumberWhite(c: char)
  {
    (0x09 <= c as int <= 0x0D) || c == ' '
  }

  /** ASCII upper-casing, the part of `StringComparison.OrdinalIgnoreCase` this model keeps. */
  function AsciiUpper(c: char): char
  {
    if 'a' <= c <= 'z' then (c as int - 32) as char else c
  }

  /** `a.Equals(b, StringComparison.OrdinalIgnoreCase)`, with ASCII case folding. */
  predicate EqualsIgnoreCase(a: string, b: string)
  {
    |a| == |b| && forall i :: 0 <= i < |a| ==> AsciiUpper(a[i]) == AsciiUpper(b[i])
  }

  /** The last position of `xs` holding exactly `x`, or -1: what a loop that overwrites
      the index at every match leaves behind (a C# `switch` over header names, or a
      Python dict comprehension over `enumerate`). */
  function LastIndex(xs: seq<string>, x: string): (i: int)
    ensures -1 <= i < |xs|
    ensures i >= 0 ==> xs[i] == x
    ensures forall j :: i < j < |xs| ==> xs[j] != x
  {
    if xs == [] then -1
    else if xs[|xs| - 1] == x then |xs| - 1
    else LastIndex(xs[..|xs| - 1], x)
  }

  /** `xs[i]` is the first element equal to `key` in any letter case. */
  predicate FirstMatch(xs: seq<string>, key: string, i: int)
  {
    0 <= i < |xs| && EqualsIgnoreCase(xs[i], key)
    && forall j :: 0 <= j < i ==> !EqualsIgnoreCase(xs[j], key)
  }

  /** C#'s `string.Length`: UTF-16 code units, two for a character above U+FFFF. */
  function Utf16Length(s: string): (n: nat)
    ensures |s| <= n <= 2 * |s|
    ensures n == |s| <==> forall i :: 0 <= i < |s| ==> s[i] as int <= 0xFFFF
  {
    if s == [] then 0
    else
      var front := s[..|s| - 1];
      assert forall i :: 0 <= i < |front| ==> front[i] == s[i];
      Utf16Length(front) + (if s[|s| - 1] as int > 0xFFFF then 2 else 1)
  }

  /** A character outside the Basic Multilingual Plane counts twice. */
  lemma Utf16LengthAstral(c: char, d: char)
    requires c as int > 0xFFFF && d as int <= 0xFFFF
    ensures Utf16Length([c]) == 2 && Utf16Length([d]) == 1
    ensures Utf16Length([c, c]) == 4
  {
    assert [c, c][..1] == [c];
  }

  /** `Array.FindIndex(xs, x => x.Equals(key, StringComparison.OrdinalIgnoreCase))`:
      the first position whose element matches, or -1 when none does. */
  function FindIgnoreCase(xs: seq<string>, key: string): (i: int)
    ensures -1 <= i < |xs|
    ensures i >= 0 ==> EqualsIgnoreCase(xs[i], key)
    ensures forall j :: 0 <= j < |xs| && (i < 0 || j < i) ==> !EqualsIgnoreCase(xs[j], key)
  {
    if |xs| == 0 then -1
    else if EqualsIgnoreCase(xs[0], key) then 0
    else
      var k := FindIgnoreCase(xs[1..], key);
      if k < 0 then -1 else k + 1
  }

  /** Splitting a text after its first line. */
  lemma SplitAfterLine(header: string, body: string)
    requires '\n' !in header
    ensures Split(header + "\n" + body, '\n') == [header] + Split(body, '\n')
  {
    assert header + "\n" + body == header + (['\n'] + body);
    SplitConcat(header, ['\n'] + body, '\n');
    SplitSep(body, '\n');
    assert header + "" == header;
  }
}
